=== FILE: README.md ===
# C++ include-graph and compile-cost analysis, modelled in Dafny

This project models the analysis engine of `CppProjectAnalyzer`, a Python tool.
The tool scans a C/C++ tree, builds the file-level `#include` graph and derives
compile-cost diagnostics and suggestions from it. The model also covers the
build-system detection and analyzer selection of `build_analyzers`.

The model follows the sequential analysis path. Its stages:

- file discovery with its ignore patterns (`discovery.dfy`);
- the leading-include parser, the `_analyze_file_includes` regular expression read character by character (`include_parser.dfy`);
- the include resolver, with its suffix fallbacks and recursive glob (`resolver.dfy`);
- the per-file pass, which accumulates the include graph, `dependency_count`, `header_frequency`, `file_sizes` and the threshold issues (`file_analysis.dfy`, `include_graph.dfy`, `diagnostics.dfy`);
- the integer complexity score (`complexity.dfy`);
- the depth-first cycle detector (`cycles.dfy`);
- the unused-header set (`include_graph.dfy`);
- the build-time estimates (`build_cost.dfy`);
- the seven suggestion rules and the parallel build command (`suggestions.dfy`);
- the whole `analyze_project` run and the counts of `_get_analysis_summary` (`analyzer.dfy`);
- `_detect_build_system_from_files` and `get_build_analyzer`, over a finite directory tree (`build_detection.dfy`).

The project is immutable data. Each file is a path plus its content, or nothing when it cannot be opened. Content is:

- the decoded text;
- the counts of the lexical patterns the tool matches with regular expressions;
- the line count;
- whether a second read with the platform's strict encoding succeeds.

The filesystem the resolver consults is a parameter:

- the set of existing files;
- the set of existing directories;
- a function giving the recursive glob's results, or `None` when the glob raises.

The order in which Python iterates a `set` is an uninterpreted parameter, `listing`. Python's dicts keep insertion order, and `OrderedMaps.OMap` models that.

Behaviour follows the code where the code and its documentation differ:

- **Only one include per file.** The include pattern is compiled without `re.MULTILINE`. So `^` anchors at the start of the whole text, and a file contributes at most one include name. It contributes one only when that directive is the file's first non-blank content. A file that opens with an include guard contributes none.
- **The delimiter branches are dead.** The captured group excludes `>` and `"`. The resolver's branches for names that start with `<` or `"` therefore never fire. Angle-bracket names are searched in the project like quoted ones, and nothing is looked up relative to the including file.
- **Templates count only when enabled.** The complexity score counts templates only when template analysis is enabled.
- **Cycle order comes from a set.** The cycle detector's stack is a `set`. A reported cycle lists the stack in set-iteration order, not in path order.
- **Suggestion rules run in a fixed order.** The unified-header rule asks for more than five forward declarations and fewer than three includes.
- **A run makes no restructuring suggestions.** `analyze_project` generates suggestions before it estimates build times, so a run never produces a code-restructuring suggestion.

## Model

| member | source | states |
|---|---|---|
| `Strings.SkipSpaces` | src/CppProjectAnalyzer.py:151 | a `\s*` run: stops at the first non-whitespace position at or after the start, having passed only whitespace |
| `Strings.Contains` | src/CppProjectAnalyzer.py:181 | `sub in s` holds exactly when `sub` occurs at some position of `s` |
| `Strings.StripChar` | src/CppProjectAnalyzer.py:186 | `strip('"')` leaves a slice of the name that neither starts nor ends with the quote, having removed only quotes at either end |
| `Strings.Strip` | src/build_analyzers/__init__.py:125 | `strip()` leaves a slice that neither starts nor ends with whitespace, having removed only whitespace at either end |
| `Strings.NatToString` | src/CppProjectAnalyzer.py:306 | `str(n)` is a non-empty string of decimal digits whose value is `n`, with no leading zero, and is one digit long exactly below ten |
| `Strings.NatToStringInjective` | src/CppProjectAnalyzer.py:306 | different numbers print differently, so cycle labels never collide |
| `Project.PathSuffix` | src/CppProjectAnalyzer.py:232 | a name without a '.' has no suffix; a non-empty `Path.suffix` is a '.' followed by at least one character that is neither '.' nor '/'; it is shorter than the file name and ends the path |
| `Project.PathSuffixAtLastDot` | src/CppProjectAnalyzer.py:232 | the suffix is the name from its last '.' on when that dot is neither first nor last, and empty otherwise; both directions of when it is non-empty |
| `Project.HeaderSuffixExample` | src/CppProjectAnalyzer.py:899 | `src/a.h` has suffix `.h` and counts as a header |
| `Project.TrailingDotExample` | src/CppProjectAnalyzer.py:232 | `src/a.h.` has no suffix, although its name contains `.h` |
| `Project.NormaliseIdempotent` | src/CppProjectAnalyzer.py:187 | parsing an already parsed relative path changes nothing |
| `Project.NormaliseCollapsesSlashes` | src/CppProjectAnalyzer.py:187 | a doubled '/' between components counts as one |
| `Project.JoinIgnoresDotPrefix` | src/CppProjectAnalyzer.py:187 | `base / ("./" + rel)` equals `base / rel` for a relative `rel` |
| `Project.JoinPlainName` | src/CppProjectAnalyzer.py:194 | a plain file name is appended to the base after one '/' |
| `Project.HeaderAndSourceDisjoint` | src/CppProjectAnalyzer.py:900-901 | no path is both a header and a source file, so the summary's two counts never overlap |
| `Discovery.LiteralPatternMatchesOnlyItself` | src/CppProjectAnalyzer.py:81 | `fnmatch` with a wildcard-free pattern is whole-string equality |
| `Discovery.StarMatchesEverything` | src/CppProjectAnalyzer.py:81 | a lone `*` ignores every path |
| `Discovery.StarSuffixMatchesEndings` | src/CppProjectAnalyzer.py:81 | `*` plus a literal matches exactly the paths ending with that literal |
| `Discovery.LastLiteralMustMatch` | src/CppProjectAnalyzer.py:81 | a pattern ending in a literal only matches text ending in that character |
| `Discovery.DefaultPatternsNeverMatchFiles` | src/CppProjectAnalyzer.py:70-81 | no built-in ignore pattern matches a path that ends in a discovery extension |
| `Discovery.Discover` | src/CppProjectAnalyzer.py:57-62 | a path is kept exactly when it has a discovery extension and no ignore pattern matches it |
| `Discovery.DefaultPatternsKeepEverything` | src/CppProjectAnalyzer.py:68-81 | with no user patterns, every file with a discovery extension is kept |
| `IncludeParser.LeadingInclude` | src/CppProjectAnalyzer.py:151 | a captured name is non-empty and contains neither '>' nor '"' |
| `IncludeParser.LeadingIncludeIsDirective` | src/CppProjectAnalyzer.py:151 | every captured name is read off a directive at the start of the text: blanks, '#', blanks, "include", blanks, opener, name, closer |
| `IncludeParser.DirectiveIsFound` | src/CppProjectAnalyzer.py:151 | every text of that shape yields exactly the name between its delimiters |
| `IncludeParser.LeadingIncludeMatchesGrammar` | src/CppProjectAnalyzer.py:151 | the parser yields a name if and only if the text begins with a directive carrying that name |
| `IncludeParser.LaterTextIsIgnored` | src/CppProjectAnalyzer.py:161 | text after a leading directive never changes the result, so a file contributes at most one name |
| `IncludeParser.NoDirectiveFirstMeansNoInclude` | src/CppProjectAnalyzer.py:151 | a file whose first non-blank character is not '#' contributes no include |
| `IncludeParser.IncludeGuardHidesIncludes` | src/CppProjectAnalyzer.py:151 | a file opening with `#ifndef` contributes no include, whatever follows |
| `IncludeParser.OnlyFirstDirectiveCounts` | src/CppProjectAnalyzer.py:161 | of two consecutive directives only the first name is captured |
| `Resolver.FirstFile` | src/CppProjectAnalyzer.py:199-201 | the glob loop returns the earliest regular file among its results, or nothing when none is a file |
| `Resolver.TrySuffix` | src/CppProjectAnalyzer.py:193-201 | an existing root candidate is returned first; otherwise the first regular file the glob yields is returned, a miss happens exactly when the glob yields no regular file, and a raising glob is reported as such |
| `Resolver.GlobFindsFirstFile` | src/CppProjectAnalyzer.py:192-201 | a name absent under the root resolves to the first regular file its glob yields |
| `Resolver.GlobMissTriesNextSuffix` | src/CppProjectAnalyzer.py:192-201 | when neither the root nor the glob has the bare name, the `.h` attempt decides |
| `Resolver.SubdirectoryHeaderFound` | src/CppProjectAnalyzer.py:178-201 | `util.h`, absent under the root `r`, resolves to `r/src/util/util.h` when the glob yields that file |
| `Resolver.FirstDecisive` | src/CppProjectAnalyzer.py:192-203 | the loop's outcome is the first attempt that does not miss, or a miss when all attempts miss |
| `Resolver.SearchProject` | src/CppProjectAnalyzer.py:192-203 | the suffixes `""`, `.h`, `.hpp`, `.hh`, `.hxx` are tried in order; a resolved path exists; the result is a miss exactly when every suffix misses |
| `Resolver.ResolveInclude` | src/CppProjectAnalyzer.py:178-203 | every resolved path exists, and a `<...>` name is never resolved |
| `Resolver.ParsedNamesSkipDelimiterBranches` | src/CppProjectAnalyzer.py:181-189 | for every name the parser yields, resolution is the plain project search |
| `Resolver.RootCandidateWins` | src/CppProjectAnalyzer.py:193-196 | a name whose joined, normalised path under the root exists resolves there, before any glob |
| `Resolver.DotPrefixedNameFindsRootFile` | src/CppProjectAnalyzer.py:192-196 | a "./"-prefixed relative name finds the same root file as the bare name |
| `Resolver.UndelimitedNameSearchesProject` | src/CppProjectAnalyzer.py:180-192 | a name starting with neither '<' nor '"' goes straight to the project search |
| `Resolver.DotSlashIncludeFindsRootHeader` | src/CppProjectAnalyzer.py:178-196 | the name `./a.h` resolves to `r/a.h` whenever that path exists under the root `r` |
| `Resolver.DotSlashIncludeFindsRootFile` | src/CppProjectAnalyzer.py:178-196 | in a project holding `r/a.h` and `r/m.cpp`, `./a.h` included from `r/m.cpp` resolves to `r/a.h` |
| `OrderedMaps.Put` | src/CppProjectAnalyzer.py:158 | dict assignment: the key maps to the value, other keys keep theirs, a new key goes last and an old one keeps its place |
| `OrderedMaps.Increment` | src/CppProjectAnalyzer.py:170 | `defaultdict(int)` increment: the key's count rises by one from 0 or its old value, other keys unchanged |
| `IncludeGraph.AddEdge` | src/CppProjectAnalyzer.py:169 | adding an edge adds exactly that target to the source's successors and changes no other node |
| `IncludeGraph.AddEdgeIdempotent` | src/CppProjectAnalyzer.py:169 | adding the same edge twice is the same as adding it once |
| `IncludeGraph.Targets` | src/CppProjectAnalyzer.py:317-319 | a path is included exactly when some node has it as a successor |
| `IncludeGraph.TargetsAddEdge` | src/CppProjectAnalyzer.py:169 | an added edge adds its target, and nothing else, to the included paths |
| `IncludeGraph.UnusedHeaders` | src/CppProjectAnalyzer.py:317-325 | a path is unused exactly when it is a `.h/.hpp/.hh` file of the catalog and no edge targets it |
| `Complexity.Score` | src/CppProjectAnalyzer.py:241-270 | the score is the weighted sum truncated toward zero |
| `Complexity.ScoreMonotone` | src/CppProjectAnalyzer.py:241-270 | more of any pattern never lowers the score |
| `Complexity.TemplateCountsIgnoredWhenDisabled` | src/CppProjectAnalyzer.py:246-252 | with template analysis off, the template counts do not affect the score |
| `Complexity.TemplateTermsWhenEnabled` | src/CppProjectAnalyzer.py:246-252 | enabling template analysis adds exactly three per template and two per specialisation |
| `Diagnostics.FileIssues` | src/CppProjectAnalyzer.py:205-239 | at most three issues in check order; each is raised if and only if its value strictly exceeds its threshold, and large-header only for headers |
| `Diagnostics.CycleIssues` | src/CppProjectAnalyzer.py:302-310 | one High issue per reported cycle, the k-th labelled "Cycle k+1" and carrying that cycle |
| `Diagnostics.CycleLabelsDistinct` | src/CppProjectAnalyzer.py:306 | no two cycle issues share a label |
| `Diagnostics.UnusedHeaderIssues` | src/CppProjectAnalyzer.py:327-334 | exactly one Low issue per unused header, no two alike, and no other |
| `FileAnalysis.Bump` | src/CppProjectAnalyzer.py:164 | `Counter` increment: the name's count rises by one, other names unchanged |
| `FileAnalysis.AnalyzeFile` | src/CppProjectAnalyzer.py:149-176 | an unreadable file changes nothing; otherwise its size is recorded, its name counted, an edge added only when the name resolves, and its issues appended only when no exception cut the analysis short |
| `FileAnalysis.FrequencyCountsIncludingFiles` | src/CppProjectAnalyzer.py:160-164 | after the pass, a name's frequency is the number of readable files whose leading directive names it, resolved or not |
| `FileAnalysis.DependencyCountCountsResolvingFiles` | src/CppProjectAnalyzer.py:166-170 | after the pass, a path's dependency count is the number of files whose include resolved to it |
| `FileAnalysis.GraphHoldsResolvedIncludes` | src/CppProjectAnalyzer.py:166-169 | after the pass, a node's successors are exactly the resolved targets of the files at that path |
| `FileAnalysis.DependencyKeysAreTargets` | src/CppProjectAnalyzer.py:168-170 | the paths with a dependency count are exactly the edge targets |
| `FileAnalysis.DependencyCountsPositive` | src/CppProjectAnalyzer.py:170 | every recorded dependency count is at least one |
| `FileAnalysis.IssuesAreFileChecksInOrder` | src/CppProjectAnalyzer.py:139-147 | the pass's issues are the per-file checks of each completed file, in file order |
| `FileAnalysis.NoEdgesFromOtherPaths` | src/CppProjectAnalyzer.py:169 | a path that belongs to no file gets no edges |
| `FileAnalysis.AtMostOneEdgePerFile` | src/CppProjectAnalyzer.py:161-169 | with distinct paths, every file has at most one outgoing edge |
| `FileAnalysis.GraphKeysAreFiles` | src/CppProjectAnalyzer.py:143-169 | only paths of the catalog are graph keys |
| `Cycles.CycleFrom` | src/CppProjectAnalyzer.py:282-284 | a reported cycle starts at the node met again and lists only nodes on the stack |
| `Cycles.Visit` | src/CppProjectAnalyzer.py:279-296 | one `dfs` call marks its node visited, keeps earlier reports and only appends non-empty ones |
| `Cycles.VisitAll` | src/CppProjectAnalyzer.py:293-294 | after the successor loop every successor is visited, and earlier reports are kept |
| `Cycles.VisitRoots` | src/CppProjectAnalyzer.py:298-300 | after the outer loop every file is visited, and earlier reports are kept |
| `Cycles.DetectCycles` | src/CppProjectAnalyzer.py:272-300 | every reported cycle is non-empty and made of graph nodes and catalog files |
| `Cycles.StackHitIsOnCycle` | src/CppProjectAnalyzer.py:280-284 | a node met again on the current DFS path lies on a cycle of the graph |
| `Cycles.ReportedCyclesAreReal` | src/CppProjectAnalyzer.py:272-300 | the first node of every reported cycle lies on a cycle of the include graph |
| `Cycles.ReportsImplyCycle` | src/CppProjectAnalyzer.py:272-300 | any report at all means the graph has a cycle |
| `Cycles.ReportsIffCycle` | src/CppProjectAnalyzer.py:272-300 | when every graph key is a catalog file, cycles are reported if and only if the graph has one |
| `BuildCost.Estimate` | src/CppProjectAnalyzer.py:374-375 | the estimate is non-negative, zero exactly for zero lines, and never below lines times the per-line rate |
| `BuildCost.EstimateMonotone` | src/CppProjectAnalyzer.py:374-375 | more lines, a higher score or more includes never lower the estimate |
| `BuildCost.FileEstimate` | src/CppProjectAnalyzer.py:366-380 | an unreadable file, or one the strict second read fails on, gets 0; any other file gets at least its line count times the per-line rate |
| `BuildCost.EstimateAll` | src/CppProjectAnalyzer.py:364-377 | the loop adds an entry for exactly the paths of the files it keeps |
| `BuildCost.EstimatesArePerFile` | src/CppProjectAnalyzer.py:364-377 | each kept file's entry holds its own estimate unless a later file of the same path overwrites it |
| `BuildCost.OtherEstimatesKept` | src/CppProjectAnalyzer.py:364-365 | entries for paths the loop does not keep are unchanged |
| `BuildCost.EstimatesNonNegative` | src/CppProjectAnalyzer.py:374-380 | when no single estimate is negative, no stored estimate is |
| `BuildCost.TotalBoundsEachEstimate` | src/CppProjectAnalyzer.py:903 | the summed build time is non-negative and at least every single estimate |
| `Suggestions.ForwardDeclarations` | src/CppProjectAnalyzer.py:715-729 | one High suggestion, with no command, per header counted more than five times and for no other target; the targets are distinct and follow the insertion order of `dependency_count` |
| `Suggestions.PimplCandidates` | src/CppProjectAnalyzer.py:731-745 | one Medium suggestion, with no command, per header longer than 15000 characters and for no other target; the targets are distinct and follow the insertion order of `file_sizes` |
| `Suggestions.UnifiedHeaders` | src/CppProjectAnalyzer.py:747-770 | one Low suggestion, with no command, per catalog file that is a readable header with more than five forward declarations and fewer than three includes (as many as such files), aimed only at such files and following their catalog order |
| `Suggestions.ParallelCommandFallbackUnused` | src/CppProjectAnalyzer.py:887-896 | every build system has a table entry; the command differs from the fallback exactly for CMake, MSBuild, Bazel, Ninja and Meson |
| `Suggestions.BuildOptimizations` | src/CppProjectAnalyzer.py:772-804 | one High parallel-build suggestion carrying the build command first, then the Medium `ccache` suggestion when caching is on, then the Medium unity-build suggestion without a command when that is on, last |
| `Suggestions.CompilerOptimizationsShape` | src/CppProjectAnalyzer.py:808-854 | every compiler gets a Medium whole-program suggestion aimed at it, and GCC alone a second, Low one |
| `Suggestions.CachingStrategies` | src/CppProjectAnalyzer.py:874-883 | one Medium project-wide caching suggestion exactly when compilation caching is on |
| `Suggestions.SortDescending` | src/CppProjectAnalyzer.py:859-862 | the result is slowest first and a permutation of the input, and entries that take equally long keep their input order (the sort is stable) |
| `Suggestions.TiesAppend` | src/CppProjectAnalyzer.py:859-862 | the equally slow entries of a concatenation are those of each part, in turn |
| `Suggestions.InsertTies` | src/CppProjectAnalyzer.py:859-862 | one insertion step places the new entry after every entry that takes exactly as long |
| `Suggestions.TiesOfPrefix` | src/CppProjectAnalyzer.py:863 | cutting the sorted list to its first entries keeps the first of each group of equally slow entries |
| `Suggestions.SlowEntries` | src/CppProjectAnalyzer.py:860 | an entry is kept exactly when its estimate exceeds 1.0, and the kept entries stay in key order |
| `Suggestions.TopSlowFiles` | src/CppProjectAnalyzer.py:859-863 | at most five entries, slowest first, each a real estimate above 1.0; equally slow files appear in key order and are the first such files in key order |
| `Suggestions.TopSlowFilesAreTheSlowest` | src/CppProjectAnalyzer.py:859-863 | a slow file left out only happens when five files are shown, none faster than it |
| `Suggestions.RestructuringSuggestions` | src/CppProjectAnalyzer.py:856-872 | at most five Medium suggestions, each for a file estimated above 1.0, in descending estimate order |
| `Suggestions.NoEstimatesNoRestructuring` | src/CppProjectAnalyzer.py:859-863 | with no estimates recorded there is nothing to restructure |
| `Suggestions.RulesInOrder` | src/CppProjectAnalyzer.py:702-713 | the seven rules' outputs, concatenated in call order, are grouped by rule in that order |
| `Suggestions.GenerateSuggestions` | src/CppProjectAnalyzer.py:702-713 | earlier suggestions are kept as a prefix, at least two are added, grouped in rule order, and the added suggestions of each kind are exactly, in order, the output of the one rule that makes that kind |
| `Suggestions.AllRules` | src/CppProjectAnalyzer.py:706-713 | the seven rules' suggestions in call order: rank-ordered, and per kind exactly that rule's output |
| `Suggestions.OfKindOfRules` | src/CppProjectAnalyzer.py:706-713 | seven single-kind lists of distinct kinds laid end to end give back each list as the suggestions of its kind |
| `BuildDetection.MarkerSystemIsFirstMatch` | src/build_analyzers/__init__.py:97-116 | the marker result is the first build system in the written order whose marker exists; only if none does, autoconf or SCons give Make |
| `BuildDetection.EarlierMarkerWins` | src/build_analyzers/__init__.py:97-110 | a present earlier marker rules out every later build system |
| `BuildDetection.SubmodulePath` | src/build_analyzers/__init__.py:125-127 | a path is read exactly from the stripped lines starting with `path =`; it is the stripped text after the first '=' of the line, and so has no blank at either end |
| `BuildDetection.SubmodulePathRoundTrip` | src/build_analyzers/__init__.py:125-127 | writing `path = p` for a trimmed, non-empty `p` reads back `p` |
| `BuildDetection.FindEntry` | src/build_analyzers/__init__.py:128-129 | a found subdirectory has the requested subpath, and none is found only when no subdirectory has it |
| `BuildDetection.FirstSubmoduleWins` | src/build_analyzers/__init__.py:124-132 | the `.gitmodules` loop returns the first line's non-empty result |
| `BuildDetection.MarkersBeforeSubmodules` | src/build_analyzers/__init__.py:97-120 | when a marker decides, `.gitmodules` and submodules do not matter |
| `BuildDetection.NoMarkersNoModulesNothing` | src/build_analyzers/__init__.py:118-136 | without markers and without a readable `.gitmodules`, nothing is detected |
| `BuildDetection.Detect` | src/build_analyzers/__init__.py:84-93 | an absent, empty or non-existent path detects nothing; an existing directory is examined |
| `BuildDetection.AnalyzerMapIsTotal` | src/build_analyzers/__init__.py:73-81 | every build system has an entry, and it is the analyzer written for that system |
| `BuildDetection.AnalyzerFor` | src/build_analyzers/__init__.py:148 | `dict.get` yields an analyzer exactly for keys of the map |
| `BuildDetection.GetBuildAnalyzer` | src/build_analyzers/__init__.py:139-158 | any analyzer returned is one of the map's |
| `BuildDetection.ExplicitChoiceWins` | src/build_analyzers/__init__.py:147-150 | an explicit build system always gets its own analyzer, whatever is on disk |
| `BuildDetection.DetectionWithoutChoice` | src/build_analyzers/__init__.py:153-158 | without a choice, the analyzer is the detected system's, or none exactly when nothing is detected |
| `Analyzer.CyclesOf` | src/CppProjectAnalyzer.py:99-100 | with the check off there are no cycles; with it on, cycles are reported exactly when the graph has one |
| `Analyzer.UnusedOf` | src/CppProjectAnalyzer.py:102-103 | with the check off nothing is unused; with it on, exactly the catalog headers no edge targets |
| `Analyzer.EstimatesOf` | src/CppProjectAnalyzer.py:358-380 | one non-negative estimate per `.cpp/.cc/.cxx` path of the catalog, computed from the last file with that path |
| `Analyzer.SuggestionsOf` | src/CppProjectAnalyzer.py:109 | at least two suggestions, grouped in rule order, none of them a restructuring; the suggestions of each kind are exactly that rule's output over the run's counts, sizes and files with no estimates |
| `Analyzer.AnalyzeProject` | src/CppProjectAnalyzer.py:83-117 | issues are the per-file checks then cycles then unused headers; the enabled cycle check reports exactly when the graph has a cycle; unused headers are never included; estimates cover exactly the source files; no restructuring is suggested |
| `Analyzer.Summarize` | src/CppProjectAnalyzer.py:898-919 | the file total is the catalog size; the header and source counts are the numbers of catalog positions whose suffix is a header or a source suffix, and together they do not exceed the total; the build time is the sum of the estimates, non-negative and at least every estimate; the other counts are the report's sizes |
| `Analyzer.SummaryCounts` | src/CppProjectAnalyzer.py:900-901 | the header and source comprehensions count distinct catalog positions, and no position is in both |
| `Seqs.CountWhereCountsIndices` | src/CppProjectAnalyzer.py:900-901 | counting matches along a sequence gives the number of matching positions |
| `BuildCost.TotalOfEmpty` | src/CppProjectAnalyzer.py:903 | the sum over no estimates is zero |
| `BuildCost.TotalPutNew` | src/CppProjectAnalyzer.py:903 | recording the estimate of a new file adds it to the sum |
| `BuildCost.TotalPutExisting` | src/CppProjectAnalyzer.py:903 | recording a file again replaces its old estimate in the sum |
| `Analyzer.IssueCountSplits` | src/CppProjectAnalyzer.py:916 | the issue count is the per-file issues plus one per cycle plus one per unused header |
| `Analyzer.FileIssuesAreFileChecks` | src/CppProjectAnalyzer.py:205-239 | the per-file pass raises only the three threshold kinds |
| `Analyzer.CycleIssueIffCycle` | src/CppProjectAnalyzer.py:302-310 | with the check on, a run records a circular-dependency issue exactly when its include graph has a cycle |
| `Analyzer.UnusedIssueIffNeverIncluded` | src/CppProjectAnalyzer.py:312-334 | with the check on, a catalog header gets an unused-header issue exactly when no file's include resolved to it |

## Left out

- Analyzer.AnalyzeProject: models the sequential per-file pass, whatever `parallelAnalysis` says, although that option is on by default. `_parallel_analyze_files` runs the same per-file analysis on a thread pool. The shared dictionaries and lists are then filled in completion order. A file that times out or raises is only reported on the console. That is concurrency, so its interleavings are not modelled.
- Project.Join: follows `PurePath` parsing. Empty and "." components are dropped, ".." components are kept, and an absolute right operand replaces the base. Existence is then looked up textually in the filesystem's sets, so `a/../b.h` and `b.h` are different paths, and symbolic links are not followed.
- Discovery.Matches: `fnmatch` bracket classes `[seq]` and `[!seq]` are not modelled; a '[' in a pattern matches only itself. The default ignore patterns use none.
- Discovery.Matches: matching is case-sensitive, as `fnmatch` is on POSIX. On Windows `fnmatch` applies `os.path.normcase`, so `Build/` would also be ignored by the pattern `build/` there. The model assumes a POSIX platform.
- BuildCost.FileEstimate: the complexity is scored on the counts of the UTF-8 read with errors ignored. Python scores the text of a second `open(file_path).read()` in the locale encoding (src/CppProjectAnalyzer.py:369). On a UTF-8 locale the two texts agree whenever the second read succeeds, and a failing second read stores 0, which is modelled by `strictDecode`. Under a non-UTF-8 locale, such as Windows cp1252 or cp936, the second read can succeed with different text and so a different score. The model assumes a UTF-8 locale.
- Cycles.Visit: the model recurses without bound. Python's `dfs` is recursive too, so a chain of includes deeper than the interpreter's recursion limit (about 1000 files) raises `RecursionError`. Nothing catches it, and the whole run aborts. The model reports the cycles of such graphs instead.
- File reads, globbing and `exists`: these are inputs. Files arrive with their content, the recursive glob is a parameter, and directory trees are datatypes.
- Lexical pattern counts: the counts behind the complexity score, the include counter and the forward-declaration counter are given as natural numbers. Their regular expressions are not modelled.
- Template usage: `_analyze_template_usage` only feeds a summary counter from file reads.
- Most-used headers: the `most_common(10)` list of the summary is left out for the same reason as template usage.
- Discovery order: `discover_files` sorts the catalog by path. The model takes the catalog order as given and models only the extension and ignore filters.
- PCH generation, build-configuration templates and report writing: these produce text and files and make subprocess calls.
- The per-tool analyzer modules: the model names the analyzer, not what each one scans for.
- Message, description and action texts of issues and suggestions: these are not modelled. There are three exceptions. The parallel-build command and the `ccache` command are kept. The compiler flags are kept too: `-flto -O2`, `-flto=thin -O2`, `/GL /O2`, `-ipo -O3`, and `-fprofile-generate, -fprofile-use`. The last one condenses the three-step profile-guided action at src/CppProjectAnalyzer.py:824 (generate, run the program, use) into its two flags.
- Line splitting: `.gitmodules` lines arrive already split.
- Submodule paths: they are looked up as given, without path normalisation. A submodule path that leads back to an ancestor directory is not representable in the finite tree.
- Complexity.Score: Python computes a float and truncates it. The model uses the exact rational sum, which is the same value, since only the macro term has a fractional weight and it is a multiple of 0.5.
- BuildCost.Estimate: real arithmetic stands in for Python floats, so rounding is not modelled.
- Cycles.ReportsIffCycle: the "only if" direction needs every graph key to be a catalog file. `FileAnalysis.GraphKeysAreFiles` establishes this for every analysed graph.
- FileAnalysis.AnalyzeFiles: its own contract states only that the state stays well-formed. Its contents are stated by the lemmas about it listed above.

=== FILE: analyzer.dfy ===
/**
 * `analyze_project` on the sequential path: the per-file pass, the optional
 * cycle and unused-header checks, the suggestion rules, the build-time
 * estimates, and the counts of `_get_analysis_summary`.
 */
module Analyzer {
  import opened Wrappers
  import opened Seqs
  import opened Config
  import opened Project
  import opened OrderedMaps
  import opened IncludeGraph
  import opened Diagnostics
  import opened FileAnalysis
  import Cycles
  import Suggestions
  import BuildCost

  /** Everything one run leaves in the analyser's fields. */
  datatype Report = Report(
    analysis: Analysis,
    cycles: seq<seq<Path>>,
    unused: set<Path>,
    issues: seq<Issue>,
    suggestions: seq<Suggestions.Suggestion>,
    estimates: OMap<Path, real>)

  /** The counts `_get_analysis_summary` returns. */
  datatype Summary = Summary(
    totalFiles: nat,
    headerFiles: nat,
    sourceFiles: nat,
    estimatedBuildTime: real,
    issuesFound: nat,
    suggestions: nat,
    circularDeps: nat,
    unusedHeaders: nat)

  /** The issues the two optional checks add after the per-file pass. */
  function CheckIssues(listing: Listing, cycles: seq<seq<Path>>, unused: set<Path>): seq<Issue>
    requires IsListing(listing)
  {
    CycleIssues(cycles) + UnusedHeaderIssues(listing, unused)
  }

  /**
   * `_detect_circular_dependencies`, when enabled: when every including
   * file is in the catalog, some cycle is reported exactly when the graph
   * has one.
   */
  function CyclesOf(cfg: AnalysisConfig, g: Graph, files: seq<SourceFile>, listing: Listing): (cycles: seq<seq<Path>>)
    requires IsListing(listing)
    ensures !cfg.enableCircularDepCheck ==> cycles == []
    ensures cfg.enableCircularDepCheck && g.Keys <= ToSet(Paths(files)) ==> (cycles != [] <==> HasCycle(g))
    ensures forall k :: 0 <= k < |cycles| ==> cycles[k] != []
  {
    if cfg.enableCircularDepCheck then
      var cycles := Cycles.DetectCycles(g, Paths(files), listing);
      assert g.Keys <= ToSet(Paths(files)) ==> (cycles != [] <==> HasCycle(g)) by {
        if g.Keys <= ToSet(Paths(files)) {
          Cycles.ReportsIffCycle(g, Paths(files), listing);
        }
      }
      cycles
    else []
  }

  /** `_detect_unused_headers`, when enabled: the catalog's headers that no edge points at. */
  function UnusedOf(cfg: AnalysisConfig, files: seq<SourceFile>, g: Graph): (unused: set<Path>)
    ensures !cfg.enableUnusedHeaderCheck ==> unused == {}
    ensures cfg.enableUnusedHeaderCheck ==>
              forall p :: p in unused <==> (exists f :: f in files && f.path == p && IsHeader(p)) && p !in Targets(g)
  {
    if cfg.enableUnusedHeaderCheck then UnusedHeaders(files, g) else {}
  }

  /** `_estimate_build_times`: one non-negative entry per translation unit of the catalog. */
  function EstimatesOf(files: seq<SourceFile>, g: Graph, templateAnalysis: bool): (estimates: OMap<Path, real>)
    ensures estimates.Valid()
    ensures estimates.entries.Keys == BuildCost.PathsWhere(files, IsSource)
    ensures BuildCost.NonNegative(estimates.entries)
    ensures forall i :: 0 <= i < |files| && IsSource(files[i].path) && BuildCost.LastWith(files, i) ==>
              estimates.entries[files[i].path] == BuildCost.FileEstimate(files[i], g, templateAnalysis)
  {
    var estimate := f => BuildCost.FileEstimate(f, g, templateAnalysis);
    BuildCost.EstimatesNonNegative(files, IsSource, estimate, Empty());
    BuildCost.EstimatesArePerFile(files, IsSource, estimate, Empty());
    BuildCost.EstimateAll(files, IsSource, estimate, Empty())
  }

  /**
   * `generate_suggestions` in a fresh run: no suggestion is held yet and
   * no estimate exists, so the restructuring rule adds nothing.
   */
  function SuggestionsOf(st: Analysis, files: seq<SourceFile>, b: BuildSystem, c: Compiler, oc: OptimizationConfig)
    : (r: seq<Suggestions.Suggestion>)
    requires st.Valid()
    ensures |r| >= 2 && Suggestions.RankOrdered(r)
    ensures forall i :: 0 <= i < |r| ==> r[i].kind != Suggestions.CodeRestructuring
    ensures forall k :: Suggestions.OfKind(r, k)
                        == Suggestions.RuleOutput(k, st.dependencyCount, st.fileSizes, files, b, c, oc, Empty())
  {
    var r := Suggestions.GenerateSuggestions([], st.dependencyCount, st.fileSizes, files, b, c, oc, Empty());
    assert r[0..] == r;
    Suggestions.NoEstimatesNoRestructuring();
    r
  }

  /**
   * One run over the discovered files, in catalog order. The suggestions
   * are generated before `_estimate_build_times` runs, so the
   * restructuring rule still sees no estimates.
   */
  function AnalyzeProject(fs: FileSystem, root: Path, cfg: AnalysisConfig, oc: OptimizationConfig,
                          b: BuildSystem, c: Compiler, files: seq<SourceFile>, listing: Listing): (r: Report)
    requires IsListing(listing)
    ensures r.analysis.Valid() && r.estimates.Valid()
    ensures r.issues == FileIssuesOf(fs, root, cfg, files) + CheckIssues(listing, r.cycles, r.unused)
    ensures cfg.enableCircularDepCheck ==> (r.cycles != [] <==> HasCycle(r.analysis.graph))
    ensures !cfg.enableCircularDepCheck ==> r.cycles == []
    ensures !cfg.enableUnusedHeaderCheck ==> r.unused == {}
    ensures r.unused !! Targets(r.analysis.graph)
    ensures r.estimates.entries.Keys == BuildCost.PathsWhere(files, IsSource)
    ensures BuildCost.NonNegative(r.estimates.entries)
    ensures forall i :: 0 <= i < |files| && IsSource(files[i].path) && BuildCost.LastWith(files, i) ==>
              r.estimates.entries[files[i].path]
              == BuildCost.FileEstimate(files[i], r.analysis.graph, cfg.enableTemplateAnalysis)
    ensures Suggestions.RankOrdered(r.suggestions)
    ensures forall i :: 0 <= i < |r.suggestions| ==> r.suggestions[i].kind != Suggestions.CodeRestructuring
  {
    var st := AnalyzeFiles(fs, root, cfg, files);
    IssuesAreFileChecksInOrder(fs, root, cfg, files);
    GraphKeysAreFiles(fs, root, cfg, files);
    var cycles := CyclesOf(cfg, st.graph, files, listing);
    var unused := UnusedOf(cfg, files, st.graph);
    Report(st, cycles, unused, st.issues + CheckIssues(listing, cycles, unused),
           SuggestionsOf(st, files, b, c, oc), EstimatesOf(files, st.graph, cfg.enableTemplateAnalysis))
  }

  /** `_get_analysis_summary` over the report of a run. */
  function Summarize(files: seq<SourceFile>, r: Report): (s: Summary)
    requires r.estimates.Valid() && BuildCost.NonNegative(r.estimates.entries)
    ensures s.totalFiles == |files|
    ensures s.headerFiles == |set i | 0 <= i < |files| && IsHeader(files[i].path)|
    ensures s.sourceFiles == |set i | 0 <= i < |files| && IsSource(files[i].path)|
    ensures s.headerFiles + s.sourceFiles <= s.totalFiles
    ensures s.estimatedBuildTime == BuildCost.Total(r.estimates)
    ensures s.estimatedBuildTime >= 0.0
    ensures forall p :: p in r.estimates.entries ==> s.estimatedBuildTime >= r.estimates.entries[p]
    ensures s.issuesFound == |r.issues| && s.suggestions == |r.suggestions|
    ensures s.circularDeps == |r.cycles| && s.unusedHeaders == |r.unused|
  {
    var paths := Paths(files);
    var headers := CountWhere(paths, IsHeader);
    var sources := CountWhere(paths, IsSource);
    SummaryCounts(files);
    var total := BuildCost.Total(r.estimates);
    TotalBoundsEveryEstimate(r.estimates);
    Summary(|files|, headers, sources, total, |r.issues|, |r.suggestions|, |r.cycles|, |r.unused|)
  }

  /** The header and source counts count catalog positions, and no position is counted twice. */
  lemma SummaryCounts(files: seq<SourceFile>)
    ensures CountWhere(Paths(files), IsHeader) == |set i | 0 <= i < |files| && IsHeader(files[i].path)|
    ensures CountWhere(Paths(files), IsSource) == |set i | 0 <= i < |files| && IsSource(files[i].path)|
    ensures CountWhere(Paths(files), IsHeader) + CountWhere(Paths(files), IsSource) <= |files|
  {
    var paths := Paths(files);
    CountWhereCountsIndices(paths, IsHeader);
    CountWhereCountsIndices(paths, IsSource);
    assert IndicesWhere(paths, IsHeader) == set i | 0 <= i < |files| && IsHeader(files[i].path);
    assert IndicesWhere(paths, IsSource) == set i | 0 <= i < |files| && IsSource(files[i].path);
    forall k | 0 <= k < |paths| ensures !(IsHeader(paths[k]) && IsSource(paths[k])) {
      HeaderAndSourceDisjoint(paths[k]);
    }
    DisjointCounts(paths, IsHeader, IsSource);
  }

  /** With no negative estimate, the total is not negative and is at least each estimate. */
  lemma TotalBoundsEveryEstimate(estimates: OMap<Path, real>)
    requires estimates.Valid() && BuildCost.NonNegative(estimates.entries)
    ensures BuildCost.Total(estimates) >= 0.0
    ensures forall p :: p in estimates.entries ==> BuildCost.Total(estimates) >= estimates.entries[p]
  {
    var keys := estimates.keys;
    BuildCost.TotalBoundsEachEstimate(keys, estimates.entries);
    forall p | p in estimates.entries ensures BuildCost.Total(estimates) >= estimates.entries[p] {
      assert keys[IndexOf(keys, p)] == p;
    }
  }

  /** The issue count of the summary splits into per-file checks, cycles and unused headers. */
  lemma IssueCountSplits(fs: FileSystem, root: Path, cfg: AnalysisConfig, oc: OptimizationConfig,
                         b: BuildSystem, c: Compiler, files: seq<SourceFile>, listing: Listing)
    requires IsListing(listing)
    ensures var r := AnalyzeProject(fs, root, cfg, oc, b, c, files, listing);
            var s := Summarize(files, r);
            s.issuesFound == |FileIssuesOf(fs, root, cfg, files)| + s.circularDeps + s.unusedHeaders
  {
  }

  predicate AllFileChecks(issues: seq<Issue>) {
    forall i :: 0 <= i < |issues| ==> issues[i].IsFileCheck()
  }

  /** The per-file checks of a run raise only the three threshold issues. */
  lemma {:induction false} FileIssuesAreFileChecks(fs: FileSystem, root: Path, cfg: AnalysisConfig, files: seq<SourceFile>)
    ensures AllFileChecks(FileIssuesOf(fs, root, cfg, files))
  {
    if files != [] {
      var init := files[..|files| - 1];
      var last := files[|files| - 1];
      FileIssuesAreFileChecks(fs, root, cfg, init);
      var added := if Completes(fs, root, last) then FileIssues(last.path, last.content.value, cfg) else [];
      assert AllFileChecks(added) by {
        forall i | 0 <= i < |added| ensures added[i].IsFileCheck() {
          assert added[i] in added;
        }
      }
      assert FileIssuesOf(fs, root, cfg, files) == FileIssuesOf(fs, root, cfg, init) + added;
    }
  }

  predicate HasCycleIssue(issues: seq<Issue>) {
    exists i :: 0 <= i < |issues| && issues[i].CircularDependency?
  }

  /** Cycle issues follow the per-file checks; nothing else in the list is one. */
  lemma CycleIssuesLocated(own: seq<Issue>, listing: Listing, cycles: seq<seq<Path>>, unused: set<Path>)
    requires IsListing(listing)
    requires AllFileChecks(own)
    ensures HasCycleIssue(own + CheckIssues(listing, cycles, unused)) <==> cycles != []
  {
    var cyc := CycleIssues(cycles);
    var unusedIssues := UnusedHeaderIssues(listing, unused);
    var all := own + CheckIssues(listing, cycles, unused);
    assert forall i :: 0 <= i < |own| ==> all[i] == own[i];
    assert forall i :: |own| <= i < |own| + |cyc| ==> all[i] == cyc[i - |own|];
    assert forall i :: |own| + |cyc| <= i < |all| ==> all[i] == unusedIssues[i - |own| - |cyc|];
    if cycles != [] {
      assert all[|own|].CircularDependency?;
    }
  }

  /** An unused-header issue in the run's list comes only from the unused set. */
  lemma UnusedIssuesLocated(own: seq<Issue>, listing: Listing, cycles: seq<seq<Path>>, unused: set<Path>, h: Path)
    requires IsListing(listing)
    requires AllFileChecks(own)
    ensures UnusedHeader(h) in own + CheckIssues(listing, cycles, unused) <==> h in unused
  {
    var cyc := CycleIssues(cycles);
    var unusedIssues := UnusedHeaderIssues(listing, unused);
    var all := own + CheckIssues(listing, cycles, unused);
    assert forall i :: 0 <= i < |own| ==> all[i] == own[i];
    assert forall i :: |own| <= i < |own| + |cyc| ==> all[i] == cyc[i - |own|];
    assert forall i :: |own| + |cyc| <= i < |all| ==> all[i] == unusedIssues[i - |own| - |cyc|];
    if h in unused {
      var k :| 0 <= k < |unusedIssues| && unusedIssues[k] == UnusedHeader(h);
      assert all[|own| + |cyc| + k] == UnusedHeader(h);
    }
  }

  /**
   * With the cycle check on, the run records a circular-dependency issue
   * exactly when the include graph it built has a cycle.
   */
  lemma CycleIssueIffCycle(fs: FileSystem, root: Path, cfg: AnalysisConfig, oc: OptimizationConfig,
                           b: BuildSystem, c: Compiler, files: seq<SourceFile>, listing: Listing)
    requires IsListing(listing) && cfg.enableCircularDepCheck
    ensures var r := AnalyzeProject(fs, root, cfg, oc, b, c, files, listing);
            HasCycleIssue(r.issues) <==> HasCycle(r.analysis.graph)
  {
    var r := AnalyzeProject(fs, root, cfg, oc, b, c, files, listing);
    FileIssuesAreFileChecks(fs, root, cfg, files);
    CycleIssuesLocated(FileIssuesOf(fs, root, cfg, files), listing, r.cycles, r.unused);
  }

  /**
   * With the unused-header check on, a header of the catalog is reported
   * unused exactly when no file's include resolved to it.
   */
  lemma UnusedIssueIffNeverIncluded(fs: FileSystem, root: Path, cfg: AnalysisConfig, oc: OptimizationConfig,
                                    b: BuildSystem, c: Compiler, files: seq<SourceFile>, listing: Listing, h: Path)
    requires IsListing(listing) && cfg.enableUnusedHeaderCheck
    requires exists f :: f in files && f.path == h && IsHeader(h)
    ensures var r := AnalyzeProject(fs, root, cfg, oc, b, c, files, listing);
            UnusedHeader(h) in r.issues <==> CountWhere(files, f => TargetOf(fs, root, f) == Some(h)) == 0
  {
    var r := AnalyzeProject(fs, root, cfg, oc, b, c, files, listing);
    var st := r.analysis;
    assert st == AnalyzeFiles(fs, root, cfg, files);
    assert r.unused == UnusedOf(cfg, files, st.graph);
    DependencyKeysAreTargets(fs, root, cfg, files);
    DependencyCountCountsResolvingFiles(fs, root, cfg, files, h);
    DependencyCountsPositive(fs, root, cfg, files);
    FileIssuesAreFileChecks(fs, root, cfg, files);
    UnusedIssuesLocated(FileIssuesOf(fs, root, cfg, files), listing, r.cycles, r.unused, h);
  }
}

=== FILE: build_cost.dfy ===
/**
 * `_estimate_build_times`: for each translation unit (`.cpp`, `.cc`,
 * `.cxx`) an estimated compile time in seconds, grown by line count,
 * complexity score and number of resolved includes. Python floats are
 * read as reals.
 */
module BuildCost {
  import opened Wrappers
  import opened Project
  import opened Complexity
  import opened IncludeGraph
  import opened OrderedMaps

  /** Seconds per line, an empirical constant. */
  const SecondsPerLine: real := 0.001

  /** `lines * 0.001 * (1 + complexity * 0.01) * (1 + out_degree * 0.1)`. */
  function Estimate(lines: nat, complexity: nat, outDegree: nat): (t: real)
    ensures t >= 0.0
    ensures lines == 0 <==> t == 0.0
    ensures t >= lines as real * SecondsPerLine
  {
    var base := lines as real * SecondsPerLine;
    var complexityFactor := 1.0 + complexity as real * 0.01;
    var dependencyFactor := 1.0 + outDegree as real * 0.1;
    var partial := base * complexityFactor;
    AtLeastOneKeeps(base, complexityFactor);
    AtLeastOneKeeps(partial, dependencyFactor);
    assert partial * dependencyFactor >= partial >= base;
    partial * dependencyFactor
  }

  lemma AtLeastOneKeeps(x: real, y: real)
    requires x >= 0.0 && y >= 1.0
    ensures x * y >= x && (x * y == 0.0 <==> x == 0.0)
  {
  }

  lemma ProductMonotone(a: real, b: real, c: real, d: real)
    requires 0.0 <= a <= b && 0.0 <= c <= d
    ensures a * c <= b * d
  {
    assert a * c <= b * c;
    assert b * c <= b * d;
  }

  /** More lines, a higher score or more includes never shorten the estimate. */
  lemma EstimateMonotone(lines: nat, complexity: nat, outDegree: nat, lines': nat, complexity': nat, outDegree': nat)
    requires lines <= lines' && complexity <= complexity' && outDegree <= outDegree'
    ensures Estimate(lines, complexity, outDegree) <= Estimate(lines', complexity', outDegree')
  {
    var base, base' := lines as real * SecondsPerLine, lines' as real * SecondsPerLine;
    var cf, cf' := 1.0 + complexity as real * 0.01, 1.0 + complexity' as real * 0.01;
    var df, df' := 1.0 + outDegree as real * 0.1, 1.0 + outDegree' as real * 0.1;
    ProductMonotone(base, base', cf, cf');
    ProductMonotone(base * cf, base' * cf', df, df');
  }

  /**
   * The estimate stored for one translation unit. Any exception inside the
   * `try` stores 0: the file cannot be opened, or the second read, which
   * uses the platform's strict default encoding, fails.
   */
  function FileEstimate(f: SourceFile, g: Graph, templateAnalysis: bool): (t: real)
    ensures t >= 0.0
    ensures f.content.None? ==> t == 0.0
    ensures f.content.Some? && !f.content.value.strictDecode ==> t == 0.0
    ensures f.content.Some? && f.content.value.strictDecode ==>
              t >= f.content.value.lines as real * SecondsPerLine
  {
    match f.content
    case None => 0.0
    case Some(c) =>
      if c.strictDecode then Estimate(c.lines, Score(c.features, templateAnalysis), |Succ(g, f.path)|)
      else 0.0
  }

  /** Whether no later file of the catalog has the same path as file `i`. */
  predicate LastWith(files: seq<SourceFile>, i: nat)
    requires i < |files|
  {
    forall j :: i < j < |files| ==> files[j].path != files[i].path
  }

  /** The paths of the catalog's files that satisfy `keep`. */
  function PathsWhere(files: seq<SourceFile>, keep: Path -> bool): (r: set<Path>)
    ensures forall p :: p in r <==> exists i :: 0 <= i < |files| && files[i].path == p && keep(p)
  {
    if files == [] then {}
    else
      var init := files[..|files| - 1];
      var last := files[|files| - 1].path;
      assert forall i :: 0 <= i < |init| ==> init[i] == files[i];
      PathsWhere(init, keep) + (if keep(last) then {last} else {})
  }

  /**
   * The loop over the catalog, starting from the estimates already held:
   * exactly the files whose path passes `keep` gain an entry, holding
   * `estimate` of the file. The analyser keeps translation units
   * (`IsSource`) and estimates them with `FileEstimate`.
   */
  function EstimateAll(files: seq<SourceFile>, keep: Path -> bool, estimate: SourceFile -> real, acc: OMap<Path, real>): (r: OMap<Path, real>)
    requires acc.Valid()
    ensures r.Valid()
    ensures r.entries.Keys == acc.entries.Keys + PathsWhere(files, keep)
    decreases |files|
  {
    if files == [] then acc
    else
      var init := files[..|files| - 1];
      var f := files[|files| - 1];
      var prev := EstimateAll(init, keep, estimate, acc);
      assert PathsWhere(files, keep) == PathsWhere(init, keep) + (if keep(f.path) then {f.path} else {});
      if keep(f.path) then prev.Put(f.path, estimate(f)) else prev
  }

  /** Each kept file's entry holds its own estimate, unless a later file of the same path overwrites it. */
  lemma {:induction false} EstimatesArePerFile(files: seq<SourceFile>, keep: Path -> bool, estimate: SourceFile -> real, acc: OMap<Path, real>)
    requires acc.Valid()
    ensures var r := EstimateAll(files, keep, estimate, acc);
            forall i :: 0 <= i < |files| && keep(files[i].path) && LastWith(files, i) ==>
              r.entries[files[i].path] == estimate(files[i])
    decreases |files|
  {
    if files != [] {
      var init := files[..|files| - 1];
      var f := files[|files| - 1];
      var prev := EstimateAll(init, keep, estimate, acc);
      var r := EstimateAll(files, keep, estimate, acc);
      EstimatesArePerFile(init, keep, estimate, acc);
      forall i | 0 <= i < |files| && keep(files[i].path) && LastWith(files, i)
        ensures r.entries[files[i].path] == estimate(files[i])
      {
        if i < |files| - 1 {
          assert init[i] == files[i] && files[i].path != f.path;
          assert LastWith(init, i);
          assert prev.entries[init[i].path] == estimate(init[i]);
        }
      }
    }
  }

  /** Entries for paths the loop does not keep are left as they were. */
  lemma {:induction false} OtherEstimatesKept(files: seq<SourceFile>, keep: Path -> bool, estimate: SourceFile -> real, acc: OMap<Path, real>)
    requires acc.Valid()
    ensures var r := EstimateAll(files, keep, estimate, acc);
            forall p :: p in acc.entries && p !in PathsWhere(files, keep) ==> r.entries[p] == acc.entries[p]
    decreases |files|
  {
    if files != [] {
      var init := files[..|files| - 1];
      OtherEstimatesKept(init, keep, estimate, acc);
      assert forall i :: 0 <= i < |init| ==> init[i] == files[i];
    }
  }

  predicate NonNegative(m: map<Path, real>) {
    forall p :: p in m ==> m[p] >= 0.0
  }

  /** When no single estimate is negative, no stored estimate is. */
  lemma {:induction false} EstimatesNonNegative(files: seq<SourceFile>, keep: Path -> bool, estimate: SourceFile -> real, acc: OMap<Path, real>)
    requires acc.Valid() && NonNegative(acc.entries)
    requires forall k :: 0 <= k < |files| ==> estimate(files[k]) >= 0.0
    ensures NonNegative(EstimateAll(files, keep, estimate, acc).entries)
    decreases |files|
  {
    if files != [] {
      var init := files[..|files| - 1];
      var f := files[|files| - 1];
      assert forall k :: 0 <= k < |init| ==> init[k] == files[k];
      EstimatesNonNegative(init, keep, estimate, acc);
      var prev := EstimateAll(init, keep, estimate, acc);
      if keep(f.path) {
        assert estimate(files[|files| - 1]) >= 0.0;
        PutKeepsNonNegative(prev, f.path, estimate(f));
      }
    }
  }

  lemma PutKeepsNonNegative(m: OMap<Path, real>, k: Path, v: real)
    requires m.Valid() && v >= 0.0 && NonNegative(m.entries)
    ensures NonNegative(m.Put(k, v).entries)
  {
  }

  /** `sum(build_times_estimate.values())`, over the entries in key order. */
  function Total(estimates: OMap<Path, real>): (t: real)
    requires estimates.Valid()
  {
    SumValues(estimates.keys, estimates.entries)
  }

  /** No estimates add up to nothing. */
  lemma TotalOfEmpty()
    ensures Total(Empty<Path, real>()) == 0.0
  {
  }

  /** Recording a new file adds its estimate to the total. */
  lemma TotalPutNew(estimates: OMap<Path, real>, p: Path, v: real)
    requires estimates.Valid() && p !in estimates.entries
    ensures Total(estimates.Put(p, v)) == Total(estimates) + v
  {
    var e := estimates.entries;
    var keys := estimates.keys;
    assert (keys + [p])[..|keys|] == keys;
    SumValuesAgree(keys, e[p := v], e);
  }

  /** Recording a file again replaces its old estimate in the total. */
  lemma TotalPutExisting(estimates: OMap<Path, real>, p: Path, v: real)
    requires estimates.Valid() && p in estimates.entries
    ensures Total(estimates.Put(p, v)) == Total(estimates) - estimates.entries[p] + v
  {
    SumValuesReplace(estimates.keys, estimates.entries, p, v);
  }

  /** The sum depends only on the values of the listed keys. */
  lemma {:induction false} SumValuesAgree(keys: seq<Path>, e1: map<Path, real>, e2: map<Path, real>)
    requires forall k :: 0 <= k < |keys| ==> keys[k] in e1 && keys[k] in e2 && e1[keys[k]] == e2[keys[k]]
    ensures SumValues(keys, e1) == SumValues(keys, e2)
  {
    if keys != [] {
      var init := keys[..|keys| - 1];
      assert forall k :: 0 <= k < |init| ==> init[k] == keys[k];
      SumValuesAgree(init, e1, e2);
    }
  }

  /** Changing the value of a key listed once changes the sum by the difference. */
  lemma {:induction false} SumValuesReplace(keys: seq<Path>, entries: map<Path, real>, p: Path, v: real)
    requires forall k :: 0 <= k < |keys| ==> keys[k] in entries
    requires forall i, j :: 0 <= i < j < |keys| ==> keys[i] != keys[j]
    requires p in keys
    ensures SumValues(keys, entries[p := v]) == SumValues(keys, entries) - entries[p] + v
  {
    var init := keys[..|keys| - 1];
    assert forall k :: 0 <= k < |init| ==> init[k] == keys[k];
    if keys[|keys| - 1] == p {
      assert p !in init;
      SumValuesAgree(init, entries[p := v], entries);
    } else {
      assert p in init;
      SumValuesReplace(init, entries, p, v);
    }
  }

  function SumValues(keys: seq<Path>, entries: map<Path, real>): real
    requires forall k :: 0 <= k < |keys| ==> keys[k] in entries
  {
    if keys == [] then 0.0 else SumValues(keys[..|keys| - 1], entries) + entries[keys[|keys| - 1]]
  }

  /** The total is not negative, and is at least every single estimate, when none is negative. */
  lemma {:induction false} TotalBoundsEachEstimate(keys: seq<Path>, entries: map<Path, real>)
    requires forall k :: 0 <= k < |keys| ==> keys[k] in entries && entries[keys[k]] >= 0.0
    ensures SumValues(keys, entries) >= 0.0
    ensures forall k :: 0 <= k < |keys| ==> SumValues(keys, entries) >= entries[keys[k]]
  {
    if keys != [] {
      var init := keys[..|keys| - 1];
      TotalBoundsEachEstimate(init, entries);
      assert forall k :: 0 <= k < |init| ==> init[k] == keys[k];
    }
  }
}

=== FILE: build_detection.dfy ===
/**
 * `_detect_build_system_from_files` and `get_build_analyzer`. A project
 * directory is a finite tree: for each directory, which marker files
 * exist (at its top level, or anywhere beneath it as the recursive globs
 * see them), what its `.gitmodules` holds, and the subdirectories that the
 * submodule paths written there name.
 */
module BuildDetection {
  import opened Wrappers
  import opened Strings
  import opened Config
  import Seqs

  /** The existence tests of the detection heuristics, one flag each. */
  datatype Markers = Markers(
    cmakeTop: bool,        // CMakeLists.txt at the top
    cmakeAny: bool,        // CMakeLists.txt anywhere
    proAny: bool,          // some *.pro file
    buildTop: bool,        // BUILD at the top
    workspaceTop: bool,    // WORKSPACE at the top
    buildAny: bool,        // BUILD anywhere
    mesonTop: bool,
    mesonAny: bool,
    makefileTop: bool,
    makefileAny: bool,
    ninjaTop: bool,        // build.ninja
    ninjaAny: bool,
    slnAny: bool,          // some *.sln file
    vcxprojAny: bool,      // some *.vcxproj file
    configureAcTop: bool,
    configureAcAny: bool,
    configureTop: bool,
    sconsTop: bool,        // SConstruct
    sconsAny: bool)

  /** `.gitmodules`: absent, present but unreadable, or its lines. */
  datatype GitModules = NoGitModules | Unreadable | Lines(lines: seq<string>)

  datatype Dir = Dir(markers: Markers, gitmodules: GitModules, subdirs: seq<Entry>)

  /** An existing directory reached as `<dir> / subpath`. */
  datatype Entry = Entry(subpath: string, dir: Dir)

  // ----- The marker decision list -----

  /** The marker test of each build system in the primary list. */
  predicate Present(m: Markers, b: BuildSystem) {
    match b
    case CMake => m.cmakeTop || m.cmakeAny
    case QMake => m.proAny
    case Bazel => m.buildTop || m.workspaceTop || m.buildAny
    case Meson => m.mesonTop || m.mesonAny
    case Make => m.makefileTop || m.makefileAny
    case Ninja => m.ninjaTop || m.ninjaAny
    case MSBuild => m.slnAny || m.vcxprojAny
  }

  /** Order in which the primary markers are tried. */
  const PrimaryOrder: seq<BuildSystem> := [CMake, QMake, Bazel, Meson, Make, Ninja, MSBuild]

  /** autoconf or SCons markers, which both stand for Make. */
  predicate SecondaryMake(m: Markers) {
    m.configureAcTop || m.configureAcAny || m.configureTop || m.sconsTop || m.sconsAny
  }

  /** The heuristics before `.gitmodules` is consulted, tried in the written order. */
  function MarkerSystem(m: Markers): Option<BuildSystem> {
    if m.cmakeTop || m.cmakeAny then Some(CMake)
    else if m.proAny then Some(QMake)
    else if m.buildTop || m.workspaceTop || m.buildAny then Some(Bazel)
    else if m.mesonTop || m.mesonAny then Some(Meson)
    else if m.makefileTop || m.makefileAny then Some(Make)
    else if m.ninjaTop || m.ninjaAny then Some(Ninja)
    else if m.slnAny || m.vcxprojAny then Some(MSBuild)
    else if m.configureAcTop || m.configureAcAny || m.configureTop then Some(Make)
    else if m.sconsTop || m.sconsAny then Some(Make)
    else None
  }

  /** The first build system of `order` whose marker is present. */
  function FirstPresent(m: Markers, order: seq<BuildSystem>): (r: Option<BuildSystem>)
    ensures r.Some? ==> r.value in order && Present(m, r.value)
    ensures r.None? <==> forall i :: 0 <= i < |order| ==> !Present(m, order[i])
  {
    if order == [] then None
    else if Present(m, order[0]) then Some(order[0])
    else FirstPresent(m, order[1..])
  }

  /**
   * The decision list is a first-match search: the earliest present
   * primary marker decides; only when none is present do autoconf and
   * SCons markers give Make.
   */
  lemma MarkerSystemIsFirstMatch(m: Markers)
    ensures FirstPresent(m, PrimaryOrder).Some? ==> MarkerSystem(m) == FirstPresent(m, PrimaryOrder)
    ensures FirstPresent(m, PrimaryOrder).None? ==> MarkerSystem(m) == (if SecondaryMake(m) then Some(Make) else None)
  {
    var tail: seq<BuildSystem> := [];
    FirstPresentCons(m, MSBuild, tail);
    tail := [MSBuild] + tail;
    FirstPresentCons(m, Ninja, tail);
    tail := [Ninja] + tail;
    FirstPresentCons(m, Make, tail);
    tail := [Make] + tail;
    FirstPresentCons(m, Meson, tail);
    tail := [Meson] + tail;
    FirstPresentCons(m, Bazel, tail);
    tail := [Bazel] + tail;
    FirstPresentCons(m, QMake, tail);
    tail := [QMake] + tail;
    FirstPresentCons(m, CMake, tail);
    assert [CMake] + tail == PrimaryOrder;
  }

  lemma FirstPresentCons(m: Markers, b: BuildSystem, tail: seq<BuildSystem>)
    ensures FirstPresent(m, [b] + tail) == if Present(m, b) then Some(b) else FirstPresent(m, tail)
  {
    assert ([b] + tail)[1..] == tail;
  }

  /** An earlier marker wins whatever later markers say. */
  lemma EarlierMarkerWins(m: Markers, i: nat, j: nat)
    requires i < j < |PrimaryOrder|
    requires Present(m, PrimaryOrder[i])
    ensures MarkerSystem(m) != Some(PrimaryOrder[j])
  {
  }

  // ----- Submodules -----

  const PathKey := "path ="

  /**
   * The submodule path a `.gitmodules` line names: the stripped line must
   * start with `path =`, and the path is the stripped text after its first
   * '=' (the one in that prefix).
   */
  function SubmodulePath(line: string): (r: Option<string>)
    ensures r.Some? <==> StartsWith(Strip(line), PathKey)
    ensures r.Some? ==> '=' in Strip(line) && r.value == Strip(Strip(line)[Seqs.IndexOf(Strip(line), '=') + 1..])
    ensures r.Some? && r.value != [] ==> !IsSpace(r.value[0]) && !IsSpace(r.value[|r.value| - 1])
  {
    var stripped := Strip(line);
    if StartsWith(stripped, PathKey) then
      FirstEqualsEndsKey(stripped);
      Some(Strip(stripped[|PathKey|..]))
    else None
  }

  /** In a line that starts with `path =`, the first '=' is the last character of that key. */
  lemma FirstEqualsEndsKey(s: string)
    requires StartsWith(s, PathKey)
    ensures '=' in s && Seqs.IndexOf(s, '=') + 1 == |PathKey|
  {
    assert s[..|PathKey|] == PathKey;
    assert s[5] == '=';
    assert forall j :: 0 <= j < 5 ==> s[j] == PathKey[j] != '=';
  }

  /** Text that neither starts nor ends with whitespace is its own strip. */
  lemma StripKeepsTrimmed(t: string)
    requires t != [] && !IsSpace(t[0]) && !IsSpace(t[|t| - 1])
    ensures Strip(t) == t
  {
    var a, b :| 0 <= a <= b <= |t| && Strip(t) == t[a..b]
                 && (forall k :: 0 <= k < a ==> IsSpace(t[k])) && (forall k :: b <= k < |t| ==> IsSpace(t[k]));
    assert a == 0 && b == |t|;
  }

  /** Stripping drops a single leading blank in front of trimmed text. */
  lemma StripDropsLeadingBlank(t: string)
    requires t != [] && !IsSpace(t[0]) && !IsSpace(t[|t| - 1])
    ensures Strip(" " + t) == t
  {
    var u := " " + t;
    var a, b :| 0 <= a <= b <= |u| && Strip(u) == u[a..b]
                 && (forall k :: 0 <= k < a ==> IsSpace(u[k])) && (forall k :: b <= k < |u| ==> IsSpace(u[k]));
    assert IsSpace(u[0]) && u[1] == t[0] && u[|u| - 1] == t[|t| - 1];
    assert u[1..] == t;
  }

  /** Writing `path = <p>` for a trimmed, non-empty `p` gives back `p`. */
  lemma SubmodulePathRoundTrip(p: string)
    requires p != [] && !IsSpace(p[0]) && !IsSpace(p[|p| - 1])
    ensures SubmodulePath(PathKey + " " + p) == Some(p)
  {
    var line := PathKey + " " + p;
    assert line[0] == 'p' && line[|line| - 1] == p[|p| - 1];
    StripKeepsTrimmed(line);
    assert StartsWith(line, PathKey) by {
      assert line[..|PathKey|] == PathKey;
    }
    var rest := line[|PathKey|..];
    assert rest == " " + p;
    StripDropsLeadingBlank(p);
    assert SubmodulePath(line) == Some(Strip(rest));
  }

  /** The position of the entry for `subpath`, if that subdirectory exists. */
  function FindEntry(subdirs: seq<Entry>, subpath: string): (r: Option<nat>)
    ensures r.Some? ==> r.value < |subdirs| && subdirs[r.value].subpath == subpath
    ensures r.None? ==> forall i :: 0 <= i < |subdirs| ==> subdirs[i].subpath != subpath
  {
    if subdirs == [] then None
    else if subdirs[0].subpath == subpath then Some(0)
    else match FindEntry(subdirs[1..], subpath)
      case None => None
      case Some(i) => Some(i + 1)
  }

  /** The existing subdirectory that a `.gitmodules` line points at, if any. */
  function Candidate(d: Dir, line: string): (r: Option<nat>)
    ensures r.Some? ==> r.value < |d.subdirs|
  {
    match SubmodulePath(line)
    case None => None
    case Some(sub) => FindEntry(d.subdirs, sub)
  }

  /** `_detect_build_system_from_files` on an existing directory. */
  function DetectDir(d: Dir): Option<BuildSystem>
    decreases d, 1
  {
    var byMarkers := MarkerSystem(d.markers);
    if byMarkers.Some? then byMarkers
    else match d.gitmodules
      case Lines(lines) => DetectSubmodules(d, lines)
      case _ => None
  }

  /** What line `line` contributes: the result for the directory it names, or None. */
  function LineResult(d: Dir, line: string): Option<BuildSystem>
    decreases d, 0, 0
  {
    match Candidate(d, line)
    case None => None
    case Some(i) =>
      assert d.subdirs[i] in d.subdirs;
      DetectDir(d.subdirs[i].dir)
  }

  /** The loop over `.gitmodules` lines: the first line with a result decides. */
  function DetectSubmodules(d: Dir, lines: seq<string>): Option<BuildSystem>
    decreases d, 0, |lines|
  {
    if lines == [] then None
    else
      var found := LineResult(d, lines[0]);
      if found.Some? then found else DetectSubmodules(d, lines[1..])
  }

  /** The result each line contributes, in file order. */
  function LineResults(d: Dir, lines: seq<string>): (r: seq<Option<BuildSystem>>)
    ensures |r| == |lines|
    ensures forall i :: 0 <= i < |lines| ==> r[i] == LineResult(d, lines[i])
  {
    seq(|lines|, i requires 0 <= i < |lines| => LineResult(d, lines[i]))
  }

  /** The first present value of a sequence of options. */
  function FirstSome<T(==)>(rs: seq<Option<T>>): (r: Option<T>)
    ensures r.None? <==> forall i :: 0 <= i < |rs| ==> rs[i].None?
    ensures r.Some? ==> exists i :: 0 <= i < |rs| && rs[i] == r && forall j :: 0 <= j < i ==> rs[j].None?
  {
    if rs == [] then None
    else if rs[0].Some? then
      assert rs[0] == rs[0];
      rs[0]
    else
      var r := FirstSome(rs[1..]);
      assert forall i :: 1 <= i < |rs| ==> rs[i] == rs[1..][i - 1];
      if r.Some? then
        var i :| 0 <= i < |rs[1..]| && rs[1..][i] == r && forall j :: 0 <= j < i ==> rs[1..][j].None?;
        assert rs[i + 1] == r;
        r
      else r
  }

  /**
   * The loop is a first-match search over the lines: the first line with
   * a result decides, and later lines are never looked at.
   */
  lemma {:induction false} FirstSubmoduleWins(d: Dir, lines: seq<string>)
    ensures DetectSubmodules(d, lines) == FirstSome(LineResults(d, lines))
  {
    if lines != [] {
      FirstSubmoduleWins(d, lines[1..]);
      LineResultsTail(d, lines);
    }
  }

  /** The results of the lines after the first are the tail of the results. */
  lemma LineResultsTail(d: Dir, lines: seq<string>)
    requires lines != []
    ensures LineResults(d, lines)[1..] == LineResults(d, lines[1..])
  {
    var rs := LineResults(d, lines);
    assert forall i :: 0 <= i < |lines| - 1 ==> rs[1..][i] == rs[i + 1] == LineResult(d, lines[1..][i]);
  }

  /** `.gitmodules` matters only when every marker test fails. */
  lemma MarkersBeforeSubmodules(d: Dir, g: GitModules, subdirs: seq<Entry>)
    requires MarkerSystem(d.markers).Some?
    ensures DetectDir(d) == DetectDir(Dir(d.markers, g, subdirs)) == MarkerSystem(d.markers)
  {
  }

  /** With no marker and no readable `.gitmodules`, nothing is detected. */
  lemma NoMarkersNoModulesNothing(d: Dir)
    requires MarkerSystem(d.markers).None? && !d.gitmodules.Lines?
    ensures DetectDir(d).None?
  {
  }

  /**
   * The whole detection, given `project_path` and the existing directories
   * by path: an absent or empty path, or one that is not an existing
   * directory, gives None.
   */
  function Detect(projectPath: Option<string>, dirs: map<string, Dir>): (r: Option<BuildSystem>)
    ensures projectPath.None? || projectPath == Some("") ==> r.None?
    ensures projectPath.Some? && projectPath.value !in dirs ==> r.None?
    ensures projectPath.Some? && projectPath.value in dirs && projectPath.value != "" ==>
              r == DetectDir(dirs[projectPath.value])
  {
    match projectPath
    case None => None
    case Some(path) => if path == "" || path !in dirs then None else DetectDir(dirs[path])
  }

  // ----- Analyzer selection -----

  datatype AnalyzerKind =
    | CMakeAnalyzer | QMakeAnalyzer | NinjaAnalyzer | MSBuildAnalyzer
    | MakeAnalyzer | BazelAnalyzer | MesonAnalyzer
  {
    /** The build system the analyzer is written for. */
    function System(): BuildSystem {
      match this
      case CMakeAnalyzer => CMake
      case QMakeAnalyzer => QMake
      case NinjaAnalyzer => Ninja
      case MSBuildAnalyzer => MSBuild
      case MakeAnalyzer => Make
      case BazelAnalyzer => Bazel
      case MesonAnalyzer => Meson
    }
  }

  /** `_BUILD_ANALYZER_MAP`. */
  const AnalyzerMap: map<BuildSystem, AnalyzerKind> := map[
    CMake := CMakeAnalyzer,
    QMake := QMakeAnalyzer,
    Ninja := NinjaAnalyzer,
    MSBuild := MSBuildAnalyzer,
    Make := MakeAnalyzer,
    Bazel := BazelAnalyzer,
    Meson := MesonAnalyzer]

  /** Every build system is a key, and its analyzer is the one written for it. */
  lemma AnalyzerMapIsTotal(b: BuildSystem)
    ensures b in AnalyzerMap && AnalyzerMap[b].System() == b
  {
  }

  /** `dict.get`: None for a build system without an entry. */
  function AnalyzerFor(b: BuildSystem): (r: Option<AnalyzerKind>)
    ensures b in AnalyzerMap <==> r.Some?
    ensures r.Some? ==> r.value == AnalyzerMap[b]
  {
    if b in AnalyzerMap then Some(AnalyzerMap[b]) else None
  }

  /** `get_build_analyzer`: an explicit build system first, detection otherwise. */
  function GetBuildAnalyzer(projectPath: Option<string>, dirs: map<string, Dir>, buildSystem: Option<BuildSystem>): (r: Option<AnalyzerKind>)
    ensures r.Some? ==> r.value in AnalyzerMap.Values
  {
    var explicit := if buildSystem.Some? then AnalyzerFor(buildSystem.value) else None;
    if explicit.Some? then explicit
    else match Detect(projectPath, dirs)
      case None => None
      case Some(b) => AnalyzerFor(b)
  }

  /** An explicit build system always gets its own analyzer, whatever is on disk. */
  lemma ExplicitChoiceWins(projectPath: Option<string>, dirs: map<string, Dir>, b: BuildSystem)
    ensures GetBuildAnalyzer(projectPath, dirs, Some(b)).Some?
    ensures GetBuildAnalyzer(projectPath, dirs, Some(b)).value.System() == b
  {
  }

  /** Without a choice, the analyzer is the one for the detected system, or None when nothing is detected. */
  lemma DetectionWithoutChoice(projectPath: Option<string>, dirs: map<string, Dir>)
    ensures var r := GetBuildAnalyzer(projectPath, dirs, None);
            var d := Detect(projectPath, dirs);
            && (r.None? <==> d.None?)
            && (r.Some? ==> d == Some(r.value.System()))
  {
    var d := Detect(projectPath, dirs);
    if d.Some? {
      AnalyzerMapIsTotal(d.value);
    }
  }
}

=== FILE: complexity.dfy ===
/**
 * `_calculate_complexity`: a weighted sum of lexical counts. The weights are
 * 3 per template declaration and 2 per specialisation (both only when
 * template analysis is on), 1 per include line, 2 per class or struct,
 * 1 per function-like definition and 0.5 per macro; the sum is a float
 * because of the last weight and is truncated by `int(...)`.
 */
module Complexity {
  import opened Project

  /** The sum as the analyser accumulates it, with the float read as a real. */
  function WeightedSum(f: Features, templateAnalysis: bool): real {
    var templateTerms := if templateAnalysis then f.templates * 3 + f.specializations * 2 else 0;
    (templateTerms + f.includes + f.classes * 2 + f.functions) as real + (f.macros as real) * 0.5
  }

  /** The integer score: the weighted sum truncated toward zero. */
  function Score(f: Features, templateAnalysis: bool): (r: nat)
    ensures r as real <= WeightedSum(f, templateAnalysis) < r as real + 1.0
  {
    var templateTerms := if templateAnalysis then 3 * f.templates + 2 * f.specializations else 0;
    var r := templateTerms + f.includes + 2 * f.classes + f.functions + f.macros / 2;
    assert f.macros == 2 * (f.macros / 2) + f.macros % 2;
    assert (f.macros as real) * 0.5 == (f.macros / 2) as real + (f.macros % 2) as real * 0.5;
    r
  }

  /** Every count contributes with a positive weight or not at all. */
  predicate CountsAtMost(f: Features, g: Features) {
    && f.templates <= g.templates && f.specializations <= g.specializations
    && f.includes <= g.includes && f.classes <= g.classes
    && f.functions <= g.functions && f.macros <= g.macros
  }

  /** More of any pattern never lowers the score. */
  lemma ScoreMonotone(f: Features, g: Features, templateAnalysis: bool)
    requires CountsAtMost(f, g)
    ensures Score(f, templateAnalysis) <= Score(g, templateAnalysis)
  {
    assert f.macros / 2 <= g.macros / 2;
  }

  /** With template analysis off, template counts do not matter. */
  lemma TemplateCountsIgnoredWhenDisabled(f: Features, g: Features)
    requires f.(templates := g.templates, specializations := g.specializations) == g
    ensures Score(f, false) == Score(g, false)
  {
  }

  /** Turning template analysis on adds exactly the two template terms. */
  lemma TemplateTermsWhenEnabled(f: Features)
    ensures Score(f, true) == Score(f, false) + 3 * f.templates + 2 * f.specializations
  {
  }
}

=== FILE: config.dfy ===
/** Enumerations and the two configuration records with their default values. */
module Config {

  /** Issue severity and suggestion priority; `Value` is the enum's number. */
  datatype Severity = Low | Medium | High {
    function Value(): nat {
      match this
      case Low => 1
      case Medium => 2
      case High => 3
    }
  }

  datatype BuildSystem = CMake | QMake | Ninja | MSBuild | Make | Bazel | Meson {
    /** The enum's string value, as used in messages and file names. */
    function Name(): string {
      match this
      case CMake => "cmake"
      case QMake => "qmake"
      case Ninja => "ninja"
      case MSBuild => "msbuild"
      case Make => "make"
      case Bazel => "bazel"
      case Meson => "meson"
    }
  }

  datatype Compiler = GCC | Clang | MSVC | ICC

  /** Thresholds and switches of one analysis run. */
  datatype AnalysisConfig = AnalysisConfig(
    maxHeaderIncludes: int,
    maxFileComplexity: int,
    maxHeaderSize: int,
    pchMaxHeaders: int,
    enableTemplateAnalysis: bool,
    enableCircularDepCheck: bool,
    enableUnusedHeaderCheck: bool,
    parallelAnalysis: bool,
    analysisTimeout: int)

  const DefaultAnalysisConfig := AnalysisConfig(
    maxHeaderIncludes := 20,
    maxFileComplexity := 50,
    maxHeaderSize := 10000,
    pchMaxHeaders := 25,
    enableTemplateAnalysis := true,
    enableCircularDepCheck := true,
    enableUnusedHeaderCheck := true,
    parallelAnalysis := true,
    analysisTimeout := 30)

  /** Switches that shape the suggestions. */
  datatype OptimizationConfig = OptimizationConfig(
    generatePch: bool,
    compilePch: bool,
    pchName: string,
    enableLto: bool,
    enableIpo: bool,
    enablePgo: bool,
    unityBuild: bool,
    cacheCompilation: bool,
    parallelBuild: bool)

  const DefaultOptimizationConfig := OptimizationConfig(
    generatePch := false,
    compilePch := false,
    pchName := "pch.h",
    enableLto := true,
    enableIpo := true,
    enablePgo := false,
    unityBuild := false,
    cacheCompilation := true,
    parallelBuild := true)
}

=== FILE: cycles.dfy ===
/**
 * `_detect_circular_dependencies`: a depth-first search over the include
 * graph that keeps a `visited` set and a `recursion_stack` set. Reaching a
 * node that is on the stack reports `list(stack)[i:]`, where `i` is that
 * node's position in the list; since the stack is a set, the list follows
 * set iteration order, which the model leaves open (`Listing`). Successors
 * are likewise visited in set iteration order.
 */
module Cycles {
  import opened Seqs
  import opened Project
  import opened IncludeGraph

  /** The search's results so far: the visited nodes and the cycles reported, in order. */
  datatype Search = Search(visited: set<Path>, cycles: seq<seq<Path>>)

  /** The reported cycle: the stack listed in iteration order, from `node` on. */
  function CycleFrom(listing: Listing, stack: set<Path>, node: Path): (c: seq<Path>)
    requires IsListing(listing) && node in stack
    ensures c != [] && c[0] == node
    ensures forall k :: 0 <= k < |c| ==> c[k] in stack
  {
    var order := listing(stack);
    assert Enumerates(order, stack);
    order[IndexOf(order, node)..]
  }

  /** New cycles are appended, never altered, and each is non-empty and made of visited nodes. */
  ghost predicate Extends(s: Search, r: Search) {
    && s.visited <= r.visited
    && |s.cycles| <= |r.cycles| && r.cycles[..|s.cycles|] == s.cycles
    && forall k :: |s.cycles| <= k < |r.cycles| ==>
         r.cycles[k] != [] && forall j :: 0 <= j < |r.cycles[k]| ==> r.cycles[k][j] in r.visited
  }

  lemma ExtendsTransitive(s: Search, m: Search, r: Search)
    requires Extends(s, m) && Extends(m, r)
    ensures Extends(s, r)
  {
    forall k | |s.cycles| <= k < |r.cycles|
      ensures r.cycles[k] != [] && forall j :: 0 <= j < |r.cycles[k]| ==> r.cycles[k][j] in r.visited
    {
      if k < |m.cycles| {
        assert r.cycles[k] == m.cycles[k];
      }
    }
  }

  lemma {:induction false} SubsetCardinality(a: set<Path>, b: set<Path>)
    requires a <= b
    ensures |a| <= |b|
    decreases |b|
  {
    if a != {} {
      var x :| x in a;
      SubsetCardinality(a - {x}, b - {x});
    }
  }

  lemma GrowingVisitedShrinksRest(universe: set<Path>, v: set<Path>, w: set<Path>)
    requires v <= w
    ensures |universe - w| <= |universe - v|
  {
    SubsetCardinality(universe - w, universe - v);
  }

  /** One call `dfs(node)`, with the enclosing calls' nodes on `stack`. */
  function Visit(g: Graph, universe: set<Path>, listing: Listing, node: Path, stack: set<Path>, s: Search): (r: Search)
    requires IsListing(listing) && Nodes(g) <= universe
    requires node in universe && stack <= s.visited <= universe
    ensures Extends(s, r) && r.visited <= universe
    ensures node in r.visited
    decreases |universe - s.visited|, 0
  {
    if node in stack then
      Search(s.visited, s.cycles + [CycleFrom(listing, stack, node)])
    else if node in s.visited then
      s
    else
      var successors := listing(Succ(g, node));
      assert Enumerates(successors, Succ(g, node));
      SuccInNodes(g, node);
      assert universe - (s.visited + {node}) == (universe - s.visited) - {node};
      VisitAll(g, universe, listing, successors, stack + {node}, Search(s.visited + {node}, s.cycles))
  }

  /** The loop over a node's successors, in iteration order. */
  function VisitAll(g: Graph, universe: set<Path>, listing: Listing, ns: seq<Path>, stack: set<Path>, s: Search): (r: Search)
    requires IsListing(listing) && Nodes(g) <= universe
    requires forall k :: 0 <= k < |ns| ==> ns[k] in universe
    requires stack <= s.visited <= universe
    ensures Extends(s, r) && r.visited <= universe
    ensures forall k :: 0 <= k < |ns| ==> ns[k] in r.visited
    decreases |universe - s.visited|, |ns| + 1
  {
    if ns == [] then s
    else
      var first := Visit(g, universe, listing, ns[0], stack, s);
      GrowingVisitedShrinksRest(universe, s.visited, first.visited);
      var r := VisitAll(g, universe, listing, ns[1..], stack, first);
      ExtendsTransitive(s, first, r);
      assert forall k :: 1 <= k < |ns| ==> ns[k] == ns[1..][k - 1];
      r
  }

  /** The outer loop: every file not yet visited starts a search with an empty stack. */
  function VisitRoots(g: Graph, universe: set<Path>, listing: Listing, roots: seq<Path>, s: Search): (r: Search)
    requires IsListing(listing) && Nodes(g) <= universe
    requires forall k :: 0 <= k < |roots| ==> roots[k] in universe
    requires s.visited <= universe
    ensures Extends(s, r) && r.visited <= universe
    ensures forall k :: 0 <= k < |roots| ==> roots[k] in r.visited
    decreases |roots|
  {
    if roots == [] then s
    else
      var first := if roots[0] in s.visited then s else Visit(g, universe, listing, roots[0], {}, s);
      var r := VisitRoots(g, universe, listing, roots[1..], first);
      ExtendsTransitive(s, first, r);
      assert forall k :: 1 <= k < |roots| ==> roots[k] == roots[1..][k - 1];
      r
  }

  /** The cycles reported for the files in catalog order. */
  function DetectCycles(g: Graph, files: seq<Path>, listing: Listing): (cycles: seq<seq<Path>>)
    requires IsListing(listing)
    ensures forall k :: 0 <= k < |cycles| ==> cycles[k] != []
    ensures forall k, j :: 0 <= k < |cycles| && 0 <= j < |cycles[k]| ==> cycles[k][j] in Nodes(g) + ToSet(files)
  {
    var universe := Nodes(g) + ToSet(files);
    var r := VisitRoots(g, universe, listing, files, Search({}, []));
    r.cycles
  }

  // ----- Every report is a real cycle -----

  lemma PathSuffix(g: Graph, p: seq<Path>, j: nat)
    requires IsPath(g, p) && j <= |p|
    ensures IsPath(g, p[j..])
  {
    forall i | 0 <= i < |p[j..]| - 1
      ensures p[j..][i + 1] in Succ(g, p[j..][i])
    {
      assert p[j..][i] == p[j + i] && p[j..][i + 1] == p[j + i + 1];
    }
  }

  lemma PathExtend(g: Graph, p: seq<Path>, x: Path)
    requires IsPath(g, p) && |p| >= 1 && x in Succ(g, p[|p| - 1])
    ensures IsPath(g, p + [x])
  {
    var q := p + [x];
    forall i | 0 <= i < |q| - 1
      ensures q[i + 1] in Succ(g, q[i])
    {
      if i < |p| - 1 {
        assert q[i] == p[i] && q[i + 1] == p[i + 1];
      }
    }
  }

  /** A node met again while on the stack lies on a cycle of the graph. */
  lemma StackHitIsOnCycle(g: Graph, path: seq<Path>, node: Path)
    requires IsPath(g, path + [node]) && node in path
    ensures OnCycle(g, node)
  {
    var j := IndexOf(path, node);
    var q := path + [node];
    PathSuffix(g, q, j);
    assert q[j..] == path[j..] + [node];
    assert CycleAt(g, q[j..], node);
  }

  /** Every cycle appended between `s` and `r` starts at a node on a cycle of `g`. */
  ghost predicate NewReportsReal(g: Graph, s: Search, r: Search) {
    forall k :: |s.cycles| <= k < |r.cycles| ==> r.cycles[k] != [] && OnCycle(g, r.cycles[k][0])
  }

  /**
   * Along the search, `path` is the chain of calls that led to `node`;
   * its nodes include the stack.
   */
  lemma {:induction false} VisitReportsRealCycles(g: Graph, universe: set<Path>, listing: Listing, node: Path,
                                                  stack: set<Path>, s: Search, path: seq<Path>)
    requires IsListing(listing) && Nodes(g) <= universe
    requires node in universe && stack <= s.visited <= universe
    requires IsPath(g, path + [node]) && stack <= ToSet(path)
    ensures NewReportsReal(g, s, Visit(g, universe, listing, node, stack, s))
    decreases |universe - s.visited|, 0
  {
    var r := Visit(g, universe, listing, node, stack, s);
    if node in stack {
      StackHitIsOnCycle(g, path, node);
      assert r.cycles[|s.cycles|][0] == node && |r.cycles| == |s.cycles| + 1;
    } else if node !in s.visited {
      var successors := listing(Succ(g, node));
      assert Enumerates(successors, Succ(g, node));
      SuccInNodes(g, node);
      assert universe - (s.visited + {node}) == (universe - s.visited) - {node};
      VisitAllReportsRealCycles(g, universe, listing, successors, stack + {node},
                                Search(s.visited + {node}, s.cycles), path + [node]);
      assert r == VisitAll(g, universe, listing, successors, stack + {node}, Search(s.visited + {node}, s.cycles));
    }
  }

  lemma {:induction false} VisitAllReportsRealCycles(g: Graph, universe: set<Path>, listing: Listing, ns: seq<Path>,
                                                     stack: set<Path>, s: Search, path: seq<Path>)
    requires IsListing(listing) && Nodes(g) <= universe
    requires forall k :: 0 <= k < |ns| ==> ns[k] in universe
    requires stack <= s.visited <= universe
    requires IsPath(g, path) && |path| >= 1 && stack <= ToSet(path)
    requires forall k :: 0 <= k < |ns| ==> ns[k] in Succ(g, path[|path| - 1])
    ensures NewReportsReal(g, s, VisitAll(g, universe, listing, ns, stack, s))
    decreases |universe - s.visited|, |ns| + 1
  {
    if ns != [] {
      var first := Visit(g, universe, listing, ns[0], stack, s);
      PathExtend(g, path, ns[0]);
      VisitReportsRealCycles(g, universe, listing, ns[0], stack, s, path);
      assert NewReportsReal(g, s, first);
      GrowingVisitedShrinksRest(universe, s.visited, first.visited);
      assert forall k :: 1 <= k < |ns| ==> ns[k] == ns[1..][k - 1];
      VisitAllReportsRealCycles(g, universe, listing, ns[1..], stack, first, path);
      var r := VisitAll(g, universe, listing, ns[1..], stack, first);
      assert VisitAll(g, universe, listing, ns, stack, s) == r;
      forall k | |s.cycles| <= k < |r.cycles|
        ensures r.cycles[k] != [] && OnCycle(g, r.cycles[k][0])
      {
        if k < |first.cycles| {
          assert r.cycles[k] == first.cycles[k];
        }
      }
    }
  }

  lemma {:induction false} VisitRootsReportsRealCycles(g: Graph, universe: set<Path>, listing: Listing,
                                                       roots: seq<Path>, s: Search)
    requires IsListing(listing) && Nodes(g) <= universe
    requires forall k :: 0 <= k < |roots| ==> roots[k] in universe
    requires s.visited <= universe
    ensures NewReportsReal(g, s, VisitRoots(g, universe, listing, roots, s))
    decreases |roots|
  {
    if roots != [] {
      var first := if roots[0] in s.visited then s else Visit(g, universe, listing, roots[0], {}, s);
      if roots[0] !in s.visited {
        VisitReportsRealCycles(g, universe, listing, roots[0], {}, s, []);
      }
      assert NewReportsReal(g, s, first);
      assert forall k :: 1 <= k < |roots| ==> roots[k] == roots[1..][k - 1];
      VisitRootsReportsRealCycles(g, universe, listing, roots[1..], first);
      var r := VisitRoots(g, universe, listing, roots[1..], first);
      assert VisitRoots(g, universe, listing, roots, s) == r;
      forall k | |s.cycles| <= k < |r.cycles|
        ensures r.cycles[k] != [] && OnCycle(g, r.cycles[k][0])
      {
        if k < |first.cycles| {
          assert r.cycles[k] == first.cycles[k];
        }
      }
    }
  }

  /** The first node of every reported cycle lies on a cycle of the include graph. */
  lemma ReportedCyclesAreReal(g: Graph, files: seq<Path>, listing: Listing)
    requires IsListing(listing)
    ensures forall k :: 0 <= k < |DetectCycles(g, files, listing)| ==> OnCycle(g, DetectCycles(g, files, listing)[k][0])
  {
    var universe := Nodes(g) + ToSet(files);
    VisitRootsReportsRealCycles(g, universe, listing, files, Search({}, []));
    assert DetectCycles(g, files, listing) == VisitRoots(g, universe, listing, files, Search({}, [])).cycles;
  }

  /** Any report at all means the include graph has a cycle. */
  lemma ReportsImplyCycle(g: Graph, files: seq<Path>, listing: Listing)
    requires IsListing(listing)
    ensures DetectCycles(g, files, listing) != [] ==> HasCycle(g)
  {
    var cycles := DetectCycles(g, files, listing);
    if cycles != [] {
      ReportedCyclesAreReal(g, files, listing);
      var p :| CycleAt(g, p, cycles[0][0]);
    }
  }

  // ----- No reports means no cycle -----

  /** Every successor of a node in `f` is in `f`. */
  ghost predicate Closed(g: Graph, f: set<Path>) {
    forall x :: x in f ==> Succ(g, x) <= f
  }

  ghost predicate Acyclic(g: Graph, f: set<Path>) {
    forall x :: x in f ==> !OnCycle(g, x)
  }

  /** A path that starts inside a closed set never leaves it. */
  lemma {:induction false} PathStaysInClosed(g: Graph, f: set<Path>, p: seq<Path>)
    requires Closed(g, f) && IsPath(g, p) && |p| >= 1 && p[0] in f
    ensures forall k :: 0 <= k < |p| ==> p[k] in f
    decreases |p|
  {
    if |p| > 1 {
      PathStaysInClosed(g, f, p[..|p| - 1]);
      assert p[|p| - 1] in Succ(g, p[|p| - 2]);
    }
  }

  /** A node none of whose successors can reach it back lies on no cycle. */
  lemma NotOnCycleIfSuccessorsClosed(g: Graph, f: set<Path>, node: Path)
    requires Closed(g, f) && Succ(g, node) <= f && node !in f
    ensures !OnCycle(g, node)
  {
    if OnCycle(g, node) {
      var p :| CycleAt(g, p, node);
      PathSuffix(g, p, 1);
      assert p[1..][0] == p[1];
      PathStaysInClosed(g, f, p[1..]);
    }
  }

  /** Finishing a node whose successors are all finished keeps the finished set closed and acyclic. */
  lemma FinishNode(g: Graph, visited: set<Path>, stack: set<Path>, node: Path)
    requires node in visited && node !in stack
    requires Closed(g, visited - (stack + {node})) && Acyclic(g, visited - (stack + {node}))
    requires Succ(g, node) <= visited - (stack + {node})
    ensures node in visited - stack
    ensures Closed(g, visited - stack) && Acyclic(g, visited - stack)
  {
    var done := visited - (stack + {node});
    NotOnCycleIfSuccessorsClosed(g, done, node);
    assert visited - stack == done + {node};
  }

  /** Entering a new node leaves the finished set as it was. */
  lemma EnterKeepsFinished(g: Graph, visited: set<Path>, stack: set<Path>, node: Path)
    requires node !in visited
    requires Closed(g, visited - stack) && Acyclic(g, visited - stack)
    ensures Closed(g, (visited + {node}) - (stack + {node})) && Acyclic(g, (visited + {node}) - (stack + {node}))
  {
    assert (visited + {node}) - (stack + {node}) == visited - stack;
  }

  lemma ListedSuccessorsFinished(g: Graph, successors: seq<Path>, node: Path, done: set<Path>)
    requires Enumerates(successors, Succ(g, node))
    requires forall k :: 0 <= k < |successors| ==> successors[k] in done
    ensures Succ(g, node) <= done
  {
    forall x | x in Succ(g, node)
      ensures x in done
    {
      var k :| 0 <= k < |successors| && successors[k] == x;
    }
  }

  /**
   * With no report, the finished nodes (visited and off the stack) stay
   * closed under successors and free of cycles, and the node ends finished.
   */
  lemma {:induction false} VisitFinishesWithoutReport(g: Graph, universe: set<Path>, listing: Listing, node: Path,
                                                      stack: set<Path>, s: Search)
    requires IsListing(listing) && Nodes(g) <= universe
    requires node in universe && stack <= s.visited <= universe
    requires Closed(g, s.visited - stack) && Acyclic(g, s.visited - stack)
    ensures var r := Visit(g, universe, listing, node, stack, s);
            |r.cycles| == |s.cycles| ==>
              node in r.visited - stack && Closed(g, r.visited - stack) && Acyclic(g, r.visited - stack)
    decreases |universe - s.visited|, 0
  {
    if node !in stack && node !in s.visited {
      var successors := listing(Succ(g, node));
      assert Enumerates(successors, Succ(g, node));
      SuccInNodes(g, node);
      assert universe - (s.visited + {node}) == (universe - s.visited) - {node};
      var inner := Search(s.visited + {node}, s.cycles);
      var inStack := stack + {node};
      EnterKeepsFinished(g, s.visited, stack, node);
      VisitAllFinishesWithoutReport(g, universe, listing, successors, inStack, inner);
      var r := VisitAll(g, universe, listing, successors, inStack, inner);
      assert Visit(g, universe, listing, node, stack, s) == r;
      if |r.cycles| == |s.cycles| {
        ListedSuccessorsFinished(g, successors, node, r.visited - inStack);
        FinishNode(g, r.visited, stack, node);
      }
    }
  }

  lemma {:induction false} VisitAllFinishesWithoutReport(g: Graph, universe: set<Path>, listing: Listing, ns: seq<Path>,
                                                         stack: set<Path>, s: Search)
    requires IsListing(listing) && Nodes(g) <= universe
    requires forall k :: 0 <= k < |ns| ==> ns[k] in universe
    requires stack <= s.visited <= universe
    requires Closed(g, s.visited - stack) && Acyclic(g, s.visited - stack)
    ensures var r := VisitAll(g, universe, listing, ns, stack, s);
            |r.cycles| == |s.cycles| ==>
              (forall k :: 0 <= k < |ns| ==> ns[k] in r.visited - stack)
              && Closed(g, r.visited - stack) && Acyclic(g, r.visited - stack)
    decreases |universe - s.visited|, |ns| + 1
  {
    if ns != [] {
      var first := Visit(g, universe, listing, ns[0], stack, s);
      VisitFinishesWithoutReport(g, universe, listing, ns[0], stack, s);
      GrowingVisitedShrinksRest(universe, s.visited, first.visited);
      var r := VisitAll(g, universe, listing, ns[1..], stack, first);
      assert VisitAll(g, universe, listing, ns, stack, s) == r;
      if |r.cycles| == |s.cycles| {
        VisitAllFinishesWithoutReport(g, universe, listing, ns[1..], stack, first);
        forall k | 0 <= k < |ns|
          ensures ns[k] in r.visited - stack
        {
          if k > 0 {
            assert ns[k] == ns[1..][k - 1];
          }
        }
      }
    }
  }

  lemma {:induction false} VisitRootsFinishesWithoutReport(g: Graph, universe: set<Path>, listing: Listing,
                                                           roots: seq<Path>, s: Search)
    requires IsListing(listing) && Nodes(g) <= universe
    requires forall k :: 0 <= k < |roots| ==> roots[k] in universe
    requires s.visited <= universe
    requires Closed(g, s.visited) && Acyclic(g, s.visited)
    ensures var r := VisitRoots(g, universe, listing, roots, s);
            |r.cycles| == |s.cycles| ==> Closed(g, r.visited) && Acyclic(g, r.visited)
    decreases |roots|
  {
    if roots != [] {
      var first := if roots[0] in s.visited then s else Visit(g, universe, listing, roots[0], {}, s);
      if roots[0] !in s.visited {
        VisitFinishesWithoutReport(g, universe, listing, roots[0], {}, s);
        assert s.visited - {} == s.visited;
        assert first.visited - {} == first.visited;
      }
      var r := VisitRoots(g, universe, listing, roots[1..], first);
      assert VisitRoots(g, universe, listing, roots, s) == r;
      assert forall k :: 1 <= k < |roots| ==> roots[k] == roots[1..][k - 1];
      if |r.cycles| == |s.cycles| {
        VisitRootsFinishesWithoutReport(g, universe, listing, roots[1..], first);
      }
    }
  }

  /**
   * When every including file is among the roots, the search reports a
   * cycle exactly when the include graph has one.
   */
  lemma ReportsIffCycle(g: Graph, files: seq<Path>, listing: Listing)
    requires IsListing(listing) && g.Keys <= ToSet(files)
    ensures DetectCycles(g, files, listing) != [] <==> HasCycle(g)
  {
    ReportsImplyCycle(g, files, listing);
    var universe := Nodes(g) + ToSet(files);
    var r := VisitRoots(g, universe, listing, files, Search({}, []));
    assert DetectCycles(g, files, listing) == r.cycles;
    if r.cycles == [] && HasCycle(g) {
      VisitRootsFinishesWithoutReport(g, universe, listing, files, Search({}, []));
      var p, x :| CycleAt(g, p, x);
      assert p[1] in Succ(g, p[0]);
      assert p[0] in g.Keys;
      assert p[0] in r.visited;
      assert OnCycle(g, p[0]) by {
        assert p[|p| - 1] == x == p[0];
        assert CycleAt(g, p, p[0]);
      }
      assert false;
    }
  }
}

=== FILE: diagnostics.dfy ===
/**
 * The issues the analyser records: per-file threshold checks
 * (`_detect_file_issues`), one issue per detected cycle and one per unused
 * header. Message and remedy texts are not modelled; each issue keeps the
 * figures its message reports.
 */
module Diagnostics {
  import opened Strings
  import opened Config
  import opened Project
  import Complexity
  import Seqs

  datatype Issue =
    | ExcessiveIncludes(file: Path, count: nat)
    | HighComplexity(file: Path, score: nat)
    | LargeHeader(file: Path, size: nat)
    | CircularDependency(cycleId: string, cycle: seq<Path>)
    | UnusedHeader(file: Path)
  {
    function Severity(): Severity {
      match this
      case ExcessiveIncludes(_, _) => Medium
      case HighComplexity(_, _) => High
      case LargeHeader(_, _) => Medium
      case CircularDependency(_, _) => High
      case UnusedHeader(_) => Low
    }

    /** Order in which the per-file checks run. */
    function CheckOrder(): nat {
      match this
      case ExcessiveIncludes(_, _) => 0
      case HighComplexity(_, _) => 1
      case LargeHeader(_, _) => 2
      case _ => 3
    }

    predicate IsFileCheck() {
      ExcessiveIncludes? || HighComplexity? || LargeHeader?
    }
  }

  /** `[x]` when `c` holds, `[]` otherwise. */
  function Optional(c: bool, x: Issue): (r: seq<Issue>)
    ensures |r| <= 1 && (r != [] <==> c) && forall y :: y in r <==> c && y == x
  {
    if c then [x] else []
  }

  /** Three optional issues of strictly increasing check order, concatenated. */
  lemma InOrderedTriple(ca: bool, a: Issue, cb: bool, b: Issue, cc: bool, c: Issue)
    requires a.CheckOrder() < b.CheckOrder() < c.CheckOrder()
    ensures var r := Optional(ca, a) + Optional(cb, b) + Optional(cc, c);
            && |r| <= 3
            && (forall i, j :: 0 <= i < j < |r| ==> r[i].CheckOrder() < r[j].CheckOrder())
            && (forall x :: x in r <==> (ca && x == a) || (cb && x == b) || (cc && x == c))
  {
  }

  /**
   * The three per-file checks, appended in their fixed order. Each compares
   * strictly, so a value equal to its threshold raises nothing.
   */
  function FileIssues(path: Path, content: Content, cfg: AnalysisConfig): (r: seq<Issue>)
    ensures |r| <= 3
    ensures forall i, j :: 0 <= i < j < |r| ==> r[i].CheckOrder() < r[j].CheckOrder()
    ensures forall x :: x in r ==>
              || x == ExcessiveIncludes(path, content.features.includes)
              || x == HighComplexity(path, Complexity.Score(content.features, cfg.enableTemplateAnalysis))
              || x == LargeHeader(path, |content.text|)
    ensures ExcessiveIncludes(path, content.features.includes) in r
            <==> content.features.includes > cfg.maxHeaderIncludes
    ensures HighComplexity(path, Complexity.Score(content.features, cfg.enableTemplateAnalysis)) in r
            <==> Complexity.Score(content.features, cfg.enableTemplateAnalysis) > cfg.maxFileComplexity
    ensures LargeHeader(path, |content.text|) in r
            <==> IsHeader(path) && |content.text| > cfg.maxHeaderSize
  {
    var includeCount := content.features.includes;
    var score := Complexity.Score(content.features, cfg.enableTemplateAnalysis);
    var size := |content.text|;
    var excessive := ExcessiveIncludes(path, includeCount);
    var complex := HighComplexity(path, score);
    var large := LargeHeader(path, size);
    var tooMany := includeCount > cfg.maxHeaderIncludes;
    var tooComplex := score > cfg.maxFileComplexity;
    var tooLarge := IsHeader(path) && size > cfg.maxHeaderSize;
    InOrderedTriple(tooMany, excessive, tooComplex, complex, tooLarge, large);
    Optional(tooMany, excessive) + Optional(tooComplex, complex) + Optional(tooLarge, large)
  }

  /** The label of the `k`-th cycle, counting from 1. */
  function CycleLabel(k: nat): string {
    "Cycle " + NatToString(k)
  }

  /** One High issue per reported cycle, labelled "Cycle 1", "Cycle 2", ... in report order. */
  function CycleIssues(cycles: seq<seq<Path>>): (r: seq<Issue>)
    ensures |r| == |cycles|
    ensures forall k :: 0 <= k < |r| ==> r[k].CircularDependency? && r[k].Severity() == High
    ensures forall k :: 0 <= k < |r| ==> r[k].cycleId == CycleLabel(k + 1) && r[k].cycle == cycles[k]
  {
    seq(|cycles|, k requires 0 <= k < |cycles| => CircularDependency(CycleLabel(k + 1), cycles[k]))
  }

  /** No two cycle issues carry the same label. */
  lemma CycleLabelsDistinct(cycles: seq<seq<Path>>, i: nat, j: nat)
    requires i < j < |cycles|
    ensures CycleIssues(cycles)[i].cycleId != CycleIssues(cycles)[j].cycleId
  {
    assert CycleLabel(i + 1)[6..] == NatToString(i + 1);
    assert CycleLabel(j + 1)[6..] == NatToString(j + 1);
  }

  /** Exactly one Low issue per unused header, in set iteration order. */
  function UnusedHeaderIssues(listing: Listing, unused: set<Path>): (r: seq<Issue>)
    requires IsListing(listing)
    ensures |r| == |unused|
    ensures forall k :: 0 <= k < |r| ==> r[k].UnusedHeader? && r[k].file in unused && r[k].Severity() == Low
    ensures forall h :: h in unused ==> exists k :: 0 <= k < |r| && r[k] == UnusedHeader(h)
    ensures forall i, j :: 0 <= i < j < |r| ==> r[i] != r[j]
  {
    var order := listing(unused);
    assert Enumerates(order, unused);
    DistinctCount(order, unused);
    var r := seq(|order|, k requires 0 <= k < |order| => UnusedHeader(order[k]));
    assert forall h :: h in unused ==> r[Seqs.IndexOf(order, h)] == UnusedHeader(h);
    r
  }

  lemma DistinctCount(order: seq<Path>, s: set<Path>)
    requires Enumerates(order, s)
    ensures |order| == |s|
  {
    Seqs.DistinctCardinality(order);
    assert Seqs.ToSet(order) == s;
  }
}

=== FILE: discovery.dfy ===
/**
 * File discovery and `_should_ignore_file`: the catalog keeps every file
 * whose name ends in one of the discovery extensions and whose path
 * relative to the project root matches none of the ignore patterns.
 * Patterns are matched as `fnmatch` matches those without bracket
 * classes: the whole path must match, `*` matches any run of characters
 * (slashes included), `?` matches one character, and every other
 * character matches itself. `[seq]` and `[!seq]` are not modelled.
 */
module Discovery {
  import opened Strings
  import opened Seqs
  import opened Project

  /** Full-string `fnmatch` with `*`, `?` and literal characters; '[' is a literal here. */
  function Matches(name: string, pattern: string): bool
    decreases |name| + |pattern|
  {
    if pattern == [] then name == []
    else if pattern[0] == '*' then
      Matches(name, pattern[1..]) || (name != [] && Matches(name[1..], pattern))
    else if pattern[0] == '?' then
      name != [] && Matches(name[1..], pattern[1..])
    else
      name != [] && name[0] == pattern[0] && Matches(name[1..], pattern[1..])
  }

  predicate HasWildcard(pattern: string) {
    exists i :: 0 <= i < |pattern| && (pattern[i] == '*' || pattern[i] == '?')
  }

  /** A pattern without wildcards matches exactly the text equal to it. */
  lemma {:induction false} LiteralPatternMatchesOnlyItself(name: string, pattern: string)
    requires !HasWildcard(pattern)
    ensures Matches(name, pattern) <==> name == pattern
    decreases |pattern|
  {
    if pattern != [] {
      assert pattern[0] != '*' && pattern[0] != '?';
      if name != [] {
        assert !HasWildcard(pattern[1..]) by {
          assert forall i :: 0 <= i < |pattern[1..]| ==> pattern[1..][i] == pattern[i + 1];
        }
        LiteralPatternMatchesOnlyItself(name[1..], pattern[1..]);
        assert name == [name[0]] + name[1..];
        assert pattern == [pattern[0]] + pattern[1..];
      }
    }
  }

  /** A lone `*` matches every path. */
  lemma {:induction false} StarMatchesEverything(name: string)
    ensures Matches(name, "*")
    decreases |name|
  {
    if name != [] {
      StarMatchesEverything(name[1..]);
    }
  }

  /** `*` followed by a literal matches exactly the paths that end with that literal. */
  lemma {:induction false} StarSuffixMatchesEndings(name: string, suffix: string)
    requires !HasWildcard(suffix)
    ensures Matches(name, "*" + suffix) <==> EndsWith(name, suffix)
    decreases |name|
  {
    var pattern := "*" + suffix;
    assert pattern[1..] == suffix;
    LiteralPatternMatchesOnlyItself(name, suffix);
    if name != [] {
      StarSuffixMatchesEndings(name[1..], suffix);
      if |suffix| <= |name| - 1 {
        assert name[1..][|name| - 1 - |suffix|..] == name[|name| - |suffix|..];
      }
    }
  }

  /** The built-in ignore patterns: directory names ending in '/', without wildcards. */
  const DefaultIgnorePatterns: set<string> := {
    "build/", "cmake-build-", ".git/", "third_party/",
    "external/", "test/", "tests/", "benchmark/", "vendor/",
    "node_modules/", "__pycache__/", ".vscode/", ".vs/",
    "Debug/", "Release/", "x64/", "x86/"}

  /** The path relative to the project root matches a built-in or a user pattern. */
  predicate ShouldIgnore(relative: Path, userPatterns: seq<string>) {
    || (exists p :: p in DefaultIgnorePatterns && Matches(relative, p))
    || (exists p :: p in userPatterns && Matches(relative, p))
  }

  /** The file name ends in one of the discovery extensions, as the recursive glob for that extension requires. */
  predicate HasDiscoveryExtension(relative: Path) {
    exists e :: e in DiscoveryExtensions && EndsWith(FileName(relative), e)
  }

  /** A pattern ending in a literal character only matches text ending in that character. */
  lemma {:induction false} LastLiteralMustMatch(name: string, pattern: string)
    requires pattern != [] && pattern[|pattern| - 1] != '*' && pattern[|pattern| - 1] != '?'
    requires Matches(name, pattern)
    ensures name != [] && name[|name| - 1] == pattern[|pattern| - 1]
    decreases |name| + |pattern|
  {
    var rest := pattern[1..];
    if pattern[0] == '*' {
      if Matches(name, rest) {
        LastLiteralMustMatch(name, rest);
      } else {
        LastLiteralMustMatch(name[1..], pattern);
      }
    } else if rest != [] {
      LastLiteralMustMatch(name[1..], rest);
    }
  }

  /** Each built-in pattern ends in '/' or, for `cmake-build-`, in '-'. */
  lemma DefaultPatternsEndInSeparators()
    ensures forall p :: p in DefaultIgnorePatterns ==> p != [] && p[|p| - 1] in {'/', '-'}
  {
  }

  lemma ExtensionsEndInLetters()
    ensures forall e :: e in DiscoveryExtensions ==> e != [] && e[|e| - 1] !in {'/', '-'}
  {
  }

  /** A path ends with the last character of any non-empty ending of its file name. */
  lemma PathEndsLikeFileName(relative: Path, e: string)
    requires e != [] && EndsWith(FileName(relative), e)
    ensures relative != [] && relative[|relative| - 1] == e[|e| - 1]
  {
    var name := FileName(relative);
    assert name[|name| - 1] == e[|e| - 1];
    assert relative[|relative| - 1] == name[|name| - 1];
  }

  /** Patterns ending in a literal other than the path's last character never match it. */
  lemma NoPatternMatches(relative: Path, patterns: set<string>)
    requires relative != []
    requires forall p :: p in patterns ==>
               p != [] && p[|p| - 1] !in {'*', '?'} && p[|p| - 1] != relative[|relative| - 1]
    ensures forall p :: p in patterns ==> !Matches(relative, p)
  {
    forall p | p in patterns
      ensures !Matches(relative, p)
    {
      if Matches(relative, p) {
        LastLiteralMustMatch(relative, p);
      }
    }
  }

  /** A file found by discovery ends in neither '/' nor '-'. */
  lemma DiscoveredPathEnding(relative: Path)
    requires HasDiscoveryExtension(relative)
    ensures relative != [] && relative[|relative| - 1] !in {'/', '-'}
  {
    var e :| e in DiscoveryExtensions && EndsWith(FileName(relative), e);
    ExtensionsEndInLetters();
    PathEndsLikeFileName(relative, e);
  }

  lemma DefaultPatternsEndDifferently(relative: Path)
    requires relative != [] && relative[|relative| - 1] !in {'/', '-'}
    ensures forall p :: p in DefaultIgnorePatterns ==>
               p != [] && p[|p| - 1] !in {'*', '?'} && p[|p| - 1] != relative[|relative| - 1]
  {
    DefaultPatternsEndInSeparators();
  }

  /** No built-in pattern matches a path whose file name ends in a discovery extension. */
  lemma DefaultPatternsNeverMatchFiles(relative: Path)
    requires HasDiscoveryExtension(relative)
    ensures forall p :: p in DefaultIgnorePatterns ==> !Matches(relative, p)
  {
    DiscoveredPathEnding(relative);
    DefaultPatternsEndDifferently(relative);
    NoPatternMatches(relative, DefaultIgnorePatterns);
  }

  /**
   * `discover_files`, given the project's files as paths relative to the
   * root in walk order: the files with a discovery extension that no
   * pattern ignores.
   */
  function Discover(tree: seq<Path>, userPatterns: seq<string>): (r: seq<Path>)
    ensures forall p :: p in r <==> p in tree && HasDiscoveryExtension(p) && !ShouldIgnore(p, userPatterns)
  {
    Filter(tree, p => HasDiscoveryExtension(p) && !ShouldIgnore(p, userPatterns))
  }

  /** Without user patterns nothing with a discovery extension is ignored. */
  lemma DefaultPatternsKeepEverything(tree: seq<Path>)
    ensures forall p :: p in Discover(tree, []) <==> p in tree && HasDiscoveryExtension(p)
  {
    forall p | p in tree && HasDiscoveryExtension(p)
      ensures !ShouldIgnore(p, [])
    {
      DefaultPatternsNeverMatchFiles(p);
    }
  }
}

=== FILE: file_analysis.dfy ===
/**
 * The per-file pass (`_analyze_file_includes`, run over the files in order by
 * `_sequential_analyze_files`): record the text length, count the include
 * name, resolve it, add the edge and the reverse count, then run the
 * per-file checks.
 */
module FileAnalysis {
  import opened Wrappers
  import opened Seqs
  import opened Config
  import opened Project
  import opened OrderedMaps
  import opened IncludeGraph
  import opened Diagnostics
  import IncludeParser
  import Resolver

  /** The analyser's state after the per-file pass. */
  datatype Analysis = Analysis(
    graph: Graph,
    dependencyCount: OMap<Path, nat>,
    headerFrequency: map<string, nat>,
    fileSizes: OMap<Path, nat>,
    issues: seq<Issue>)
  {
    ghost predicate Valid() {
      dependencyCount.Valid() && fileSizes.Valid()
    }
  }

  const Initial: Analysis := Analysis(map[], Empty(), map[], Empty(), [])

  /** `header_frequency[n] += 1` on a `Counter`. */
  function Bump(m: map<string, nat>, n: string): (r: map<string, nat>)
    ensures r.Keys == m.Keys + {n}
    ensures r[n] == (if n in m then m[n] else 0) + 1
    ensures forall x :: x in m && x != n ==> r[x] == m[x]
  {
    m[n := (if n in m then m[n] else 0) + 1]
  }

  /** A counter read with 0 for a missing key. */
  function CountOf<K>(m: map<K, nat>, k: K): nat {
    if k in m then m[k] else 0
  }

  /** The include name a file contributes: only a readable file's leading directive. */
  function IncludeName(f: SourceFile): Option<string> {
    match f.content
    case None => None
    case Some(c) => IncludeParser.LeadingInclude(c.text)
  }

  /** How the file's include name resolves, if it has one. */
  function ResolutionOf(fs: FileSystem, root: Path, f: SourceFile): Option<Resolver.Resolution> {
    match IncludeName(f)
    case None => None
    case Some(n) => Some(Resolver.ResolveInclude(fs, root, f.path, n))
  }

  /** The path the file's include resolves to, if any. */
  function TargetOf(fs: FileSystem, root: Path, f: SourceFile): Option<Path> {
    match ResolutionOf(fs, root, f)
    case Some(Resolved(t)) => Some(t)
    case _ => None
  }

  /** The file was read and no exception cut its analysis short. */
  predicate Completes(fs: FileSystem, root: Path, f: SourceFile) {
    f.content.Some? && ResolutionOf(fs, root, f) != Some(Resolver.Raised)
  }

  /** One call of `_analyze_file_includes`. */
  function AnalyzeFile(st: Analysis, fs: FileSystem, root: Path, cfg: AnalysisConfig, f: SourceFile): (r: Analysis)
    requires st.Valid()
    ensures r.Valid()
    ensures f.content.None? ==> r == st
    ensures f.content.Some? ==> r.fileSizes == st.fileSizes.Put(f.path, |f.content.value.text|)
    ensures f.content.None? ==> r.fileSizes == st.fileSizes
    ensures IncludeName(f).Some? ==> r.headerFrequency == Bump(st.headerFrequency, IncludeName(f).value)
    ensures IncludeName(f).None? ==> r.headerFrequency == st.headerFrequency
    ensures TargetOf(fs, root, f).Some? ==>
              && r.graph == AddEdge(st.graph, f.path, TargetOf(fs, root, f).value)
              && r.dependencyCount == Increment(st.dependencyCount, TargetOf(fs, root, f).value)
    ensures TargetOf(fs, root, f).None? ==> r.graph == st.graph && r.dependencyCount == st.dependencyCount
    ensures r.issues == st.issues + (if Completes(fs, root, f) then FileIssues(f.path, f.content.value, cfg) else [])
  {
    match f.content
    case None => st
    case Some(c) =>
      var sized := st.(fileSizes := st.fileSizes.Put(f.path, |c.text|));
      var counted :=
        match IncludeName(f)
        case None => sized
        case Some(n) => sized.(headerFrequency := Bump(sized.headerFrequency, n));
      if ResolutionOf(fs, root, f) == Some(Resolver.Raised) then counted
      else
        var linked :=
          match TargetOf(fs, root, f)
          case None => counted
          case Some(t) =>
            counted.(graph := AddEdge(counted.graph, f.path, t),
                     dependencyCount := Increment(counted.dependencyCount, t));
        linked.(issues := linked.issues + FileIssues(f.path, c, cfg))
  }

  /** The state after `_sequential_analyze_files` has processed `files` in order. */
  function AnalyzeFiles(fs: FileSystem, root: Path, cfg: AnalysisConfig, files: seq<SourceFile>): (r: Analysis)
    ensures r.Valid()
  {
    if files == [] then Initial
    else AnalyzeFile(AnalyzeFiles(fs, root, cfg, files[..|files| - 1]), fs, root, cfg, files[|files| - 1])
  }

  /** The issues of the per-file checks, file by file, for the files analysed to the end. */
  function FileIssuesOf(fs: FileSystem, root: Path, cfg: AnalysisConfig, files: seq<SourceFile>): seq<Issue> {
    if files == [] then []
    else
      var last := files[|files| - 1];
      FileIssuesOf(fs, root, cfg, files[..|files| - 1])
      + (if Completes(fs, root, last) then FileIssues(last.path, last.content.value, cfg) else [])
  }

  /** The edge targets recorded for `p`: those of the files at path `p` whose include resolved. */
  function EdgeTargetsOf(fs: FileSystem, root: Path, files: seq<SourceFile>, p: Path): set<Path> {
    if files == [] then {}
    else
      var last := files[|files| - 1];
      EdgeTargetsOf(fs, root, files[..|files| - 1], p)
      + (if last.path == p && TargetOf(fs, root, last).Some? then {TargetOf(fs, root, last).value} else {})
  }

  // ----- The pass, one field at a time -----

  /** The include graph alone: one edge per file whose include resolved. */
  function GraphOf(fs: FileSystem, root: Path, files: seq<SourceFile>): Graph {
    if files == [] then map[]
    else
      var g := GraphOf(fs, root, files[..|files| - 1]);
      var last := files[|files| - 1];
      match TargetOf(fs, root, last)
      case None => g
      case Some(t) => AddEdge(g, last.path, t)
  }

  /** `dependency_count` alone: one increment per file whose include resolved. */
  function CountsOf(fs: FileSystem, root: Path, files: seq<SourceFile>): (m: OMap<Path, nat>)
    ensures m.Valid()
  {
    if files == [] then Empty()
    else
      var m := CountsOf(fs, root, files[..|files| - 1]);
      match TargetOf(fs, root, files[|files| - 1])
      case None => m
      case Some(t) => Increment(m, t)
  }

  /** `header_frequency` alone: one count per readable file with a leading directive. */
  function FrequencyOf(files: seq<SourceFile>): map<string, nat> {
    if files == [] then map[]
    else
      var m := FrequencyOf(files[..|files| - 1]);
      match IncludeName(files[|files| - 1])
      case None => m
      case Some(n) => Bump(m, n)
  }

  ghost predicate FieldsAre(st: Analysis, fs: FileSystem, root: Path, files: seq<SourceFile>) {
    && st.graph == GraphOf(fs, root, files)
    && st.dependencyCount == CountsOf(fs, root, files)
    && st.headerFrequency == FrequencyOf(files)
  }

  /**
   * The graph, the dependency counts and the header frequencies evolve
   * independently of each other and of the issue list.
   */
  lemma {:induction false} PassByField(fs: FileSystem, root: Path, cfg: AnalysisConfig, files: seq<SourceFile>)
    ensures FieldsAre(AnalyzeFiles(fs, root, cfg, files), fs, root, files)
  {
    if files != [] {
      PassByField(fs, root, cfg, files[..|files| - 1]);
    }
  }

  /**
   * `header_frequency` counts, per name, the readable files whose leading
   * directive names it, whether or not the name resolves.
   */
  lemma {:induction false} FrequencyCountsIncludingFiles(fs: FileSystem, root: Path, cfg: AnalysisConfig,
                                      files: seq<SourceFile>, n: string)
    ensures CountOf(AnalyzeFiles(fs, root, cfg, files).headerFrequency, n)
            == CountWhere(files, f => IncludeName(f) == Some(n))
  {
    PassByField(fs, root, cfg, files);
    FrequencyOfCounts(files, n);
  }

  lemma {:induction false} FrequencyOfCounts(files: seq<SourceFile>, n: string)
    ensures CountOf(FrequencyOf(files), n) == CountWhere(files, f => IncludeName(f) == Some(n))
  {
    if files != [] {
      FrequencyOfCounts(files[..|files| - 1], n);
    }
  }

  /**
   * `dependency_count` counts, per path, the files whose include resolved
   * to it; unresolved names and names whose search raised add nothing.
   */
  lemma {:induction false} DependencyCountCountsResolvingFiles(fs: FileSystem, root: Path, cfg: AnalysisConfig,
                                            files: seq<SourceFile>, t: Path)
    ensures CountOf(AnalyzeFiles(fs, root, cfg, files).dependencyCount.entries, t)
            == CountWhere(files, f => TargetOf(fs, root, f) == Some(t))
  {
    PassByField(fs, root, cfg, files);
    CountsOfCounts(fs, root, files, t);
  }

  lemma {:induction false} CountsOfCounts(fs: FileSystem, root: Path, files: seq<SourceFile>, t: Path)
    ensures CountOf(CountsOf(fs, root, files).entries, t) == CountWhere(files, f => TargetOf(fs, root, f) == Some(t))
  {
    if files != [] {
      CountsOfCounts(fs, root, files[..|files| - 1], t);
    }
  }

  /** The successors of `p` in the analysed graph, next to the targets recorded for `p`. */
  ghost predicate GraphMatchesFiles(fs: FileSystem, root: Path, g: Graph, files: seq<SourceFile>, p: Path) {
    Succ(g, p) == EdgeTargetsOf(fs, root, files, p)
  }

  /** The graph holds exactly the resolved includes, keyed by including file. */
  lemma {:induction false} GraphHoldsResolvedIncludes(fs: FileSystem, root: Path, cfg: AnalysisConfig, files: seq<SourceFile>, p: Path)
    ensures GraphMatchesFiles(fs, root, AnalyzeFiles(fs, root, cfg, files).graph, files, p)
  {
    PassByField(fs, root, cfg, files);
    GraphOfHoldsResolvedIncludes(fs, root, files, p);
  }

  lemma {:induction false} GraphOfHoldsResolvedIncludes(fs: FileSystem, root: Path, files: seq<SourceFile>, p: Path)
    ensures GraphMatchesFiles(fs, root, GraphOf(fs, root, files), files, p)
  {
    if files != [] {
      GraphOfHoldsResolvedIncludes(fs, root, files[..|files| - 1], p);
    }
  }

  /** The keys of `dependency_count` are exactly the targets of edges. */
  lemma {:induction false} DependencyKeysAreTargets(fs: FileSystem, root: Path, cfg: AnalysisConfig, files: seq<SourceFile>)
    ensures AnalyzeFiles(fs, root, cfg, files).dependencyCount.entries.Keys == Targets(AnalyzeFiles(fs, root, cfg, files).graph)
  {
    PassByField(fs, root, cfg, files);
    CountKeysAreTargets(fs, root, files);
  }

  lemma {:induction false} CountKeysAreTargets(fs: FileSystem, root: Path, files: seq<SourceFile>)
    ensures CountsOf(fs, root, files).entries.Keys == Targets(GraphOf(fs, root, files))
  {
    if files != [] {
      var init := files[..|files| - 1];
      var last := files[|files| - 1];
      CountKeysAreTargets(fs, root, init);
      if TargetOf(fs, root, last).Some? {
        TargetsAddEdge(GraphOf(fs, root, init), last.path, TargetOf(fs, root, last).value);
      }
    }
  }

  predicate AllPositive(m: map<Path, nat>) {
    forall t :: t in m ==> m[t] >= 1
  }

  /** Every path with a `dependency_count` entry has been counted at least once. */
  lemma {:induction false} DependencyCountsPositive(fs: FileSystem, root: Path, cfg: AnalysisConfig, files: seq<SourceFile>)
    ensures AllPositive(AnalyzeFiles(fs, root, cfg, files).dependencyCount.entries)
  {
    PassByField(fs, root, cfg, files);
    CountsOfPositive(fs, root, files);
  }

  lemma {:induction false} CountsOfPositive(fs: FileSystem, root: Path, files: seq<SourceFile>)
    ensures AllPositive(CountsOf(fs, root, files).entries)
  {
    if files != [] {
      CountsOfPositive(fs, root, files[..|files| - 1]);
    }
  }

  /** The recorded issues are the per-file checks of every file analysed to the end, in file order. */
  lemma {:induction false} IssuesAreFileChecksInOrder(fs: FileSystem, root: Path, cfg: AnalysisConfig,
                                                      files: seq<SourceFile>)
    ensures AnalyzeFiles(fs, root, cfg, files).issues == FileIssuesOf(fs, root, cfg, files)
  {
    if files != [] {
      IssuesAreFileChecksInOrder(fs, root, cfg, files[..|files| - 1]);
    }
  }

  /** A path that no file has receives no edges. */
  lemma {:induction false} NoEdgesFromOtherPaths(fs: FileSystem, root: Path, files: seq<SourceFile>, p: Path)
    requires forall k :: 0 <= k < |files| ==> files[k].path != p
    ensures EdgeTargetsOf(fs, root, files, p) == {}
  {
    if files != [] {
      NoEdgesFromOtherPaths(fs, root, files[..|files| - 1], p);
    }
  }

  /** With one entry per path, each file has at most one outgoing edge. */
  lemma {:induction false} AtMostOneEdgePerFile(fs: FileSystem, root: Path, cfg: AnalysisConfig,
                                                files: seq<SourceFile>, p: Path)
    requires DistinctPaths(files)
    ensures |Succ(AnalyzeFiles(fs, root, cfg, files).graph, p)| <= 1
  {
    GraphHoldsResolvedIncludes(fs, root, cfg, files, p);
    AtMostOneTarget(fs, root, files, p);
  }

  lemma {:induction false} AtMostOneTarget(fs: FileSystem, root: Path, files: seq<SourceFile>, p: Path)
    requires DistinctPaths(files)
    ensures |EdgeTargetsOf(fs, root, files, p)| <= 1
  {
    if files != [] {
      var init := files[..|files| - 1];
      if files[|files| - 1].path == p {
        NoEdgesFromOtherPaths(fs, root, init, p);
      } else {
        AtMostOneTarget(fs, root, init, p);
      }
    }
  }

  /** Only the paths of files that were edge sources appear as graph keys. */
  lemma {:induction false} GraphKeysAreFiles(fs: FileSystem, root: Path, cfg: AnalysisConfig, files: seq<SourceFile>)
    ensures AnalyzeFiles(fs, root, cfg, files).graph.Keys <= ToSet(Paths(files))
  {
    PassByField(fs, root, cfg, files);
    GraphOfKeysAreFiles(fs, root, files);
  }

  lemma {:induction false} GraphOfKeysAreFiles(fs: FileSystem, root: Path, files: seq<SourceFile>)
    ensures GraphOf(fs, root, files).Keys <= ToSet(Paths(files))
  {
    if files != [] {
      var init := files[..|files| - 1];
      GraphOfKeysAreFiles(fs, root, init);
      assert ToSet(Paths(init)) <= ToSet(Paths(files)) by {
        forall x | x in ToSet(Paths(init)) ensures x in ToSet(Paths(files)) {
          var k :| 0 <= k < |init| && Paths(init)[k] == x;
          assert Paths(files)[k] == x;
        }
      }
      assert Paths(files)[|files| - 1] == files[|files| - 1].path;
    }
  }
}

=== FILE: include_graph.dfy ===
/**
 * The include graph (`include_graph`, a `defaultdict(set)`): each including
 * file maps to the set of resolved paths it includes. A missing key reads
 * as the empty set.
 */
module IncludeGraph {
  import opened Seqs
  import opened Project

  type Graph = map<Path, set<Path>>

  /** `include_graph.get(p, set())`. */
  function Succ(g: Graph, p: Path): set<Path> {
    if p in g then g[p] else {}
  }

  /** `include_graph[a].add(b)`. */
  function AddEdge(g: Graph, a: Path, b: Path): (r: Graph)
    ensures Succ(r, a) == Succ(g, a) + {b}
    ensures forall p :: p != a ==> Succ(r, p) == Succ(g, p)
    ensures r.Keys == g.Keys + {a}
  {
    g[a := Succ(g, a) + {b}]
  }

  /** Adding an edge that is already present changes nothing. */
  lemma AddEdgeIdempotent(g: Graph, a: Path, b: Path)
    ensures AddEdge(AddEdge(g, a, b), a, b) == AddEdge(g, a, b)
  {
  }

  /** Every path that is the target of some edge. */
  function Targets(g: Graph): (r: set<Path>)
    ensures forall q :: q in r <==> exists p :: p in g && q in g[p]
  {
    set p, q | p in g && q in g[p] :: q
  }

  /** An added edge adds its target, and only that, to the targets. */
  lemma TargetsAddEdge(g: Graph, a: Path, b: Path)
    ensures Targets(AddEdge(g, a, b)) == Targets(g) + {b}
  {
    var r := AddEdge(g, a, b);
    forall q | q in Targets(r) ensures q in Targets(g) + {b} {
      var p :| p in r && q in r[p];
      assert q in Succ(r, p);
    }
    forall q | q in Targets(g) + {b} ensures q in Targets(r) {
      if q == b {
        assert b in r[a];
      } else {
        var p :| p in g && q in g[p];
        assert q in Succ(g, p) && q in Succ(r, p);
      }
    }
  }

  /** Every path that is the source or the target of an edge. */
  function Nodes(g: Graph): (r: set<Path>)
    ensures g.Keys <= r && Targets(g) <= r
  {
    g.Keys + Targets(g)
  }

  lemma SuccInNodes(g: Graph, p: Path)
    ensures Succ(g, p) <= Nodes(g)
  {
  }

  /** Consecutive entries are joined by edges. */
  ghost predicate IsPath(g: Graph, p: seq<Path>) {
    forall i :: 0 <= i < |p| - 1 ==> p[i + 1] in Succ(g, p[i])
  }

  /** A walk of at least one edge that leaves `x` and returns to it. */
  ghost predicate CycleAt(g: Graph, p: seq<Path>, x: Path) {
    |p| >= 2 && IsPath(g, p) && p[0] == x && p[|p| - 1] == x
  }

  ghost predicate OnCycle(g: Graph, x: Path) {
    exists p :: CycleAt(g, p, x)
  }

  ghost predicate HasCycle(g: Graph) {
    exists p, x :: CycleAt(g, p, x)
  }

  /**
   * `_detect_unused_headers`: the files with a header suffix, less every
   * path that some include edge points at.
   */
  function UnusedHeaders(files: seq<SourceFile>, g: Graph): (r: set<Path>)
    ensures r !! Targets(g)
    ensures forall p :: p in r <==> (exists f :: f in files && f.path == p && IsHeader(p)) && p !in Targets(g)
  {
    (set f | f in files && IsHeader(f.path) :: f.path) - Targets(g)
  }
}

=== FILE: include_parser.dfy ===
/**
 * The leading-include parser of `_analyze_file_includes`: the pattern
 * `^\s*#\s*include\s*[<"]([^>"]+)[">]` applied with `findall` and without
 * the multi-line flag, so `^` anchors at the start of the whole text only.
 * A file therefore yields at most one include name, and only when the
 * directive is its first non-blank content.
 */
module IncludeParser {
  import opened Wrappers
  import opened Strings

  const Keyword := "include"

  predicate IsOpener(c: char) { c == '<' || c == '"' }

  predicate IsCloser(c: char) { c == '>' || c == '"' }

  /** Characters allowed inside the captured group `[^>"]`. */
  predicate InName(c: char) { c != '>' && c != '"' }

  predicate AllInName(s: string) {
    forall k :: 0 <= k < |s| ==> InName(s[k])
  }

  /** Every position from `i` up to (not including) `j` exists and may appear in a name. */
  predicate NameBetween(s: string, i: nat, j: nat) {
    forall k :: i <= k < j ==> k < |s| && InName(s[k])
  }

  /** End of the greedy run `[^>"]*` that starts at `i`. */
  function NameEnd(s: string, i: nat): (j: nat)
    requires i <= |s|
    ensures i <= j <= |s|
    ensures NameBetween(s, i, j)
    ensures j < |s| ==> !InName(s[j])
    decreases |s| - i
  {
    if i < |s| && InName(s[i]) then NameEnd(s, i + 1) else i
  }

  /** The captured group of the single possible match, if the text matches. */
  function LeadingInclude(text: string): (r: Option<string>)
    ensures r.Some? ==> r.value != [] && AllInName(r.value)
  {
    var a := SkipSpaces(text, 0);
    if a < |text| && text[a] == '#' then AfterHash(text, SkipSpaces(text, a + 1)) else None
  }

  /** The rest of the match once `\s*#\s*` has been read up to `b`. */
  function AfterHash(text: string, b: nat): (r: Option<string>)
    requires b <= |text|
    ensures r.Some? ==> r.value != [] && AllInName(r.value)
  {
    if StartsWith(text[b..], Keyword) then AfterKeyword(text, SkipSpaces(text, b + |Keyword|)) else None
  }

  /** The rest of the match once `include\s*` has been read up to `c`. */
  function AfterKeyword(text: string, c: nat): (r: Option<string>)
    requires c <= |text|
    ensures r.Some? ==> r.value != [] && AllInName(r.value)
  {
    if c < |text| && IsOpener(text[c]) then
      var d := NameEnd(text, c + 1);
      if c + 1 < d < |text| then
        assert forall k :: c + 1 <= k < d ==> text[c + 1..d][k - (c + 1)] == text[k];
        Some(text[c + 1..d])
      else None
    else None
  }

  /**
   * The regular expression, read as a grammar over positions of the text:
   * blanks before `a`, '#' at `a`, blanks up to `b`, "include" from `b`,
   * blanks up to `c`, an opening '<' or '"' at `c`, a non-empty run of name
   * characters up to `d`, and a closing '>' or '"' at `d`.
   */
  predicate DirectiveSpans(text: string, a: nat, b: nat, c: nat, d: nat) {
    && a < b && b + |Keyword| <= c && c + 1 < d < |text|
    && SpacesBetween(text, 0, a) && text[a] == '#'
    && SpacesBetween(text, a + 1, b) && text[b..b + |Keyword|] == Keyword
    && SpacesBetween(text, b + |Keyword|, c) && IsOpener(text[c])
    && NameBetween(text, c + 1, d) && IsCloser(text[d])
  }

  /** `name` is the group captured by a match of the pattern at the start of `text`. */
  ghost predicate MatchesAsDirective(text: string, name: string) {
    exists a: nat, b: nat, c: nat, d: nat :: DirectiveSpans(text, a, b, c, d) && text[c + 1..d] == name
  }

  /** Skipping blanks stops at the first non-blank after a run of blanks. */
  lemma {:induction false} SkipSpacesStopsAt(text: string, i: nat, j: nat)
    requires i <= j < |text| && SpacesBetween(text, i, j) && !IsSpace(text[j])
    ensures SkipSpaces(text, i) == j
    decreases j - i
  {
    if i < j {
      SkipSpacesStopsAt(text, i + 1, j);
    }
  }

  /** The name run stops at the first character after it that cannot appear in a name. */
  lemma {:induction false} NameEndStopsAt(text: string, i: nat, j: nat)
    requires i <= j < |text| && NameBetween(text, i, j) && !InName(text[j])
    ensures NameEnd(text, i) == j
    decreases j - i
  {
    if i < j {
      NameEndStopsAt(text, i + 1, j);
    }
  }

  lemma SliceOfSuffix(s: string, b: nat, n: nat)
    requires b + n <= |s|
    ensures s[b..][..n] == s[b..b + n]
  {
  }

  /** Where the last stage finds a name, it is the run of name characters after the opener. */
  lemma NameParsed(text: string, c: nat) returns (d: nat)
    requires c <= |text| && AfterKeyword(text, c).Some?
    ensures c < |text| && IsOpener(text[c]) && c + 1 < d < |text|
    ensures NameBetween(text, c + 1, d) && IsCloser(text[d])
    ensures AfterKeyword(text, c) == Some(text[c + 1..d])
  {
    d := NameEnd(text, c + 1);
  }

  /** Where the middle stage succeeds, "include" and blanks lead to the last stage. */
  lemma KeywordParsed(text: string, b: nat) returns (c: nat)
    requires b <= |text| && AfterHash(text, b).Some?
    ensures b + |Keyword| <= c <= |text| && text[b..b + |Keyword|] == Keyword
    ensures SpacesBetween(text, b + |Keyword|, c) && AfterHash(text, b) == AfterKeyword(text, c)
  {
    c := SkipSpaces(text, b + |Keyword|);
    SliceOfSuffix(text, b, |Keyword|);
  }

  /** Where the parser succeeds, blanks, '#' and blanks lead to the middle stage. */
  lemma HashParsed(text: string) returns (a: nat, b: nat)
    requires LeadingInclude(text).Some?
    ensures a < b <= |text| && SpacesBetween(text, 0, a) && text[a] == '#'
    ensures SpacesBetween(text, a + 1, b) && LeadingInclude(text) == AfterHash(text, b)
  {
    a := SkipSpaces(text, 0);
    b := SkipSpaces(text, a + 1);
  }

  /** The last stage, on an opener followed by a run of name characters and a closer. */
  lemma NameFound(text: string, c: nat, d: nat)
    requires c + 1 < d < |text| && IsOpener(text[c]) && NameBetween(text, c + 1, d) && IsCloser(text[d])
    ensures AfterKeyword(text, c) == Some(text[c + 1..d])
  {
    NameEndStopsAt(text, c + 1, d);
  }

  /** The middle stage, on "include" and blanks before a non-blank at `c`. */
  lemma KeywordFound(text: string, b: nat, c: nat)
    requires b + |Keyword| <= c < |text| && text[b..b + |Keyword|] == Keyword
    requires SpacesBetween(text, b + |Keyword|, c) && !IsSpace(text[c])
    ensures AfterHash(text, b) == AfterKeyword(text, c)
  {
    SliceOfSuffix(text, b, |Keyword|);
    SkipSpacesStopsAt(text, b + |Keyword|, c);
  }

  /** The first stage, on blanks, '#' and blanks before a non-blank at `b`. */
  lemma HashFound(text: string, a: nat, b: nat)
    requires a < b < |text| && SpacesBetween(text, 0, a) && text[a] == '#'
    requires SpacesBetween(text, a + 1, b) && !IsSpace(text[b])
    ensures LeadingInclude(text) == AfterHash(text, b)
  {
    SkipSpacesStopsAt(text, 0, a);
    SkipSpacesStopsAt(text, a + 1, b);
  }

  /** The positions at which the parser found its name. */
  lemma ParsedSpans(text: string) returns (a: nat, b: nat, c: nat, d: nat)
    requires LeadingInclude(text).Some?
    ensures DirectiveSpans(text, a, b, c, d) && LeadingInclude(text) == Some(text[c + 1..d])
  {
    a, b := HashParsed(text);
    c := KeywordParsed(text, b);
    d := NameParsed(text, c);
  }

  /** Every name the parser returns is read off a directive of that shape. */
  lemma LeadingIncludeIsDirective(text: string)
    requires LeadingInclude(text).Some?
    ensures MatchesAsDirective(text, LeadingInclude(text).value)
  {
    var a, b, c, d := ParsedSpans(text);
  }

  /** Every directive of that shape is found, with its name. */
  lemma DirectiveIsFound(text: string, a: nat, b: nat, c: nat, d: nat)
    requires DirectiveSpans(text, a, b, c, d)
    ensures LeadingInclude(text) == Some(text[c + 1..d])
  {
    NameFound(text, c, d);
    assert text[b] == Keyword[0];
    KeywordFound(text, b, c);
    HashFound(text, a, b);
  }

  /** The parser finds a name exactly when the text has the directive shape. */
  lemma LeadingIncludeMatchesGrammar(text: string, name: string)
    ensures LeadingInclude(text) == Some(name) <==> MatchesAsDirective(text, name)
  {
    if LeadingInclude(text) == Some(name) {
      LeadingIncludeIsDirective(text);
    }
    if MatchesAsDirective(text, name) {
      var a: nat, b: nat, c: nat, d: nat :| DirectiveSpans(text, a, b, c, d) && text[c + 1..d] == name;
      DirectiveIsFound(text, a, b, c, d);
    }
  }

  /** Text after a complete leading directive never changes the captured name. */
  lemma LaterTextIsIgnored(text: string, more: string)
    requires LeadingInclude(text).Some?
    ensures LeadingInclude(text + more) == LeadingInclude(text)
  {
    var a, b, c, d := ParsedSpans(text);
    var t := text + more;
    assert forall k :: 0 <= k < |text| ==> t[k] == text[k];
    assert t[b..b + |Keyword|] == text[b..b + |Keyword|];
    assert t[c + 1..d] == text[c + 1..d];
    assert DirectiveSpans(t, a, b, c, d);
    DirectiveIsFound(t, a, b, c, d);
  }

  /**
   * A file whose first non-blank character is not '#' (a comment, a
   * declaration) contributes no include, whatever follows.
   */
  lemma NoDirectiveFirstMeansNoInclude(text: string)
    requires SkipSpaces(text, 0) < |text| && text[SkipSpaces(text, 0)] != '#'
    ensures LeadingInclude(text) == None
  {
  }

  /**
   * A header that opens with an include guard contributes no include: the
   * directive after '#' is `ifndef`, not `include`, and later lines are not
   * searched.
   */
  lemma {:induction false} IncludeGuardHidesIncludes(rest: string)
    ensures LeadingInclude("#ifndef" + rest) == None
  {
    var text := "#ifndef" + rest;
    assert SkipSpaces(text, 0) == 0;
    assert SkipSpaces(text, 1) == 1;
    assert !StartsWith(text[1..], Keyword) by {
      if |text[1..]| >= |Keyword| {
        assert text[1..][1] == 'f';
      }
    }
  }

  /** Two well-formed directives in a row: only the first is captured. */
  lemma {:induction false} OnlyFirstDirectiveCounts(rest: string)
    ensures LeadingInclude("#include \"a.h\"\n#include \"b.h\"\n" + rest) == Some("a.h")
  {
    var head := "#include \"a.h\"\n#include \"b.h\"\n";
    var text := head + rest;
    assert forall k :: 0 <= k < |head| ==> text[k] == head[k];
    assert text[1..8] == Keyword by {
      assert forall k :: 0 <= k < 7 ==> text[1..8][k] == head[k + 1];
    }
    assert text[10..13] == "a.h" by {
      assert forall k :: 0 <= k < 3 ==> text[10..13][k] == head[k + 10];
    }
    assert DirectiveSpans(text, 0, 1, 9, 13);
    DirectiveIsFound(text, 0, 1, 9, 13);
  }
}

=== FILE: ordered_maps.dfy ===
/**
 * Maps that remember the order in which keys were first inserted, as
 * Python dictionaries do. Iterating `items()` of a dictionary follows `keys`.
 */
module OrderedMaps {

  datatype OMap<K(==,!new), V> = OMap(keys: seq<K>, entries: map<K, V>) {

    /** Every key is listed exactly once, and only keys are listed. */
    ghost predicate Valid() {
      && (forall i, j :: 0 <= i < j < |keys| ==> keys[i] != keys[j])
      && (forall k :: k in entries <==> k in keys)
    }

    /** `d[k] = v`: a new key goes last, an existing key keeps its place. */
    function Put(k: K, v: V): (r: OMap<K, V>)
      requires Valid()
      ensures r.Valid()
      ensures r.entries.Keys == entries.Keys + {k} && r.entries[k] == v
      ensures forall x :: x in entries && x != k ==> r.entries[x] == entries[x]
      ensures k in entries ==> r.keys == keys
      ensures k !in entries ==> r.keys == keys + [k]
    {
      if k in entries then OMap(keys, entries[k := v]) else OMap(keys + [k], entries[k := v])
    }

    /** `d.items()`, in insertion order. */
    function Items(): (r: seq<(K, V)>)
      requires Valid()
      ensures |r| == |keys|
      ensures forall i :: 0 <= i < |r| ==> r[i].0 == keys[i] && r[i].1 == entries[keys[i]]
    {
      seq(|keys|, i requires 0 <= i < |keys| => (keys[i], entries[keys[i]]))
    }
  }

  function Empty<K(==,!new), V>(): (r: OMap<K, V>)
    ensures r.Valid() && r.keys == [] && r.entries == map[]
  {
    OMap([], map[])
  }

  /** `d[k] += 1` on a `defaultdict(int)`. */
  function Increment<K(==,!new)>(d: OMap<K, nat>, k: K): (r: OMap<K, nat>)
    requires d.Valid()
    ensures r.Valid()
    ensures k in r.entries && r.entries[k] == (if k in d.entries then d.entries[k] else 0) + 1
    ensures r.entries.Keys == d.entries.Keys + {k}
    ensures forall x :: x in d.entries && x != k ==> r.entries[x] == d.entries[x]
  {
    d.Put(k, (if k in d.entries then d.entries[k] else 0) + 1)
  }
}

=== FILE: project.dfy ===
/**
 * The project as immutable data: paths, suffix classes, the files with the
 * lexical counts the analyser extracts from them, and the abstract
 * filesystem the include resolver consults.
 */
module Project {
  import opened Wrappers
  import opened Strings

  /** A path as text; components are separated by '/'. */
  type Path = string

  /** Position of the last occurrence of `c` in `s`, as `str.rfind`. */
  function LastIndexOf(s: string, c: char): (r: Option<nat>)
    ensures r.Some? ==> r.value < |s| && s[r.value] == c
    ensures r.Some? ==> forall k :: r.value < k < |s| ==> s[k] != c
    ensures r.None? ==> forall k :: 0 <= k < |s| ==> s[k] != c
  {
    if s == [] then None
    else if s[|s| - 1] == c then Some(|s| - 1)
    else LastIndexOf(s[..|s| - 1], c)
  }

  /** The final component of a path (`PurePath.name`). */
  function FileName(p: Path): (r: string)
    ensures forall k :: 0 <= k < |r| ==> r[k] != '/'
    ensures EndsWith(p, r)
  {
    match LastIndexOf(p, '/')
    case None => p
    case Some(i) => p[i + 1..]
  }

  /** `i` is the position of the last '.' of `s`. */
  predicate LastDotAt(s: string, i: nat) {
    i < |s| && s[i] == '.' && forall k :: i < k < |s| ==> s[k] != '.'
  }

  /**
   * `PurePath.suffix`: from the last '.' of the name, provided that dot is
   * neither the first nor the last character of the name; otherwise empty.
   */
  function PathSuffix(p: Path): (r: string)
    ensures (forall k :: 0 <= k < |FileName(p)| ==> FileName(p)[k] != '.') ==> r == ""
    ensures r != [] ==> r[0] == '.' && 2 <= |r| < |FileName(p)| && EndsWith(p, r)
    ensures r != [] ==> forall k :: 1 <= k < |r| ==> r[k] != '.' && r[k] != '/'
  {
    var name := FileName(p);
    match LastIndexOf(name, '.')
    case Some(i) =>
      if 0 < i < |name| - 1 then
        assert EndsWith(name, name[i..]);
        name[i..]
      else ""
    case None => ""
  }

  /**
   * The suffix in terms of the last dot of the name: the text from that dot
   * when it is neither first nor last, and empty otherwise ("a.h." and
   * ".clang" have no suffix).
   */
  lemma PathSuffixAtLastDot(p: Path, i: nat)
    requires LastDotAt(FileName(p), i)
    ensures PathSuffix(p) == if 0 < i < |FileName(p)| - 1 then FileName(p)[i..] else ""
    ensures PathSuffix(p) != [] <==> 0 < i < |FileName(p)| - 1
  {
    var name := FileName(p);
    var j := LastIndexOf(name, '.').value;
    if j < i {
    } else if i < j {
    }
  }

  /** The name of a path whose last '/' is at `i` is the text after it. */
  lemma SplitAtLastSlash(p: Path, i: nat)
    requires i < |p| && p[i] == '/' && forall k :: i < k < |p| ==> p[k] != '/'
    ensures FileName(p) == p[i + 1..]
  {
  }

  /** A header as the analyser names it. */
  lemma HeaderSuffixExample()
    ensures PathSuffix("src/a.h") == ".h" && IsHeader("src/a.h")
  {
    SplitAtLastSlash("src/a.h", 3);
    PathSuffixAtLastDot("src/a.h", 1);
  }

  /** A name ending in a dot has no suffix, although it holds one. */
  lemma TrailingDotExample()
    ensures PathSuffix("src/a.h.") == ""
  {
    SplitAtLastSlash("src/a.h.", 3);
    PathSuffixAtLastDot("src/a.h.", 3);
  }

  /** `PurePath.parent`. */
  function Parent(p: Path): Path {
    match LastIndexOf(p, '/')
    case None => "."
    case Some(i) => if i == 0 then "/" else p[..i]
  }

  /** End of the component that starts at `i`: the next '/' at or after `i`, or the end of `s`. */
  function ComponentEnd(s: string, i: nat): (j: nat)
    requires i <= |s|
    ensures i <= j <= |s| && (j < |s| ==> s[j] == '/')
    ensures forall k :: i <= k < j ==> s[k] != '/'
    ensures i < |s| && s[i] != '/' ==> i < j
    decreases |s| - i
  {
    if i == |s| || s[i] == '/' then i else ComponentEnd(s, i + 1)
  }

  /** A component `PurePath` keeps: non-empty, without '/', and not ".". */
  predicate IsComponent(c: string) {
    c != [] && c != "." && forall k :: 0 <= k < |c| ==> c[k] != '/'
  }

  /**
   * The relative path `s` as `PurePath` parses it: the components between
   * '/' separators, without the empty ones (from repeated, leading or
   * trailing '/') and without the "." ones, joined by single '/'. ".."
   * components are kept, as `PurePath` keeps them.
   */
  function Normalise(s: string): (r: string)
    ensures |r| <= |s|
    ensures r == [] || (r[0] != '/' && r[|r| - 1] != '/')
    ensures forall k :: 0 <= k < |r| - 1 && r[k] == '/' ==> r[k + 1] != '/'
    decreases |s|
  {
    if s == [] then []
    else if s[0] == '/' then Normalise(s[1..])
    else
      var j := ComponentEnd(s, 0);
      var rest := Normalise(s[j..]);
      if s[..j] == "." then rest
      else if rest == [] then s[..j]
      else
        var r := s[..j] + "/" + rest;
        assert forall k :: 0 <= k < j ==> r[k] == s[k];
        assert forall k :: j < k < |r| ==> r[k] == rest[k - j - 1];
        r
  }

  /** `base / rel` (`PurePath.__truediv__`): an absolute `rel` replaces `base`; `rel` is normalised. */
  function Join(base: Path, rel: string): Path {
    var n := Normalise(rel);
    if StartsWith(rel, "/") then "/" + n
    else if n == [] then base
    else if EndsWith(base, "/") then base + n
    else base + "/" + n
  }

  /** The component that opens a path ends where the next '/' is. */
  lemma {:induction false} ComponentEndAt(s: string, i: nat, j: nat)
    requires i <= j <= |s| && (j < |s| ==> s[j] == '/')
    requires forall k :: i <= k < j ==> s[k] != '/'
    ensures ComponentEnd(s, i) == j
    decreases j - i
  {
    if i < j {
      ComponentEndAt(s, i + 1, j);
    }
  }

  /** A leading '/' of a relative remainder adds nothing. */
  lemma NormaliseDropsLeadingSlash(t: string)
    ensures Normalise("/" + t) == Normalise(t)
  {
    assert ("/" + t)[1..] == t;
  }

  /** A kept component followed by '/' and more text stays in front of the normalised rest. */
  lemma NormaliseCons(c: string, t: string)
    requires IsComponent(c)
    ensures Normalise(c + "/" + t) == if Normalise(t) == [] then c else c + "/" + Normalise(t)
  {
    var s := c + "/" + t;
    ComponentEndAt(s, 0, |c|);
    assert s[..|c|] == c;
    assert s[|c|..] == "/" + t;
    NormaliseDropsLeadingSlash(t);
  }

  /** A single kept component is already normal. */
  lemma NormaliseComponent(c: string)
    requires IsComponent(c)
    ensures Normalise(c) == c
  {
    ComponentEndAt(c, 0, |c|);
    assert c[..|c|] == c;
  }

  /** A "./" in front of a relative path changes nothing. */
  lemma NormaliseDropsDotPrefix(t: string)
    ensures Normalise("./" + t) == Normalise(t)
  {
    var s := "./" + t;
    ComponentEndAt(s, 0, 1);
    assert s[..1] == ".";
    assert s[1..] == "/" + t;
    NormaliseDropsLeadingSlash(t);
  }

  /** A repeated '/' after a component counts as one. */
  lemma NormaliseCollapsesSlashes(c: string, t: string)
    requires IsComponent(c)
    ensures Normalise(c + "//" + t) == Normalise(c + "/" + t)
  {
    assert c + "//" + t == c + "/" + ("/" + t);
    NormaliseCons(c, "/" + t);
    NormaliseCons(c, t);
    NormaliseDropsLeadingSlash(t);
  }

  /** Normalising twice is normalising once: the result is a fixed point. */
  lemma {:induction false} NormaliseIdempotent(s: string)
    ensures Normalise(Normalise(s)) == Normalise(s)
    decreases |s|
  {
    if s != [] {
      if s[0] == '/' {
        NormaliseIdempotent(s[1..]);
      } else {
        var j := ComponentEnd(s, 0);
        var c := s[..j];
        var rest := Normalise(s[j..]);
        NormaliseIdempotent(s[j..]);
        if c != "." {
          assert IsComponent(c);
          if rest == [] {
            NormaliseComponent(c);
          } else {
            NormaliseCons(c, rest);
          }
        }
      }
    }
  }

  /** `base / "./" + rel` is `base / rel` for a relative `rel`. */
  lemma JoinIgnoresDotPrefix(base: Path, rel: string)
    requires !StartsWith(rel, "/")
    ensures Join(base, "./" + rel) == Join(base, rel)
  {
    NormaliseDropsDotPrefix(rel);
  }

  /** A plain file name is appended to a base that does not end in '/'. */
  lemma JoinPlainName(base: Path, name: string)
    requires IsComponent(name) && !EndsWith(base, "/")
    ensures Join(base, name) == base + "/" + name
  {
    NormaliseComponent(name);
  }

  /** Extensions globbed for when the project is scanned. */
  const DiscoveryExtensions: seq<string> :=
    [".cpp", ".cc", ".cxx", ".c++", ".C", ".h", ".hpp", ".hh", ".hxx", ".h++", ".inl"]

  /** Suffixes the header checks and header suggestions accept. */
  const HeaderSuffixes: set<string> := {".h", ".hpp", ".hh"}

  /** Suffixes the build-time estimate accepts. */
  const SourceSuffixes: set<string> := {".cpp", ".cc", ".cxx"}

  predicate IsHeader(p: Path) {
    PathSuffix(p) in HeaderSuffixes
  }

  predicate IsSource(p: Path) {
    PathSuffix(p) in SourceSuffixes
  }

  /** No path is both a header and a source file in the analyser's sense. */
  lemma HeaderAndSourceDisjoint(p: Path)
    ensures !(IsHeader(p) && IsSource(p))
  {
    var s := PathSuffix(p);
    assert IsHeader(p) ==> |s| >= 2 && s[1] == 'h';
    assert IsSource(p) ==> |s| >= 2 && s[1] == 'c';
  }

  /**
   * Counts of the lexical patterns the analyser matches with regular
   * expressions: `template<...>`, `template<>` specialisations, `#include`
   * lines (multi-line), class/struct declarations, function-definition-like
   * patterns, `#define` lines, and `class X;` forward declarations.
   */
  datatype Features = Features(
    templates: nat,
    specializations: nat,
    includes: nat,
    classes: nat,
    functions: nat,
    macros: nat,
    forwardDecls: nat)

  /**
   * What reading a file yields: its decoded text, its lexical counts, its
   * number of lines, and whether a second read with the platform's default
   * (strict) encoding succeeds.
   */
  datatype Content = Content(text: string, features: Features, lines: nat, strictDecode: bool)

  /** A discovered file; `content` is None when the file cannot be opened. */
  datatype SourceFile = SourceFile(path: Path, content: Option<Content>)

  function Paths(files: seq<SourceFile>): (r: seq<Path>)
    ensures |r| == |files|
    ensures forall i :: 0 <= i < |files| ==> r[i] == files[i].path
  {
    seq(|files|, i requires 0 <= i < |files| => files[i].path)
  }

  /**
   * The order in which Python iterates a set of paths. That order is not
   * sorted and not fixed by the set's contents alone, so the model leaves
   * it open: an arbitrary enumeration of each set, and the proofs use only
   * `IsListing`, that each member is listed exactly once.
   */
  type Listing = set<Path> -> seq<Path>

  ghost predicate IsListing(listing: Listing) {
    forall s: set<Path> {:trigger listing(s)} :: Enumerates(listing(s), s)
  }

  predicate Enumerates(l: seq<Path>, s: set<Path>) {
    && (forall k :: 0 <= k < |l| ==> l[k] in s)
    && (forall x :: x in s ==> x in l)
    && (forall i, j :: 0 <= i < j < |l| ==> l[i] != l[j])
  }

  /** The file paths are pairwise distinct (each path is discovered once). */
  predicate DistinctPaths(files: seq<SourceFile>) {
    forall i, j :: 0 <= i < j < |files| ==> files[i].path != files[j].path
  }

  /**
   * The filesystem as seen from the project root: the existing files and
   * directories, and `rglob(pattern)` under the root, listing matches in
   * the order the walk yields them, or None when the call raises (for
   * instance on an absolute pattern).
   */
  datatype FileSystem = FileSystem(files: set<Path>, dirs: set<Path>, rglob: string -> Option<seq<Path>>) {
    predicate Exists(p: Path) {
      p in files || p in dirs
    }

    predicate IsFile(p: Path) {
      p in files
    }
  }
}

=== FILE: resolver.dfy ===
/**
 * `_resolve_include_path`: maps an include name to a path of the project,
 * trying the name and then the name with each header suffix appended; for
 * each candidate, first the path under the project root and then the first
 * regular file a recursive glob for it yields.
 */
module Resolver {
  import opened Wrappers
  import opened Strings
  import opened Project
  import IncludeParser

  /** Suffixes appended to the include name, in the order they are tried. */
  const SearchSuffixes: seq<string> := ["", ".h", ".hpp", ".hh", ".hxx"]

  /**
   * Result of one resolution: a path, no match, or an exception escaping
   * from the recursive glob (which aborts the rest of that file's analysis).
   */
  datatype Resolution = Resolved(path: Path) | Unresolved | Raised

  /** The first entry of `ps` that is a regular file. */
  function FirstFile(fs: FileSystem, ps: seq<Path>): (r: Option<Path>)
    ensures r.Some? ==> fs.IsFile(r.value) && r.value in ps
    ensures r.None? <==> forall k :: 0 <= k < |ps| ==> !fs.IsFile(ps[k])
    ensures r.Some? ==> exists i :: 0 <= i < |ps| && ps[i] == r.value && forall k :: 0 <= k < i ==> !fs.IsFile(ps[k])
  {
    if ps == [] then None
    else if fs.IsFile(ps[0]) then Some(ps[0])
    else
      var r := FirstFile(fs, ps[1..]);
      assert forall k :: 1 <= k < |ps| ==> ps[k] == ps[1..][k - 1];
      r
  }

  /** `ps[i]` is the first regular file of `ps`. */
  predicate FirstFileAt(fs: FileSystem, ps: seq<Path>, i: int) {
    0 <= i < |ps| && fs.IsFile(ps[i]) && forall j :: 0 <= j < i ==> !fs.IsFile(ps[j])
  }

  /**
   * One iteration of the suffix loop: `root/candidate` if it exists, then
   * the first regular file the recursive glob for the candidate yields; a
   * miss when the glob yields no regular file.
   */
  function TrySuffix(fs: FileSystem, root: Path, name: string, ext: string): (r: Resolution)
    ensures r.Resolved? ==> fs.Exists(r.path)
    ensures fs.Exists(Join(root, name + ext)) ==> r == Resolved(Join(root, name + ext))
    ensures r.Raised? <==> !fs.Exists(Join(root, name + ext)) && fs.rglob(name + ext).None?
    ensures !fs.Exists(Join(root, name + ext)) && fs.rglob(name + ext).Some? ==>
              forall i :: FirstFileAt(fs, fs.rglob(name + ext).value, i) ==>
                r == Resolved(fs.rglob(name + ext).value[i])
    ensures !fs.Exists(Join(root, name + ext)) && fs.rglob(name + ext).Some? ==>
              (r.Unresolved? <==> forall k :: 0 <= k < |fs.rglob(name + ext).value| ==> !fs.IsFile(fs.rglob(name + ext).value[k]))
  {
    var candidate := name + ext;
    if fs.Exists(Join(root, candidate)) then Resolved(Join(root, candidate))
    else
      match fs.rglob(candidate)
      case None => Raised
      case Some(ps) =>
        var first := FirstFile(fs, ps);
        FirstFileIsUnique(fs, ps, first);
        match first
        case Some(p) => Resolved(p)
        case None => Unresolved
  }

  /** The file `FirstFile` picks is the one at the only position that holds the first regular file. */
  lemma FirstFileIsUnique(fs: FileSystem, ps: seq<Path>, first: Option<Path>)
    requires first == FirstFile(fs, ps)
    ensures forall i :: FirstFileAt(fs, ps, i) ==> first == Some(ps[i])
  {
    forall i | FirstFileAt(fs, ps, i) ensures first == Some(ps[i]) {
      var j :| 0 <= j < |ps| && ps[j] == first.value && forall k :: 0 <= k < j ==> !fs.IsFile(ps[k]);
      assert j == i;
    }
  }

  /**
   * A name that is not directly under the root, and whose glob yields a
   * regular file, resolves to the first such file: `#include "util.h"`
   * finds `src/util/util.h`.
   */
  lemma GlobFindsFirstFile(fs: FileSystem, root: Path, name: string, ps: seq<Path>, i: nat)
    requires !fs.Exists(Join(root, name)) && fs.rglob(name) == Some(ps) && FirstFileAt(fs, ps, i)
    ensures SearchProject(fs, root, name) == Resolved(ps[i])
  {
    assert name + SearchSuffixes[0] == name;
    assert TrySuffix(fs, root, name, SearchSuffixes[0]) == Resolved(ps[i]);
  }

  /** When neither the root nor the glob has the name, the next suffix decides. */
  lemma GlobMissTriesNextSuffix(fs: FileSystem, root: Path, name: string)
    requires !fs.Exists(Join(root, name)) && fs.rglob(name).Some?
    requires forall k :: 0 <= k < |fs.rglob(name).value| ==> !fs.IsFile(fs.rglob(name).value[k])
    requires !TrySuffix(fs, root, name, ".h").Unresolved?
    ensures SearchProject(fs, root, name) == TrySuffix(fs, root, name, ".h")
  {
    assert name + SearchSuffixes[0] == name;
    assert TrySuffix(fs, root, name, SearchSuffixes[0]).Unresolved?;
    assert SearchSuffixes[1] == ".h";
    assert forall j :: 0 <= j < 1 ==> TrySuffix(fs, root, name, SearchSuffixes[j]).Unresolved?;
  }

  /** The first `k` outcomes are all misses. */
  predicate MissesBefore(rs: seq<Resolution>, k: nat) {
    forall j :: 0 <= j < k && j < |rs| ==> rs[j].Unresolved?
  }

  /** The first outcome that is not a miss; a miss when every outcome is one. */
  function FirstDecisive(rs: seq<Resolution>): (r: Resolution)
    ensures MissesBefore(rs, |rs|) <==> r.Unresolved?
    ensures forall k :: 0 <= k < |rs| && !rs[k].Unresolved? && MissesBefore(rs, k) ==> r == rs[k]
    ensures r.Unresolved? || r in rs
  {
    if rs == [] then Unresolved
    else if !rs[0].Unresolved? then rs[0]
    else
      assert forall k :: 1 <= k < |rs| ==> rs[k] == rs[1..][k - 1];
      assert forall k :: 1 <= k <= |rs| ==> MissesBefore(rs, k) == MissesBefore(rs[1..], k - 1);
      FirstDecisive(rs[1..])
  }

  /** The outcome of each iteration of the suffix loop, in order. */
  function Attempts(fs: FileSystem, root: Path, name: string): (rs: seq<Resolution>)
    ensures |rs| == |SearchSuffixes|
    ensures forall j :: 0 <= j < |rs| ==> rs[j] == TrySuffix(fs, root, name, SearchSuffixes[j])
  {
    seq(|SearchSuffixes|, j requires 0 <= j < |SearchSuffixes| => TrySuffix(fs, root, name, SearchSuffixes[j]))
  }

  /** Search the whole project for `name`: the first suffix that does not miss decides. */
  function SearchProject(fs: FileSystem, root: Path, name: string): (r: Resolution)
    ensures r.Resolved? ==> fs.Exists(r.path)
    ensures (forall j :: 0 <= j < |SearchSuffixes| ==> TrySuffix(fs, root, name, SearchSuffixes[j]).Unresolved?)
            <==> r.Unresolved?
    ensures forall k :: 0 <= k < |SearchSuffixes| && !TrySuffix(fs, root, name, SearchSuffixes[k]).Unresolved?
                        && (forall j :: 0 <= j < k ==> TrySuffix(fs, root, name, SearchSuffixes[j]).Unresolved?)
                        ==> r == TrySuffix(fs, root, name, SearchSuffixes[k])
  {
    var rs := Attempts(fs, root, name);
    var r := FirstDecisive(rs);
    assert r.Resolved? ==> r in rs;
    assert forall k :: 0 <= k <= |rs| ==>
      (MissesBefore(rs, k) <==> forall j :: 0 <= j < k ==> TrySuffix(fs, root, name, SearchSuffixes[j]).Unresolved?);
    r
  }

  /**
   * `_resolve_include_path` as written, including its two branches for names
   * that still carry their delimiters: a `<...>` name is given up on, and a
   * quoted name is first looked up next to the including file.
   */
  function ResolveInclude(fs: FileSystem, root: Path, source: Path, name: string): (r: Resolution)
    ensures r.Resolved? ==> fs.Exists(r.path)
    ensures StartsWith(name, "<") && Contains(name, ">") ==> r == Unresolved
  {
    if StartsWith(name, "<") && Contains(name, ">") then Unresolved
    else if StartsWith(name, "\"") then
      var stripped := StripChar(name, '"');
      var candidate := Join(Parent(source), stripped);
      if fs.Exists(candidate) then Resolved(candidate) else SearchProject(fs, root, stripped)
    else SearchProject(fs, root, name)
  }

  /**
   * The parser's names carry no '>' or '"', so neither delimiter branch
   * fires: the name is searched in the project as it stands, whether it
   * was written with angle brackets or quotes.
   */
  lemma ParsedNamesSkipDelimiterBranches(fs: FileSystem, root: Path, source: Path, text: string)
    requires IncludeParser.LeadingInclude(text).Some?
    ensures ResolveInclude(fs, root, source, IncludeParser.LeadingInclude(text).value)
            == SearchProject(fs, root, IncludeParser.LeadingInclude(text).value)
  {
    var name := IncludeParser.LeadingInclude(text).value;
    assert !Contains(name, ">") by {
      assert forall i :: OccursAt(name, ">", i) ==> name[i] == '>';
    }
  }

  /** A name found directly under the root is returned before any glob is run. */
  lemma RootCandidateWins(fs: FileSystem, root: Path, name: string)
    requires fs.Exists(Join(root, name))
    ensures SearchProject(fs, root, name) == Resolved(Join(root, name))
  {
    assert name + SearchSuffixes[0] == name;
  }

  /** The root candidate is compared as a path: a leading "./" of the name does not hide it. */
  lemma DotPrefixedNameFindsRootFile(fs: FileSystem, root: Path, name: string)
    requires !StartsWith(name, "/") && fs.Exists(Join(root, name))
    ensures SearchProject(fs, root, "./" + name) == Resolved(Join(root, name))
  {
    JoinIgnoresDotPrefix(root, name);
    RootCandidateWins(fs, root, "./" + name);
  }

  /** A name without a leading delimiter goes straight to the project search. */
  lemma UndelimitedNameSearchesProject(fs: FileSystem, root: Path, source: Path, name: string)
    requires !StartsWith(name, "<") && !StartsWith(name, "\"")
    ensures ResolveInclude(fs, root, source, name) == SearchProject(fs, root, name)
  {
  }

  /** `#include "./a.h"` in any file resolves to `r/a.h` when the root `r` holds that header. */
  lemma DotSlashIncludeFindsRootHeader(fs: FileSystem, source: Path)
    requires fs.Exists("r/a.h")
    ensures ResolveInclude(fs, "r", source, "./a.h") == Resolved("r/a.h")
  {
    DotSlashNameFacts();
    UndelimitedNameSearchesProject(fs, "r", source, "./a.h");
    DotPrefixedNameFindsRootFile(fs, "r", "a.h");
  }

  /** The literal facts behind the example: how "./a.h" is written and where "a.h" lands under "r". */
  lemma DotSlashNameFacts()
    ensures "./a.h" == "./" + "a.h" && !StartsWith("a.h", "/")
    ensures !StartsWith("./a.h", "<") && !StartsWith("./a.h", "\"")
    ensures Join("r", "a.h") == "r/a.h"
  {
    assert ("./a.h")[..1] == ".";
    assert IsComponent("a.h");
    assert !EndsWith("r", "/");
    JoinPlainName("r", "a.h");
    assert "r" + "/" + "a.h" == "r/a.h";
  }

  /** `#include "./a.h"` in `r/m.cpp` resolves to the header `r/a.h` under the root `r`. */
  lemma DotSlashIncludeFindsRootFile()
    ensures ResolveInclude(FileSystem({"r/a.h", "r/m.cpp"}, {"r"}, _ => Some([])), "r", "r/m.cpp", "./a.h")
            == Resolved("r/a.h")
  {
    DotSlashIncludeFindsRootHeader(FileSystem({"r/a.h", "r/m.cpp"}, {"r"}, _ => Some([])), "r/m.cpp");
  }

  /** `#include "util.h"` finds `r/src/util/util.h` through the glob when the root `r` has no `util.h`. */
  lemma SubdirectoryHeaderFound(fs: FileSystem, source: Path)
    requires !fs.Exists("r/util.h") && fs.IsFile("r/src/util/util.h")
    requires fs.rglob("util.h") == Some(["r/src/util/util.h"])
    ensures ResolveInclude(fs, "r", source, "util.h") == Resolved("r/src/util/util.h")
  {
    UtilNameFacts();
    UndelimitedNameSearchesProject(fs, "r", source, "util.h");
    assert FirstFileAt(fs, ["r/src/util/util.h"], 0);
    GlobFindsFirstFile(fs, "r", "util.h", ["r/src/util/util.h"], 0);
  }

  /** The literal facts behind the example: "util.h" carries no delimiter and lands at "r/util.h" under "r". */
  lemma UtilNameFacts()
    ensures !StartsWith("util.h", "<") && !StartsWith("util.h", "\"")
    ensures Join("r", "util.h") == "r/util.h"
  {
    assert ("util.h")[..1] == "u";
    assert IsComponent("util.h");
    assert !EndsWith("r", "/");
    JoinPlainName("r", "util.h");
    assert "r" + "/" + "util.h" == "r/util.h";
  }
}

=== FILE: seqs.dfy ===
/** Small facts about sequences used as ordered collections of paths and names. */
module Seqs {

  /** The set of elements of a sequence. */
  function ToSet<T(!new)>(s: seq<T>): (r: set<T>)
    ensures forall x :: x in r <==> x in s
  {
    set x | x in s
  }

  /** No element occurs twice. */
  predicate NoDuplicates<T(==)>(s: seq<T>) {
    forall i, j :: 0 <= i < j < |s| ==> s[i] != s[j]
  }

  /** Position of the first occurrence of `x` in `s`. */
  function IndexOf<T(==)>(s: seq<T>, x: T): (i: nat)
    requires x in s
    ensures i < |s| && s[i] == x
    ensures forall j :: 0 <= j < i ==> s[j] != x
  {
    if s[0] == x then 0 else 1 + IndexOf(s[1..], x)
  }

  /** `a` occurs in `s` at an earlier position than `b`. */
  predicate Before<T(==)>(s: seq<T>, a: T, b: T) {
    exists m, n :: 0 <= m < n < |s| && s[m] == a && s[n] == b
  }

  /** Number of positions of `s` that satisfy `p`. */
  function CountWhere<T>(s: seq<T>, p: T -> bool): (n: nat)
    ensures n <= |s|
  {
    if s == [] then 0
    else CountWhere(s[..|s| - 1], p) + (if p(s[|s| - 1]) then 1 else 0)
  }

  /** The positions of `s` whose element satisfies `p`. */
  function IndicesWhere<T>(s: seq<T>, p: T -> bool): (r: set<int>)
    ensures forall i :: i in r <==> 0 <= i < |s| && p(s[i])
  {
    set i | 0 <= i < |s| && p(s[i])
  }

  /** `CountWhere` counts exactly the positions that satisfy `p`. */
  lemma {:induction false} CountWhereCountsIndices<T>(s: seq<T>, p: T -> bool)
    ensures CountWhere(s, p) == |IndicesWhere(s, p)|
  {
    if s != [] {
      var init := s[..|s| - 1];
      CountWhereCountsIndices(init, p);
      var last: set<int> := if p(s[|s| - 1]) then {|s| - 1} else {};
      assert IndicesWhere(s, p) == IndicesWhere(init, p) + last;
      assert IndicesWhere(init, p) !! last;
    }
  }

  /** The elements of `s` that satisfy `p`, in their original order. */
  function Filter<T(!new)>(s: seq<T>, p: T -> bool): (r: seq<T>)
    ensures |r| <= |s|
    ensures forall x :: x in r <==> x in s && p(x)
  {
    if s == [] then []
    else Filter(s[..|s| - 1], p) + (if p(s[|s| - 1]) then [s[|s| - 1]] else [])
  }

  /** `Filter` keeps exactly as many elements as `CountWhere` counts. */
  lemma {:induction false} FilterLength<T(!new)>(s: seq<T>, p: T -> bool)
    ensures |Filter(s, p)| == CountWhere(s, p)
  {
    if s != [] {
      FilterLength(s[..|s| - 1], p);
    }
  }

  /** `Filter` keeps the relative order of the elements it keeps. */
  lemma {:induction false} FilterKeepsOrder<T(!new)>(s: seq<T>, p: T -> bool)
    ensures forall i, j :: 0 <= i < j < |Filter(s, p)| ==> Before(s, Filter(s, p)[i], Filter(s, p)[j])
  {
    if s != [] {
      var init := s[..|s| - 1];
      var prev := Filter(init, p);
      var r := Filter(s, p);
      FilterKeepsOrder(init, p);
      assert r == prev + (if p(s[|s| - 1]) then [s[|s| - 1]] else []);
      forall i, j | 0 <= i < j < |r|
        ensures Before(s, r[i], r[j])
      {
        assert r[i] == prev[i];
        if j < |prev| {
          assert r[j] == prev[j];
          assert Before(init, prev[i], prev[j]);
          var m, n :| 0 <= m < n < |init| && init[m] == prev[i] && init[n] == prev[j];
          assert s[m] == init[m] && s[n] == init[n];
        } else {
          assert prev[i] in prev;
          var m :| 0 <= m < |init| && init[m] == prev[i];
          assert s[m] == init[m] && s[|s| - 1] == r[j];
        }
      }
    }
  }

  /** Filtering a concatenation filters each part, in turn. */
  lemma {:induction false} FilterAppend<T(!new)>(a: seq<T>, b: seq<T>, p: T -> bool)
    ensures Filter(a + b, p) == Filter(a, p) + Filter(b, p)
    decreases |b|
  {
    if b == [] {
      assert a + b == a;
    } else {
      var init := b[..|b| - 1];
      assert (a + b)[..|a + b| - 1] == a + init;
      assert (a + b)[|a + b| - 1] == b[|b| - 1];
      FilterAppend(a, init, p);
    }
  }

  /** Filtering keeps a sequence whose every element passes. */
  lemma {:induction false} FilterKeepsAll<T(!new)>(s: seq<T>, p: T -> bool)
    requires forall i :: 0 <= i < |s| ==> p(s[i])
    ensures Filter(s, p) == s
  {
    if s != [] {
      FilterKeepsAll(s[..|s| - 1], p);
    }
  }

  /** Filtering empties a sequence whose every element fails. */
  lemma {:induction false} FilterDropsAll<T(!new)>(s: seq<T>, p: T -> bool)
    requires forall i :: 0 <= i < |s| ==> !p(s[i])
    ensures Filter(s, p) == []
  {
    if s != [] {
      FilterDropsAll(s[..|s| - 1], p);
    }
  }

  /** A duplicate-free sequence has exactly as many elements as its set. */
  lemma {:induction false} DistinctCardinality<T(!new)>(s: seq<T>)
    requires NoDuplicates(s)
    ensures |ToSet(s)| == |s|
  {
    if s != [] {
      var t := s[..|s| - 1];
      DistinctCardinality(t);
      assert ToSet(s) == ToSet(t) + {s[|s| - 1]};
      assert s[|s| - 1] !in ToSet(t);
    }
  }

  /** Two predicates that never hold together count at most the whole sequence between them. */
  lemma {:induction false} DisjointCounts<T>(s: seq<T>, p: T -> bool, q: T -> bool)
    requires forall k :: 0 <= k < |s| ==> !(p(s[k]) && q(s[k]))
    ensures CountWhere(s, p) + CountWhere(s, q) <= |s|
  {
    if s != [] {
      DisjointCounts(s[..|s| - 1], p, q);
    }
  }
}

=== FILE: strings.dfy ===
/** Character classes and string helpers with the meaning Python gives them. */
module Strings {

  /** Python's whitespace (`str.isspace`, and `\s` in a `str` regular expression). */
  predicate IsSpace(c: char) {
    || c == ' ' || c == '\t' || c == '\n' || c == '\r' || c == '\U{0B}' || c == '\U{0C}'
    || c == '\U{1C}' || c == '\U{1D}' || c == '\U{1E}' || c == '\U{1F}'
    || c == '\U{85}' || c == '\U{A0}' || c == '\U{1680}'
    || ('\U{2000}' <= c <= '\U{200A}')
    || c == '\U{2028}' || c == '\U{2029}' || c == '\U{202F}' || c == '\U{205F}' || c == '\U{3000}'
  }

  /** Every position from `i` up to (not including) `j` exists and holds whitespace. */
  predicate SpacesBetween(s: string, i: nat, j: nat) {
    forall k :: i <= k < j ==> k < |s| && IsSpace(s[k])
  }

  /** The first position at or after `i` that does not hold whitespace (a greedy `\s*`). */
  function SkipSpaces(s: string, i: nat): (j: nat)
    requires i <= |s|
    ensures i <= j <= |s|
    ensures SpacesBetween(s, i, j)
    ensures j < |s| ==> !IsSpace(s[j])
    decreases |s| - i
  {
    if i < |s| && IsSpace(s[i]) then SkipSpaces(s, i + 1) else i
  }

  predicate StartsWith(s: string, prefix: string) {
    |prefix| <= |s| && s[..|prefix|] == prefix
  }

  predicate EndsWith(s: string, suffix: string) {
    |suffix| <= |s| && s[|s| - |suffix|..] == suffix
  }

  /** `sub` occurs in `s` at position `i`. */
  predicate OccursAt(s: string, sub: string, i: int) {
    0 <= i && i + |sub| <= |s| && s[i..i + |sub|] == sub
  }

  /** Python's `sub in s`. */
  function Contains(s: string, sub: string): (r: bool)
    ensures r <==> exists i :: OccursAt(s, sub, i)
  {
    if StartsWith(s, sub) then
      assert OccursAt(s, sub, 0);
      true
    else if s == [] then
      assert forall i :: OccursAt(s, sub, i) ==> i == 0;
      false
    else
      var r := Contains(s[1..], sub);
      assert forall i :: OccursAt(s[1..], sub, i) <==> OccursAt(s, sub, i + 1);
      assert forall i :: 1 <= i ==> (OccursAt(s, sub, i) <==> OccursAt(s[1..], sub, i - 1));
      assert forall i :: OccursAt(s, sub, i) ==> i >= 1;
      r
  }

  /** Removes leading characters that satisfy `drop`. */
  function TrimStart(s: string, drop: char -> bool): (r: string)
    ensures |r| <= |s| && r == s[|s| - |r|..]
    ensures forall k :: 0 <= k < |s| - |r| ==> drop(s[k])
    ensures r != [] ==> !drop(r[0])
  {
    if s != [] && drop(s[0]) then TrimStart(s[1..], drop) else s
  }

  /** Removes trailing characters that satisfy `drop`. */
  function TrimEnd(s: string, drop: char -> bool): (r: string)
    ensures |r| <= |s| && r == s[..|r|]
    ensures forall k :: |r| <= k < |s| ==> drop(s[k])
    ensures r != [] ==> !drop(r[|r| - 1])
  {
    if s != [] && drop(s[|s| - 1]) then TrimEnd(s[..|s| - 1], drop) else s
  }

  /** `r` is `s` less a leading and a trailing run of characters that satisfy `drop`. */
  ghost predicate TrimmedOf(s: string, r: string, drop: char -> bool) {
    exists a, b :: 0 <= a <= b <= |s| && r == s[a..b]
                   && (forall k :: 0 <= k < a ==> drop(s[k])) && (forall k :: b <= k < |s| ==> drop(s[k]))
  }

  /** Removes leading and trailing characters that satisfy `drop`. */
  function Trim(s: string, drop: char -> bool): (r: string)
    ensures r != [] ==> !drop(r[0]) && !drop(r[|r| - 1])
    ensures TrimmedOf(s, r, drop)
  {
    var t := TrimStart(s, drop);
    var r := TrimEnd(t, drop);
    TrimBothIsSlice(s, t, r, drop);
    r
  }

  lemma TrimBothIsSlice(s: string, t: string, r: string, drop: char -> bool)
    requires |t| <= |s| && t == s[|s| - |t|..] && forall k :: 0 <= k < |s| - |t| ==> drop(s[k])
    requires |r| <= |t| && r == t[..|r|] && forall k :: |r| <= k < |t| ==> drop(t[k])
    ensures TrimmedOf(s, r, drop)
  {
    var a := |s| - |t|;
    var b := a + |r|;
    assert r == s[a..b];
    forall k | b <= k < |s| ensures drop(s[k]) {
      assert s[k] == t[k - a];
    }
  }

  /** Python's `s.strip()`. */
  function Strip(s: string): (r: string)
    ensures r != [] ==> !IsSpace(r[0]) && !IsSpace(r[|r| - 1])
    ensures TrimmedOf(s, r, IsSpace)
  {
    Trim(s, IsSpace)
  }

  /** Python's `s.strip(c)` with a one-character argument. */
  function StripChar(s: string, c: char): (r: string)
    ensures r != [] ==> r[0] != c && r[|r| - 1] != c
    ensures TrimmedOf(s, r, x => x == c)
  {
    Trim(s, x => x == c)
  }

  /** The decimal digit character for `d`. */
  function DigitChar(d: nat): (c: char)
    requires d < 10
    ensures '0' <= c <= '9' && c as int == '0' as int + d
  {
    ('0' as int + d) as char
  }

  predicate AllDigits(s: string) {
    forall i :: 0 <= i < |s| ==> '0' <= s[i] <= '9'
  }

  /** The number a string of decimal digits denotes, most significant digit first. */
  function DecimalValue(s: string): nat
    requires AllDigits(s)
  {
    if s == [] then 0 else DecimalValue(s[..|s| - 1]) * 10 + (s[|s| - 1] as int - '0' as int)
  }

  /** Python's `str(n)` for a non-negative integer: its decimal digits, without leading zeros. */
  function NatToString(n: nat): (r: string)
    ensures r != [] && AllDigits(r)
    ensures DecimalValue(r) == n
    ensures |r| > 1 ==> r[0] != '0'
    ensures |r| == 1 <==> n < 10
    decreases n
  {
    if n < 10 then [DigitChar(n)]
    else
      var r := NatToString(n / 10) + [DigitChar(n % 10)];
      assert r[..|r| - 1] == NatToString(n / 10);
      r
  }

  /** Different numbers print differently: reading the digits back gives the number. */
  lemma NatToStringInjective(m: nat, n: nat)
    requires NatToString(m) == NatToString(n)
    ensures m == n
  {
    assert DecimalValue(NatToString(m)) == m;
  }
}

=== FILE: suggestions.dfy ===
/**
 * `generate_suggestions` and its rules. A suggestion keeps its type, its
 * target, its priority and the command or compiler flags its action names
 * (empty when the action is prose only); the prose itself is not modelled.
 */
module Suggestions {
  import opened Config
  import opened Project
  import opened Seqs
  import opened OrderedMaps

  datatype Kind =
    | ForwardDeclaration
    | PimplPattern
    | UnifiedHeader
    | BuildOptimization
    | CompilerOptimization
    | CodeRestructuring
    | CachingStrategy

  datatype Suggestion = Suggestion(kind: Kind, target: string, priority: Severity, command: string)

  /** A header included by more files than this deserves forward declarations. */
  const ManyIncludersThreshold: nat := 5
  /** A header with more characters than this deserves the PIMPL idiom. */
  const PimplSizeThreshold: nat := 15000
  /** A header with more forward declarations than this, and fewer includes than the next constant, is a declaration hub. */
  const ForwardDeclarationThreshold: nat := 5
  const FewIncludesLimit: nat := 3
  /** Only estimates above this many seconds suggest restructuring, and at most `SlowFilesShown` of them. */
  const SlowEstimateThreshold: real := 1.0
  const SlowFilesShown: nat := 5

  const ProjectTarget := "PROJECT"
  const CacheSetupCommand := "sudo apt install ccache && export CC=\"ccache gcc\""
  const FallbackParallelCommand := "make -j$(nproc)"

  /** One suggestion of the given kind and priority per path, in order. */
  function PerPath(paths: seq<Path>, kind: Kind, priority: Severity): (r: seq<Suggestion>)
    ensures |r| == |paths|
    ensures forall i :: 0 <= i < |r| ==> r[i] == Suggestion(kind, paths[i], priority, "")
  {
    seq(|paths|, i requires 0 <= i < |paths| => Suggestion(kind, paths[i], priority, ""))
  }

  /** Whether `target` is the target of some suggestion in `r`. */
  predicate Targets(r: seq<Suggestion>, target: string) {
    exists i :: 0 <= i < |r| && r[i].target == target
  }

  /**
   * `_suggest_forward_declarations`: every header counted as a dependency
   * more than five times, in the order the counts were first recorded.
   */
  function ForwardDeclarations(dependencyCount: OMap<Path, nat>): (r: seq<Suggestion>)
    requires dependencyCount.Valid()
    ensures |r| <= |dependencyCount.keys|
    ensures forall i :: 0 <= i < |r| ==> r[i].kind == ForwardDeclaration && r[i].priority == High
    ensures forall p :: Targets(r, p) <==>
              p in dependencyCount.entries && dependencyCount.entries[p] > ManyIncludersThreshold && IsHeader(p)
    ensures forall i :: 0 <= i < |r| ==> r[i] == Suggestion(ForwardDeclaration, r[i].target, High, "")
    ensures forall i, j :: 0 <= i < j < |r| ==> Before(dependencyCount.keys, r[i].target, r[j].target)
    ensures forall i, j :: 0 <= i < j < |r| ==> r[i].target != r[j].target
  {
    var counts := dependencyCount.entries;
    var keep := p => p in counts && counts[p] > ManyIncludersThreshold && IsHeader(p);
    var heavy := Filter(dependencyCount.keys, keep);
    var r := PerPath(heavy, ForwardDeclaration, High);
    FilterKeepsOrder(dependencyCount.keys, keep);
    BeforeMeansDistinct(dependencyCount.keys, heavy);
    assert forall p :: Targets(r, p) <==> p in heavy by {
      forall p | p in heavy ensures Targets(r, p) {
        var i :| 0 <= i < |heavy| && heavy[i] == p;
        assert r[i].target == p;
      }
    }
    r
  }

  /** `_suggest_pimpl_pattern`: every header longer than 15000 characters, in catalog order. */
  function PimplCandidates(fileSizes: OMap<Path, nat>): (r: seq<Suggestion>)
    requires fileSizes.Valid()
    ensures |r| <= |fileSizes.keys|
    ensures forall i :: 0 <= i < |r| ==> r[i].kind == PimplPattern && r[i].priority == Medium
    ensures forall p :: Targets(r, p) <==>
              p in fileSizes.entries && fileSizes.entries[p] > PimplSizeThreshold && IsHeader(p)
    ensures forall i :: 0 <= i < |r| ==> r[i] == Suggestion(PimplPattern, r[i].target, Medium, "")
    ensures forall i, j :: 0 <= i < j < |r| ==> Before(fileSizes.keys, r[i].target, r[j].target)
    ensures forall i, j :: 0 <= i < j < |r| ==> r[i].target != r[j].target
  {
    var sizes := fileSizes.entries;
    var keep := p => p in sizes && sizes[p] > PimplSizeThreshold && IsHeader(p);
    var large := Filter(fileSizes.keys, keep);
    var r := PerPath(large, PimplPattern, Medium);
    FilterKeepsOrder(fileSizes.keys, keep);
    BeforeMeansDistinct(fileSizes.keys, large);
    assert forall p :: Targets(r, p) <==> p in large by {
      forall p | p in large ensures Targets(r, p) {
        var i :| 0 <= i < |large| && large[i] == p;
        assert r[i].target == p;
      }
    }
    r
  }

  /** Paths listed in the order of a duplicate-free key list are themselves distinct. */
  lemma BeforeMeansDistinct(keys: seq<Path>, picked: seq<Path>)
    requires NoDuplicates(keys)
    requires forall i, j :: 0 <= i < j < |picked| ==> Before(keys, picked[i], picked[j])
    ensures forall i, j :: 0 <= i < j < |picked| ==> picked[i] != picked[j]
  {
    forall i, j | 0 <= i < j < |picked|
      ensures picked[i] != picked[j]
    {
      var m, n :| 0 <= m < n < |keys| && keys[m] == picked[i] && keys[n] == picked[j];
    }
  }

  /** A readable header that mostly forward-declares: more than five declarations and fewer than three includes. */
  predicate IsDeclarationHub(f: SourceFile) {
    && IsHeader(f.path)
    && f.content.Some?
    && f.content.value.features.forwardDecls > ForwardDeclarationThreshold
    && f.content.value.features.includes < FewIncludesLimit
  }

  /** Some file of the catalog at path `target` passes `keep`. */
  predicate KeptFileAt(files: seq<SourceFile>, keep: SourceFile -> bool, target: Path) {
    exists f :: f in files && f.path == target && keep(f)
  }

  /** Two files of the catalog that pass `keep`, at paths `a` and `b`, with the one at `a` listed first. */
  predicate KeptBefore(files: seq<SourceFile>, keep: SourceFile -> bool, a: Path, b: Path) {
    exists m, n :: 0 <= m < n < |files| && files[m].path == a && files[n].path == b && keep(files[m]) && keep(files[n])
  }

  /** One suggestion per file that passes `keep`, in catalog order. */
  function PerMatchingFile(files: seq<SourceFile>, keep: SourceFile -> bool, kind: Kind, priority: Severity)
    : (r: seq<Suggestion>)
    ensures |r| <= |files|
    ensures |r| == CountWhere(files, keep)
    ensures forall i :: 0 <= i < |r| ==> r[i].kind == kind && r[i].priority == priority
    ensures forall i :: 0 <= i < |r| ==> r[i] == Suggestion(kind, r[i].target, priority, "")
    ensures forall i :: 0 <= i < |r| ==> KeptFileAt(files, keep, r[i].target)
    ensures forall f :: f in files && keep(f) ==> Targets(r, f.path)
    ensures forall i, j :: 0 <= i < j < |r| ==> KeptBefore(files, keep, r[i].target, r[j].target)
  {
    var hubs := Filter(files, keep);
    var r := PerPath(Paths(hubs), kind, priority);
    TargetsAreKeptFiles(files, keep, hubs, r);
    KeptFilesAreTargets(files, keep, hubs, r);
    FilterLength(files, keep);
    TargetsKeepCatalogOrder(files, keep, r);
    r
  }

  /** The suggestions made from the kept files follow the catalog order of those files. */
  lemma TargetsKeepCatalogOrder(files: seq<SourceFile>, keep: SourceFile -> bool, r: seq<Suggestion>)
    requires var hubs := Filter(files, keep);
             |r| == |hubs| && forall i :: 0 <= i < |r| ==> r[i].target == hubs[i].path
    ensures forall i, j :: 0 <= i < j < |r| ==> KeptBefore(files, keep, r[i].target, r[j].target)
  {
    var hubs := Filter(files, keep);
    FilterKeepsOrder(files, keep);
    forall i, j | 0 <= i < j < |r|
      ensures KeptBefore(files, keep, r[i].target, r[j].target)
    {
      assert Before(files, hubs[i], hubs[j]);
      var m, n :| 0 <= m < n < |files| && files[m] == hubs[i] && files[n] == hubs[j];
      assert hubs[i] in hubs && hubs[j] in hubs;
    }
  }

  lemma TargetsAreKeptFiles(files: seq<SourceFile>, keep: SourceFile -> bool, hubs: seq<SourceFile>, r: seq<Suggestion>)
    requires forall f :: f in hubs <==> f in files && keep(f)
    requires |r| == |hubs| && forall i :: 0 <= i < |r| ==> r[i].target == hubs[i].path
    ensures forall i :: 0 <= i < |r| ==> KeptFileAt(files, keep, r[i].target)
  {
    forall i | 0 <= i < |r|
      ensures KeptFileAt(files, keep, r[i].target)
    {
      var f := hubs[i];
      assert f in hubs;
      assert f in files && keep(f) && f.path == r[i].target;
    }
  }

  lemma KeptFilesAreTargets(files: seq<SourceFile>, keep: SourceFile -> bool, hubs: seq<SourceFile>, r: seq<Suggestion>)
    requires forall f :: f in hubs <==> f in files && keep(f)
    requires |r| == |hubs| && forall i :: 0 <= i < |r| ==> r[i].target == hubs[i].path
    ensures forall f :: f in files && keep(f) ==> Targets(r, f.path)
  {
    forall f | f in files && keep(f)
      ensures Targets(r, f.path)
    {
      var i :| 0 <= i < |hubs| && hubs[i] == f;
      assert r[i].target == f.path;
    }
  }

  /** `_suggest_unified_headers`: one Low suggestion per declaration hub, in catalog order; unreadable files are skipped. */
  function UnifiedHeaders(files: seq<SourceFile>): (r: seq<Suggestion>)
    ensures |r| <= |files|
    ensures forall i :: 0 <= i < |r| ==> r[i].kind == UnifiedHeader && r[i].priority == Low
    ensures forall i :: 0 <= i < |r| ==> KeptFileAt(files, IsDeclarationHub, r[i].target)
    ensures forall f :: f in files && IsDeclarationHub(f) ==> Targets(r, f.path)
    ensures |r| == CountWhere(files, IsDeclarationHub)
    ensures forall i :: 0 <= i < |r| ==> r[i] == Suggestion(UnifiedHeader, r[i].target, Low, "")
    ensures forall i, j :: 0 <= i < j < |r| ==> KeptBefore(files, IsDeclarationHub, r[i].target, r[j].target)
  {
    PerMatchingFile(files, IsDeclarationHub, UnifiedHeader, Low)
  }

  /** `_get_parallel_build_command`: the command table, looked up with a fallback. */
  const ParallelCommands: map<BuildSystem, string> := map[
    CMake := "cmake --build . --parallel",
    Make := "make -j$(nproc)",
    Ninja := "ninja -j$(nproc)",
    QMake := "make -j$(nproc)",
    MSBuild := "msbuild /m",
    Bazel := "bazel build --jobs=$(nproc)",
    Meson := "ninja -j$(nproc)"]

  function ParallelBuildCommand(b: BuildSystem): (r: string)
    ensures b in ParallelCommands ==> r == ParallelCommands[b]
    ensures b !in ParallelCommands ==> r == FallbackParallelCommand
  {
    if b in ParallelCommands then ParallelCommands[b] else FallbackParallelCommand
  }

  /** Every build system has its own entry, so the fallback is never taken. */
  lemma ParallelCommandFallbackUnused(b: BuildSystem)
    ensures b in ParallelCommands
    ensures ParallelBuildCommand(b) != FallbackParallelCommand <==> b in {CMake, MSBuild, Bazel, Ninja, Meson}
  {
  }

  /**
   * `_suggest_build_optimizations`: always the parallel-build suggestion
   * first, then the compiler cache and then the unity build, each only
   * when switched on.
   */
  function BuildOptimizations(b: BuildSystem, oc: OptimizationConfig): (r: seq<Suggestion>)
    ensures 1 <= |r| <= 3
    ensures |r| == 1 + (if oc.cacheCompilation then 1 else 0) + (if oc.unityBuild then 1 else 0)
    ensures forall i :: 0 <= i < |r| ==> r[i].kind == BuildOptimization && r[i].target == ProjectTarget
    ensures r[0].priority == High && r[0].command == ParallelBuildCommand(b)
    ensures forall i :: 1 <= i < |r| ==> r[i].priority == Medium
    ensures (exists i :: 0 <= i < |r| && r[i].command == CacheSetupCommand) <==> oc.cacheCompilation
    ensures oc.cacheCompilation ==> r[1] == Suggestion(BuildOptimization, ProjectTarget, Medium, CacheSetupCommand)
    ensures oc.unityBuild ==> r[|r| - 1] == Suggestion(BuildOptimization, ProjectTarget, Medium, "")
  {
    var parallel := Suggestion(BuildOptimization, ProjectTarget, High, ParallelBuildCommand(b));
    var cache := if oc.cacheCompilation then [Suggestion(BuildOptimization, ProjectTarget, Medium, CacheSetupCommand)] else [];
    var unity := if oc.unityBuild then [Suggestion(BuildOptimization, ProjectTarget, Medium, "")] else [];
    var r := [parallel] + cache + unity;
    assert ParallelBuildCommand(b) != CacheSetupCommand;
    assert oc.cacheCompilation ==> r[1].command == CacheSetupCommand;
    r
  }

  /** The display name each compiler's suggestions target. */
  function CompilerTarget(c: Compiler): string {
    match c
    case GCC => "GCC"
    case Clang => "Clang"
    case MSVC => "MSVC"
    case ICC => "ICC"
  }

  /** The per-compiler suggestion lists: whole-program optimisation flags, and for GCC also profile-guided optimisation. */
  const CompilerSuggestions: map<Compiler, seq<Suggestion>> := map[
    GCC := [Suggestion(CompilerOptimization, "GCC", Medium, "-flto -O2"),
            Suggestion(CompilerOptimization, "GCC", Low, "-fprofile-generate, -fprofile-use")],
    Clang := [Suggestion(CompilerOptimization, "Clang", Medium, "-flto=thin -O2")],
    MSVC := [Suggestion(CompilerOptimization, "MSVC", Medium, "/GL /O2")],
    ICC := [Suggestion(CompilerOptimization, "ICC", Medium, "-ipo -O3")]]

  /** `_suggest_compiler_specific_optimizations`: the table entry, or nothing for a compiler without one. */
  function CompilerOptimizations(c: Compiler): (r: seq<Suggestion>)
    ensures c in CompilerSuggestions ==> r == CompilerSuggestions[c]
    ensures c !in CompilerSuggestions ==> r == []
  {
    if c in CompilerSuggestions then CompilerSuggestions[c] else []
  }

  /**
   * Every compiler has an entry: a Medium whole-program suggestion first,
   * all aimed at that compiler, and a second, Low one only for GCC.
   */
  lemma CompilerOptimizationsShape(c: Compiler)
    ensures var r := CompilerOptimizations(c);
            && |r| == (if c == GCC then 2 else 1)
            && r[0].priority == Medium
            && (forall i :: 0 <= i < |r| ==> r[i].kind == CompilerOptimization && r[i].target == CompilerTarget(c))
            && (c == GCC ==> r[1].priority == Low)
  {
  }

  /** `_suggest_caching_strategies`: the distributed-cache suggestion when caching is on. */
  function CachingStrategies(oc: OptimizationConfig): (r: seq<Suggestion>)
    ensures |r| <= 1
    ensures r != [] <==> oc.cacheCompilation
    ensures forall i :: 0 <= i < |r| ==> r[i] == Suggestion(CachingStrategy, ProjectTarget, Medium, "")
  {
    if oc.cacheCompilation then [Suggestion(CachingStrategy, ProjectTarget, Medium, "")] else []
  }

  // ----- Restructuring: the slowest files, slowest first -----

  type Timed = (Path, real)

  ghost predicate Descending(s: seq<Timed>) {
    forall i, j :: 0 <= i < j < |s| ==> s[i].1 >= s[j].1
  }

  /** Inserts `x` after every leading entry at least as slow, so equal times keep their arrival order. */
  function Insert(x: Timed, s: seq<Timed>): (r: seq<Timed>)
    ensures |r| == |s| + 1
    ensures multiset(r) == multiset(s) + multiset{x}
  {
    if s == [] then [x]
    else if s[0].1 < x.1 then
      assert multiset([x] + s) == multiset{x} + multiset(s);
      [x] + s
    else
      assert s == [s[0]] + s[1..];
      [s[0]] + Insert(x, s[1..])
  }

  /** Inserting into a slowest-first sequence keeps it slowest first. */
  lemma {:induction false} InsertKeepsDescending(x: Timed, s: seq<Timed>)
    requires Descending(s)
    ensures Descending(Insert(x, s))
  {
    if s != [] && s[0].1 >= x.1 {
      var rest := Insert(x, s[1..]);
      InsertKeepsDescending(x, s[1..]);
      var r := [s[0]] + rest;
      assert Insert(x, s) == r;
      forall i, j | 0 <= i < j < |r|
        ensures r[i].1 >= r[j].1
      {
        assert r[j] == rest[j - 1];
        if i == 0 {
          assert rest[j - 1] in multiset(rest);
          if rest[j - 1] != x {
            assert rest[j - 1] in s[1..];
            var k :| 0 <= k < |s[1..]| && s[1..][k] == rest[j - 1];
            assert s[k + 1] == rest[j - 1];
          }
        } else {
          assert r[i] == rest[i - 1];
        }
      }
    }
  }

  /** The entries of `s` that take exactly `t`, in their order in `s`. */
  function Ties(s: seq<Timed>, t: real): (r: seq<Timed>)
    ensures |r| <= |s|
  {
    if s == [] then [] else (if s[0].1 == t then [s[0]] else []) + Ties(s[1..], t)
  }

  /** The ties of a concatenation are the ties of each part, in turn. */
  lemma {:induction false} TiesAppend(a: seq<Timed>, b: seq<Timed>, t: real)
    ensures Ties(a + b, t) == Ties(a, t) + Ties(b, t)
  {
    if a == [] {
      assert a + b == b;
    } else {
      TiesAppend(a[1..], b, t);
      TiesBehind(a[0], a[1..], a[1..] + b, Ties(b, t), t);
      assert a + b == [a[0]] + (a[1..] + b);
      assert a == [a[0]] + a[1..];
    }
  }

  /** A sequence in which nothing takes `t` has no ties at `t`. */
  lemma {:induction false} TiesNone(s: seq<Timed>, t: real)
    requires forall i :: 0 <= i < |s| ==> s[i].1 != t
    ensures Ties(s, t) == []
  {
    if s != [] {
      TiesNone(s[1..], t);
    }
  }

  /** Inserting `x` puts it after every entry that takes as long as it does. */
  lemma {:induction false} InsertTies(x: Timed, s: seq<Timed>, t: real)
    requires Descending(s)
    ensures Ties(Insert(x, s), t) == Ties(s, t) + (if x.1 == t then [x] else [])
  {
    var tail := if x.1 == t then [x] else [];
    if s == [] {
      assert Insert(x, s) == [x];
      assert Ties([x], t) == tail + Ties([x][1..], t);
    } else if s[0].1 < x.1 {
      assert Insert(x, s) == [x] + s;
      TiesCons(x, s, t);
      if x.1 == t {
        TiesNone(s, t);
      }
    } else {
      InsertTies(x, s[1..], t);
      assert Insert(x, s) == [s[0]] + Insert(x, s[1..]);
      assert s == [s[0]] + s[1..];
      TiesBehind(s[0], s[1..], Insert(x, s[1..]), tail, t);
    }
  }

  /** Putting the same entry in front of two sequences keeps their ties related. */
  lemma TiesBehind(y: Timed, s: seq<Timed>, rest: seq<Timed>, tail: seq<Timed>, t: real)
    requires Ties(rest, t) == Ties(s, t) + tail
    ensures Ties([y] + rest, t) == Ties([y] + s, t) + tail
  {
    TiesCons(y, rest, t);
    TiesCons(y, s, t);
  }

  /** The ties of `[y] + r`: `y` when it takes `t`, then the ties of `r`. */
  lemma TiesCons(y: Timed, r: seq<Timed>, t: real)
    ensures Ties([y] + r, t) == (if y.1 == t then [y] else []) + Ties(r, t)
  {
    assert ([y] + r)[1..] == r;
  }

  /**
   * `sorted(..., key=time, reverse=True)`: a stable insertion sort, slowest
   * first. Entries that take equally long keep their input order.
   */
  function SortDescending(s: seq<Timed>): (r: seq<Timed>)
    ensures Descending(r)
    ensures multiset(r) == multiset(s)
    ensures |r| == |s|
    ensures forall t :: Ties(r, t) == Ties(s, t)
  {
    if s == [] then []
    else
      var init := s[..|s| - 1];
      var last := s[|s| - 1];
      assert s == init + [last];
      var sorted := SortDescending(init);
      InsertKeepsDescending(last, sorted);
      assert forall t :: Ties(Insert(last, sorted), t) == Ties(s, t) by {
        forall t ensures Ties(Insert(last, sorted), t) == Ties(s, t) {
          InsertTies(last, sorted, t);
          TiesAppend(init, [last], t);
        }
      }
      Insert(last, sorted)
  }

  /** The ties of a prefix are a prefix of the ties. */
  lemma TiesOfPrefix(s: seq<Timed>, n: nat, t: real)
    requires n <= |s|
    ensures Ties(s[..n], t) <= Ties(s, t)
  {
    assert s == s[..n] + s[n..];
    TiesAppend(s[..n], s[n..], t);
  }

  /** In a slowest-first sequence, an entry outside the first `n` is no slower than any of them. */
  lemma PrefixHoldsTheSlowest(s: seq<Timed>, n: nat, x: Timed)
    requires Descending(s) && x in s && x !in s[..Min(n, |s|)]
    ensures n < |s| && forall i :: 0 <= i < n ==> s[i].1 >= x.1
  {
    var j :| 0 <= j < |s| && s[j] == x;
    assert forall i :: 0 <= i < Min(n, |s|) ==> s[..Min(n, |s|)][i] == s[i];
  }

  /** The entries of the estimate map above the threshold, in key order. */
  function SlowEntries(keys: seq<Path>, entries: map<Path, real>): (r: seq<Timed>)
    requires forall i :: 0 <= i < |keys| ==> keys[i] in entries
    ensures forall x :: x in r <==> x.0 in keys && x.1 == entries[x.0] && x.1 > SlowEstimateThreshold
    ensures forall i, j :: 0 <= i < j < |r| ==> Before(keys, r[i].0, r[j].0)
    ensures |r| <= |keys|
    decreases |keys|
  {
    if keys == [] then []
    else
      var init := keys[..|keys| - 1];
      var k := keys[|keys| - 1];
      assert forall p :: p in keys <==> p in init || p == k;
      var prev := SlowEntries(init, entries);
      var r := prev + (if entries[k] > SlowEstimateThreshold then [(k, entries[k])] else []);
      SlowEntriesKeepKeyOrder(keys, prev, r);
      r
  }

  /** Appending the entry of the last key keeps the key order of the earlier ones. */
  lemma SlowEntriesKeepKeyOrder(keys: seq<Path>, prev: seq<Timed>, r: seq<Timed>)
    requires keys != []
    requires forall x :: x in prev ==> x.0 in keys[..|keys| - 1]
    requires forall i, j :: 0 <= i < j < |prev| ==> Before(keys[..|keys| - 1], prev[i].0, prev[j].0)
    requires r == prev || (r != [] && r == prev + [(keys[|keys| - 1], r[|r| - 1].1)])
    ensures forall i, j :: 0 <= i < j < |r| ==> Before(keys, r[i].0, r[j].0)
  {
    var init := keys[..|keys| - 1];
    forall i, j | 0 <= i < j < |r|
      ensures Before(keys, r[i].0, r[j].0)
    {
      assert r[i] == prev[i];
      if j < |prev| {
        assert r[j] == prev[j];
        var m, n :| 0 <= m < n < |init| && init[m] == prev[i].0 && init[n] == prev[j].0;
        assert keys[m] == init[m] && keys[n] == init[n];
      } else {
        assert prev[i] in prev;
        var m :| 0 <= m < |init| && init[m] == prev[i].0;
        assert keys[m] == init[m];
      }
    }
  }

  function Min(a: nat, b: nat): nat {
    if a <= b then a else b
  }

  /**
   * The at most five slowest files above the threshold, slowest first.
   * Files that take equally long appear in key order, and the ones shown
   * are the first of them in that order.
   */
  function TopSlowFiles(estimates: OMap<Path, real>): (r: seq<Timed>)
    requires estimates.Valid()
    ensures |r| <= SlowFilesShown
    ensures Descending(r)
    ensures forall x :: x in r ==> x.0 in estimates.entries && x.1 == estimates.entries[x.0] && x.1 > SlowEstimateThreshold
    ensures forall t :: Ties(r, t) <= Ties(SlowEntries(estimates.keys, estimates.entries), t)
  {
    var slowEntries := SlowEntries(estimates.keys, estimates.entries);
    var slow := SortDescending(slowEntries);
    var r := slow[..Min(SlowFilesShown, |slow|)];
    TopSlowFilesFacts(slowEntries, slow, r);
    r
  }

  /** A prefix of the sorted entries holds only entries, sorted, with the earliest ties. */
  lemma TopSlowFilesFacts(entries: seq<Timed>, slow: seq<Timed>, r: seq<Timed>)
    requires Descending(slow) && multiset(slow) == multiset(entries)
    requires forall t :: Ties(slow, t) == Ties(entries, t)
    requires r == slow[..Min(SlowFilesShown, |slow|)]
    ensures Descending(r)
    ensures forall x :: x in r ==> x in entries
    ensures forall t :: Ties(r, t) <= Ties(entries, t)
  {
    forall x | x in r
      ensures x in entries
    {
      assert x in slow;
      assert x in multiset(slow);
    }
    forall t
      ensures Ties(r, t) <= Ties(entries, t)
    {
      TiesOfPrefix(slow, Min(SlowFilesShown, |slow|), t);
    }
  }

  /**
   * Nothing slow is left out in favour of a faster file: a slow file not
   * shown is no slower than any shown one, and when there are at most
   * five slow files all of them are shown.
   */
  lemma TopSlowFilesAreTheSlowest(estimates: OMap<Path, real>, p: Path)
    requires estimates.Valid()
    requires p in estimates.entries && estimates.entries[p] > SlowEstimateThreshold
    ensures (p, estimates.entries[p]) !in TopSlowFiles(estimates) ==>
              |TopSlowFiles(estimates)| == SlowFilesShown && NoneFaster(TopSlowFiles(estimates), estimates.entries[p])
  {
    var slow := SlowSorted(estimates, p);
    var x := (p, estimates.entries[p]);
    if x !in TopSlowFiles(estimates) {
      PrefixHoldsTheSlowest(slow, SlowFilesShown, x);
    }
  }

  /** Every entry of `r` takes at least `v`. */
  predicate NoneFaster(r: seq<Timed>, v: real) {
    forall i :: 0 <= i < |r| ==> r[i].1 >= v
  }

  /** The sorted slow entries, which hold every slow file and of which the top files are a prefix. */
  lemma SlowSorted(estimates: OMap<Path, real>, p: Path) returns (slow: seq<Timed>)
    requires estimates.Valid()
    requires p in estimates.entries && estimates.entries[p] > SlowEstimateThreshold
    ensures Descending(slow) && (p, estimates.entries[p]) in slow
    ensures TopSlowFiles(estimates) == slow[..Min(SlowFilesShown, |slow|)]
  {
    var slowEntries := SlowEntries(estimates.keys, estimates.entries);
    slow := SortDescending(slowEntries);
    var x := (p, estimates.entries[p]);
    assert x in slowEntries;
    assert x in multiset(slowEntries);
    assert x in slow;
  }

  /** `_suggest_code_restructuring`: one Medium suggestion per file of `TopSlowFiles`, slowest first. */
  function RestructuringSuggestions(estimates: OMap<Path, real>): (r: seq<Suggestion>)
    requires estimates.Valid()
    ensures |r| <= SlowFilesShown
    ensures forall i :: 0 <= i < |r| ==>
              && r[i].kind == CodeRestructuring && r[i].priority == Medium
              && r[i].target in estimates.entries && estimates.entries[r[i].target] > SlowEstimateThreshold
    ensures forall i, j :: 0 <= i < j < |r| ==> estimates.entries[r[i].target] >= estimates.entries[r[j].target]
  {
    var top := TopSlowFiles(estimates);
    TopSlowFilesByPosition(estimates, top);
    PerPath(seq(|top|, i requires 0 <= i < |top| => top[i].0), CodeRestructuring, Medium)
  }

  /** The top files position by position: each is a slow file with its own estimate, slowest first. */
  lemma TopSlowFilesByPosition(estimates: OMap<Path, real>, top: seq<Timed>)
    requires estimates.Valid() && top == TopSlowFiles(estimates)
    ensures forall i :: 0 <= i < |top| ==>
              top[i].0 in estimates.entries && estimates.entries[top[i].0] == top[i].1 > SlowEstimateThreshold
    ensures forall i, j :: 0 <= i < j < |top| ==> top[i].1 >= top[j].1
  {
    assert forall i :: 0 <= i < |top| ==> top[i] in top;
  }

  /** With no estimates yet, as in a fresh analysis run, there is nothing to restructure. */
  lemma NoEstimatesNoRestructuring()
    ensures RestructuringSuggestions(Empty<Path, real>()) == []
  {
  }

  // ----- All rules together -----

  /** Position of each rule in `generate_suggestions`. */
  function Rank(k: Kind): nat {
    match k
    case ForwardDeclaration => 0
    case PimplPattern => 1
    case UnifiedHeader => 2
    case BuildOptimization => 3
    case CompilerOptimization => 4
    case CodeRestructuring => 5
    case CachingStrategy => 6
  }

  ghost predicate RankOrdered(r: seq<Suggestion>) {
    forall i, j :: 0 <= i < j < |r| ==> Rank(r[i].kind) <= Rank(r[j].kind)
  }

  predicate AllOfKind(r: seq<Suggestion>, k: Kind) {
    forall i :: 0 <= i < |r| ==> r[i].kind == k
  }

  /** Appending suggestions of one kind, ranked no lower than everything before, keeps the order. */
  lemma AppendKind(a: seq<Suggestion>, b: seq<Suggestion>, k: Kind)
    requires RankOrdered(a) && forall i :: 0 <= i < |a| ==> Rank(a[i].kind) <= Rank(k)
    requires AllOfKind(b, k)
    ensures RankOrdered(a + b) && forall i :: 0 <= i < |a + b| ==> Rank((a + b)[i].kind) <= Rank(k)
  {
  }

  /** Seven single-kind lists in rule order form a rank-ordered list. */
  lemma RulesInOrder(fd: seq<Suggestion>, pimpl: seq<Suggestion>, unified: seq<Suggestion>, build: seq<Suggestion>,
                     compiler: seq<Suggestion>, restructuring: seq<Suggestion>, caching: seq<Suggestion>)
    requires AllOfKind(fd, ForwardDeclaration) && AllOfKind(pimpl, PimplPattern) && AllOfKind(unified, UnifiedHeader)
    requires AllOfKind(build, BuildOptimization) && AllOfKind(compiler, CompilerOptimization)
    requires AllOfKind(restructuring, CodeRestructuring) && AllOfKind(caching, CachingStrategy)
    ensures RankOrdered(fd + pimpl + unified + build + compiler + restructuring + caching)
  {
    AppendKind([], fd, ForwardDeclaration);
    assert [] + fd == fd;
    AppendKind(fd, pimpl, PimplPattern);
    AppendKind(fd + pimpl, unified, UnifiedHeader);
    AppendKind(fd + pimpl + unified, build, BuildOptimization);
    AppendKind(fd + pimpl + unified + build, compiler, CompilerOptimization);
    AppendKind(fd + pimpl + unified + build + compiler, restructuring, CodeRestructuring);
    AppendKind(fd + pimpl + unified + build + compiler + restructuring, caching, CachingStrategy);
  }

  predicate NoneOfKind(r: seq<Suggestion>, k: Kind) {
    forall i :: 0 <= i < |r| ==> r[i].kind != k
  }

  /** The five rules that run before `_suggest_code_restructuring` never suggest a restructuring. */
  lemma EarlierRulesDoNotRestructure(fd: seq<Suggestion>, pimpl: seq<Suggestion>, unified: seq<Suggestion>,
                                     build: seq<Suggestion>, compiler: seq<Suggestion>)
    requires AllOfKind(fd, ForwardDeclaration) && AllOfKind(pimpl, PimplPattern) && AllOfKind(unified, UnifiedHeader)
    requires AllOfKind(build, BuildOptimization) && AllOfKind(compiler, CompilerOptimization)
    ensures NoneOfKind(fd + pimpl + unified + build + compiler, CodeRestructuring)
  {
  }

  /** Every restructuring suggestion of `r` is one of `middle`. */
  ghost predicate RestructuringOnlyFrom(r: seq<Suggestion>, middle: seq<Suggestion>) {
    forall i :: 0 <= i < |r| && r[i].kind == CodeRestructuring ==> r[i] in middle
  }

  /** In `before + middle + caching`, every restructuring comes from `middle`. */
  lemma RestructuringComesFrom(before: seq<Suggestion>, middle: seq<Suggestion>, caching: seq<Suggestion>)
    requires NoneOfKind(before, CodeRestructuring) && AllOfKind(caching, CachingStrategy)
    ensures RestructuringOnlyFrom(before + middle + caching, middle)
  {
    var r := before + middle + caching;
    forall i | 0 <= i < |r| ensures r[i].kind == CodeRestructuring ==> r[i] in middle {
      if i < |before| {
        assert r[i] == before[i];
      } else if i >= |before| + |middle| {
        assert r[i] == caching[i - |before| - |middle|];
      } else {
        assert r[i] == middle[i - |before|];
      }
    }
  }

  /** The suggestions of kind `k`, in their order in `r`. */
  function OfKind(r: seq<Suggestion>, k: Kind): seq<Suggestion> {
    Filter(r, KindIs(k))
  }

  /** The test "is of kind `k`". */
  function KindIs(k: Kind): Suggestion -> bool {
    (s: Suggestion) => s.kind == k
  }

  /** The rule of `generate_suggestions` that makes suggestions of kind `k`, applied to the run's data. */
  function RuleOutput(k: Kind, dependencyCount: OMap<Path, nat>, fileSizes: OMap<Path, nat>, files: seq<SourceFile>,
                      b: BuildSystem, c: Compiler, oc: OptimizationConfig, estimates: OMap<Path, real>): seq<Suggestion>
    requires dependencyCount.Valid() && fileSizes.Valid() && estimates.Valid()
  {
    match k
    case ForwardDeclaration => ForwardDeclarations(dependencyCount)
    case PimplPattern => PimplCandidates(fileSizes)
    case UnifiedHeader => UnifiedHeaders(files)
    case BuildOptimization => BuildOptimizations(b, oc)
    case CompilerOptimization => CompilerOptimizations(c)
    case CodeRestructuring => RestructuringSuggestions(estimates)
    case CachingStrategy => CachingStrategies(oc)
  }

  /** Of a single-kind list, the suggestions of kind `k` are all of it or none of it. */
  lemma OfKindOfBlock(r: seq<Suggestion>, kr: Kind, k: Kind)
    requires AllOfKind(r, kr)
    ensures OfKind(r, k) == if k == kr then r else []
  {
    if k == kr {
      FilterKeepsAll(r, KindIs(k));
    } else {
      FilterDropsAll(r, KindIs(k));
    }
  }

  /** In seven single-kind lists of distinct kinds laid end to end, each kind's suggestions are its own list. */
  lemma OfKindOfRules(fd: seq<Suggestion>, pimpl: seq<Suggestion>, unified: seq<Suggestion>, build: seq<Suggestion>,
                      compiler: seq<Suggestion>, restructuring: seq<Suggestion>, caching: seq<Suggestion>, k: Kind)
    requires AllOfKind(fd, ForwardDeclaration) && AllOfKind(pimpl, PimplPattern) && AllOfKind(unified, UnifiedHeader)
    requires AllOfKind(build, BuildOptimization) && AllOfKind(compiler, CompilerOptimization)
    requires AllOfKind(restructuring, CodeRestructuring) && AllOfKind(caching, CachingStrategy)
    ensures OfKind(fd + pimpl + unified + build + compiler + restructuring + caching, k)
            == match k
               case ForwardDeclaration => fd
               case PimplPattern => pimpl
               case UnifiedHeader => unified
               case BuildOptimization => build
               case CompilerOptimization => compiler
               case CodeRestructuring => restructuring
               case CachingStrategy => caching
  {
    var s1 := fd + pimpl;
    var s2 := s1 + unified;
    var s3 := s2 + build;
    var s4 := s3 + compiler;
    var s5 := s4 + restructuring;
    OfKindOfBlock(fd, ForwardDeclaration, k);
    var o1 := OfKindAppendBlock(fd, pimpl, PimplPattern, k);
    var o2 := OfKindAppendBlock(s1, unified, UnifiedHeader, k);
    var o3 := OfKindAppendBlock(s2, build, BuildOptimization, k);
    var o4 := OfKindAppendBlock(s3, compiler, CompilerOptimization, k);
    var o5 := OfKindAppendBlock(s4, restructuring, CodeRestructuring, k);
    var o6 := OfKindAppendBlock(s5, caching, CachingStrategy, k);
  }

  /** Appending a single-kind list adds it to the suggestions of its own kind and nothing to the others. */
  lemma OfKindAppendBlock(a: seq<Suggestion>, r: seq<Suggestion>, kr: Kind, k: Kind) returns (o: seq<Suggestion>)
    requires AllOfKind(r, kr)
    ensures o == OfKind(a + r, k)
    ensures k != kr ==> o == OfKind(a, k)
    ensures k == kr ==> o == OfKind(a, k) + r
  {
    o := OfKind(a + r, k);
    FilterAppend(a, r, KindIs(k));
    OfKindOfBlock(r, kr, k);
  }

  /** The suggestions of the seven rules, in the order `generate_suggestions` runs them. */
  function AllRules(dependencyCount: OMap<Path, nat>, fileSizes: OMap<Path, nat>, files: seq<SourceFile>,
                    b: BuildSystem, c: Compiler, oc: OptimizationConfig, estimates: OMap<Path, real>): (r: seq<Suggestion>)
    requires dependencyCount.Valid() && fileSizes.Valid() && estimates.Valid()
    ensures |r| >= 2 && RankOrdered(r)
    ensures |r| <= |dependencyCount.keys| + |fileSizes.keys| + |files| + 3 + 2 + SlowFilesShown + 1
    ensures RestructuringOnlyFrom(r, RestructuringSuggestions(estimates))
    ensures forall k :: OfKind(r, k) == RuleOutput(k, dependencyCount, fileSizes, files, b, c, oc, estimates)
  {
    var fd := ForwardDeclarations(dependencyCount);
    var pimpl := PimplCandidates(fileSizes);
    var unified := UnifiedHeaders(files);
    var build := BuildOptimizations(b, oc);
    var compiler := CompilerOptimizations(c);
    var restructuring := RestructuringSuggestions(estimates);
    var caching := CachingStrategies(oc);
    CompilerOptimizationsShape(c);
    RulesInOrder(fd, pimpl, unified, build, compiler, restructuring, caching);
    EarlierRulesDoNotRestructure(fd, pimpl, unified, build, compiler);
    RestructuringComesFrom(fd + pimpl + unified + build + compiler, restructuring, caching);
    forall k ensures OfKind(fd + pimpl + unified + build + compiler + restructuring + caching, k)
                     == RuleOutput(k, dependencyCount, fileSizes, files, b, c, oc, estimates) {
      OfKindOfRules(fd, pimpl, unified, build, compiler, restructuring, caching, k);
    }
    fd + pimpl + unified + build + compiler + restructuring + caching
  }

  /**
   * `generate_suggestions`: the seven rules in their fixed order, appended
   * to the suggestions already held.
   */
  function GenerateSuggestions(previous: seq<Suggestion>, dependencyCount: OMap<Path, nat>, fileSizes: OMap<Path, nat>,
                               files: seq<SourceFile>, b: BuildSystem, c: Compiler, oc: OptimizationConfig,
                               estimates: OMap<Path, real>): (r: seq<Suggestion>)
    requires dependencyCount.Valid() && fileSizes.Valid() && estimates.Valid()
    ensures |r| >= |previous| + 2 && r[..|previous|] == previous
    ensures RankOrdered(r[|previous|..])
    ensures |r| - |previous| <= |dependencyCount.keys| + |fileSizes.keys| + |files| + 3 + 2 + SlowFilesShown + 1
    ensures forall i :: |previous| <= i < |r| && r[i].kind == CodeRestructuring ==> r[i] in RestructuringSuggestions(estimates)
    ensures forall k :: OfKind(r[|previous|..], k) == RuleOutput(k, dependencyCount, fileSizes, files, b, c, oc, estimates)
  {
    var added := AllRules(dependencyCount, fileSizes, files, b, c, oc, estimates);
    var r := previous + added;
    assert r[|previous|..] == added;
    assert forall i :: |previous| <= i < |r| ==> r[i] == added[i - |previous|];
    r
  }
}

=== FILE: wrappers.dfy ===
/** Optional values, used wherever the analyser returns `None`. */
module Wrappers {

  datatype Option<+T> = None | Some(value: T) {

    /** Returns the wrapped value, or `default` when there is none. */
    function GetOr(default: T): T {
      match this
      case Some(v) => v
      case None => default
    }
  }
}
